=== FILE: README.md ===
# Mentoring dashboard: a Dafny model of its page rules

The application is a single-page mentoring dashboard with three roles:
student, mentor and administrator. It has no back end. Every page reads one
mock data set and derives what it shows with small sequential rules:

- filters scoped by mentor or student id, with `slice` caps;
- case-insensitive substring searches;
- status buckets and their counts;
- rounded means and percentages;
- colour and badge decision tables;
- expand/collapse toggles;
- a keyword reply classifier;
- a handful of control flags;
- the table that decides which sidebar items and routes each role gets.

This project restates those rules as pure Dafny functions over immutable
datatypes and proves what the pages promise about them:

- filtered lists are order-preserving subsequences whose members are
  characterised exactly;
- buckets partition the list they split;
- toggles flip exactly one membership;
- means and percentages stay in range and round half up;
- the reply classifier keeps its keyword priority;
- the two video-call panels are never open together;
- the sidebar and the route table agree for every role.

The mock data set is written out as constants. Its relationship invariants,
and what the pages compute from it, are proved by evaluation.

Modelling conventions:

- **Ids, not references.** People are linked by id strings: a student holds
  its mentors' ids and a mentor its students' ids. The data module links the
  objects to each other in both directions, and such a cycle cannot be a
  value. Goals, achievements, skills and posts are shared and never mutated,
  so they are embedded by value.
- **Ratings in tenths.** 4.9 is kept as 49. So "rating at least n stars"
  becomes `ratingTenths >= 10 * n`, and satisfaction (rating × 20) becomes
  `2 * ratingTenths`.
- **Rounding.** `Math.round(a / n)` for `n > 0` rounds half up. It is
  characterised by `2nr <= 2a + n < 2nr + 2n`. The quotient is the exact
  rational; the pages round a binary double, which agrees for a mean of
  integers (the division is correctly rounded, so an exact half stays exact)
  but not always for a percentage computed as `(part / total) * 100`.
- **NaN and `undefined`** (a mean over nothing, a failed `find`) are `None`.
- **Lower-casing** is ASCII lower-casing.
- **Trimming** uses JavaScript's whitespace set, by code point.
- **The current mentor.** The mentor pages use "the first mentor of the
  catalogue" as the current mentor. The model takes the mentor's id as a
  parameter.

| file | module | models |
|---|---|---|
| types.dfy | Types | roles, status enums and their texts, the records |
| lists.dfy | Lists | filter, find, slice, toggle, dedupe, flatten, and the find-based join the pages render with |
| text.dfy | Text | `toLowerCase`, `includes`, `trim`, `replace` on one character |
| search.dfy | Search | the name/skill and name/expertise searches, the distinct expertise list |
| stats.dfy | Stats | sums, half-up rounding, the guarded and unguarded means, percentages, average rating |
| progressbar.dfy | ProgressBar | the percentage clamp and the label row |
| cards.dfy | Cards | goal, skill and assignment card tables |
| goals.dfy | GoalsPage | tabs, counts, badges and empty-tab text of the goals page |
| mentor_assignments.dfy | MentorAssignments | the mentor's assignments page |
| mentor_search.dfy | MentorSearch | the mentor search filters and their controls |
| mentor_students.dfy | MentorStudents | the mentor's students page |
| admin_pages.dfy | AdminPages | the administrator's students and mentors pages |
| dashboards.dfy | MentorDashboard, StudentDashboard, AdminDashboard | the three dashboards |
| my_mentors.dfy | MyMentors | the student's "My Mentors" page |
| achievements.dfy | Achievements | locked achievements and the completion percentage |
| community.dfy | CommunityFeed | the community selection and the post feed |
| assistant.dfy | Assistant | the assistant's message log, its queue of timed replies, and the reply classifier |
| videocall.dfy | VideoCall | the call's control flags |
| navigation.dfy | Navigation | the sidebar items and the route table per role |
| fixture.dfy | Fixture | the mock data set, after its links are applied |
| fixture_pages.dfy | FixturePages | what the pages show for the mock data set |

## Model

| member | source | states |
|---|---|---|
| Types.ParseRole | src/types/index.ts:6 | a role text names at most one role, and the text of every role parses back to it |
| Types.RoleRoundTrip | src/types/index.ts:6 | a user's role is exactly one of student, mentor and admin: each role's text parses to that role |
| Types.ParseGoalStatus | src/types/index.ts:36 | a goal status text names at most one of the three statuses |
| Types.GoalStatusRoundTrip | src/types/index.ts:36 | every goal status survives the round trip through its text |
| Types.ParseMeetingStatus | src/types/index.ts:80 | a meeting status text names at most one of the three statuses |
| Types.MeetingStatusRoundTrip | src/types/index.ts:80 | every meeting status survives the round trip through its text |
| Types.ParseAssignmentStatus | src/types/index.ts:89 | an assignment status text names at most one of the four statuses |
| Types.AssignmentStatusRoundTrip | src/types/index.ts:89 | every assignment status survives the round trip through its text |
| Lists.Filter | src/pages/mentor/Students.tsx:18-20 | `filter(p)` keeps exactly the elements satisfying p, each as often as in the source |
| Lists.FilterIsSubsequence | src/pages/mentor/Students.tsx:18-20 | `filter(p)` keeps its elements in their source order |
| Lists.CountIsMultiplicity | src/pages/mentor/Students.tsx:18-20 | the occurrence count used in the filter contracts is the multiset multiplicity |
| Lists.Toggle | src/pages/mentor/Assignments.tsx:33-39 | the toggled id changes membership; every other id keeps its membership; a duplicate-free list stays duplicate-free |
| Lists.ToggleTwice | src/pages/student/Goals.tsx:14-20 | toggling twice restores membership, and restores the list exactly when the id was absent |
| Lists.Capped | src/pages/mentor/Dashboard.tsx:19-21 | `filter(p).slice(0, n)` is the first min(n, matches) matches, in source order, each matching and drawn from the source |
| Lists.Dedupe | src/pages/student/MentorSearch.tsx:15-17 | `Array.from(new Set(xs))` has no duplicates, keeps exactly the elements of `xs`, and keeps their first-occurrence order |
| Lists.DedupeCard | src/pages/admin/Mentors.tsx:44 | the deduplicated list is as long as the set of its elements |
| Lists.JoinKeepsMatched | src/pages/mentor/Assignments.tsx:153-155 | rendering with `find` and skipping the misses keeps exactly the elements whose lookup succeeds, in order |
| Text.Lower | src/pages/mentor/Assignments.tsx:25-26 | lower-casing keeps the length, leaves no upper-case letter and changes nothing else |
| Text.Includes | src/pages/mentor/Assignments.tsx:25-26 | `includes` holds iff the needle occurs at some position |
| Text.MatchesTermCaseInsensitive | src/pages/mentor/Assignments.tsx:24-26 | lower-casing the term or the text does not change the search verdict |
| Text.Trim | src/pages/student/AIAssistant.tsx:21 | the trimmed text is inside the original; it is empty iff the original is all whitespace; otherwise it starts and ends with non-whitespace |
| Text.ReplaceFirst | src/pages/mentor/Assignments.tsx:199 | `replace('-', ' ')` changes only the first hyphen, and leaves a text without a hyphen unchanged |
| Text.ReplaceFirstAt | src/pages/mentor/Assignments.tsx:199 | the character replaced is the first occurrence of the pattern; the text before and after it is kept |
| Search.SearchStudents | src/pages/admin/Students.tsx:15-19 | a student is listed iff the term is empty or its name or a skill name contains the term ignoring case; order is kept; each kept element as often as in the source |
| Search.StudentSearchIgnoresCase | src/pages/admin/Students.tsx:15-19 | typing the term in lower case lists the same students |
| Search.EmptyTermKeepsStudents | src/pages/admin/Students.tsx:16 | an empty term lists every student |
| Search.SearchMentors | src/pages/admin/Mentors.tsx:14-18 | a mentor is listed iff the term is empty or its name or an expertise contains the term ignoring case; order is kept; each kept element as often as in the source |
| Search.MentorSearchIgnoresCase | src/pages/admin/Mentors.tsx:14-18 | typing the term in lower case lists the same mentors |
| Search.EmptyTermKeepsMentors | src/pages/admin/Mentors.tsx:15 | an empty term lists every mentor |
| Search.AllExpertise | src/pages/student/MentorSearch.tsx:15-17 | the expertise checklist holds every expertise some mentor lists, each exactly once, in the order of first mention |
| Search.ExpertiseAreaCount | src/pages/admin/Mentors.tsx:44 | the checklist's length is the number of distinct expertise strings, at most the total number of expertise entries |
| Stats.RoundDiv | src/pages/student/Goals.tsx:30 | `Math.round(a / n)` is the integer r with `2nr <= 2a + n < 2nr + 2n`, i.e. halves round up |
| Stats.RoundDivUnique | src/pages/student/Goals.tsx:30 | that characterisation determines the rounded value uniquely |
| Stats.GuardedMeanProgress | src/pages/student/Goals.tsx:29-31 | 0 for no goals; otherwise the half-up rounded mean of the progress values |
| Stats.MeanProgressWithin | src/pages/student/Goals.tsx:29-31 | the rounded mean lies between the smallest and the largest progress |
| Stats.MeanProgressIsPercentage | src/pages/admin/Students.tsx:118-120 | progress values that are percentages give a percentage |
| Stats.UnguardedMeanProgress | src/pages/mentor/Dashboard.tsx:233 | the mean without a guard: NaN (`None`) exactly when there are no goals, the rounded mean otherwise |
| Stats.GuardedMeanAgrees | src/pages/mentor/Students.tsx:95-97 | the guarded and the unguarded mean agree on every non-empty list; on the empty list only the guarded one is a number (0) |
| Stats.RoundedPercentage | src/pages/student/Achievements.tsx:19 | `Math.round(part / total * 100)` on the exact quotient: undefined for a zero total, half-up rounding of `100 * part / total` otherwise, and a percentage for a part between 0 and the total |
| Stats.AverageRatingTenths | src/pages/admin/Mentors.tsx:74 | the mean rating: undefined for no mentors, otherwise the sum of the ratings over their number, rounded |
| Stats.AverageRatingWithin | src/pages/admin/Mentors.tsx:74 | the average lies between the lowest and the highest rating |
| Stats.Satisfaction | src/pages/admin/Mentors.tsx:231 | satisfaction is rating × 20: a rating in 0..5 gives 0..100, and 100 only for 5 |
| ProgressBar.EffectiveMax | src/components/ui/ProgressBar.tsx:14 | `max` defaults to 100 |
| ProgressBar.Clamp | src/components/ui/ProgressBar.tsx:20 | the result lies in 0..100, leaves values in range alone and sends values outside to the nearer end |
| ProgressBar.Percentage | src/components/ui/ProgressBar.tsx:20 | the filled width always lies in 0..100; with max 0 it is NaN for value 0, and it fills or empties the bar for other values |
| ProgressBar.PercentageEnds | src/components/ui/ProgressBar.tsx:20 | for a positive max, a value at most 0 gives 0 and a value at least max gives 100 |
| ProgressBar.PercentageMonotone | src/components/ui/ProgressBar.tsx:20 | for a fixed positive max, the width never decreases as the value grows |
| ProgressBar.DefaultMaxIsIdentity | src/components/ui/ProgressBar.tsx:14-20 | with the default max, a value in 0..100 is drawn as itself |
| ProgressBar.LabelRowOf | src/components/ui/ProgressBar.tsx:37-40 | the label row appears iff a label is given or showValue is set; the label appears iff it is truthy; "value/max" appears iff showValue |
| ProgressBar.LabelRowNeverEmpty | src/components/ui/ProgressBar.tsx:37-40 | a label row that appears has something in it |
| Cards.GoalBadgeOfText | src/components/dashboard/GoalCard.tsx:14-25 | a status text gets a badge iff it is one of the three goal statuses, and then gets that status's badge |
| Cards.GoalBadgeInjective | src/components/dashboard/GoalCard.tsx:16-21 | the three goal statuses get three different badge variants |
| Cards.ProgressTone | src/components/dashboard/GoalCard.tsx:41 | success iff progress > 75, warning iff progress <= 25, default otherwise |
| Cards.ProgressToneMonotone | src/components/dashboard/GoalCard.tsx:41 | more progress never gives a lower colour (warning, then default, then success) |
| Cards.SkillTone | src/components/dashboard/SkillCard.tsx:24 | success iff level >= 4, default iff 2 <= level < 4, warning iff level < 2 |
| Cards.SkillBarAgreesWithProgress | src/components/dashboard/SkillCard.tsx:20-25 | a level in 0..5 is drawn on the 0..5 scale as 20 × level percent, and its colour is the goal colour of that percentage |
| Cards.AssignmentBadgeOfText | src/components/dashboard/AssignmentCard.tsx:15-28 | a status text gets a badge iff it is one of the four assignment statuses, and then gets that status's badge |
| Cards.AssignmentBadgeInjective | src/components/dashboard/AssignmentCard.tsx:15-28 | the four assignment statuses get four different badge variants |
| Cards.FeedbackBlockOf | src/components/dashboard/AssignmentCard.tsx:39-48 | the feedback box appears iff the feedback is non-empty, and the grade line inside it iff the grade is positive |
| Cards.FooterButton | src/components/dashboard/AssignmentCard.tsx:56-73 | a student sees a button iff the status is not reviewed, "View Submission" iff submitted; a mentor always sees one, "Review" iff submitted |
| Cards.ButtonlessStatuses | src/components/dashboard/AssignmentCard.tsx:56-73 | only "reviewed" leaves the student without a button, and no status leaves the mentor without one |
| Cards.MentorPageToneDiffersFromCard | src/pages/mentor/Assignments.tsx:191-197 | the assignments page colours every status differently from the assignment card |
| GoalsPage.OnTab | src/pages/student/Goals.tsx:23-26 | the 'all' tab keeps every goal; a status tab keeps exactly the goals with that status, in order; each kept element as often as in the source |
| GoalsPage.StatusesPartition | src/pages/student/Goals.tsx:34-39 | the completed, in-progress and not-started counts add up to the number of goals |
| GoalsPage.CountsOf | src/pages/student/Goals.tsx:34-39 | the total is the number of goals and the three status counts sum to it |
| GoalsPage.TabCountIsListLength | src/pages/student/Goals.tsx:106-145 | the count on each tab's label equals the length of the list that tab shows |
| GoalsPage.PageBadgeAgreesWithCard | src/pages/student/Goals.tsx:189-195 | the page colours goal badges as the goal card does |
| GoalsPage.StatusLabel | src/pages/student/Goals.tsx:196 | the badge text is the status text with its hyphen turned into a space |
| GoalsPage.EmptyTabOf | src/pages/student/Goals.tsx:314-316 | an empty 'all' tab says no goals exist; an empty status tab names that status |
| MentorAssignments.OfMentor | src/pages/mentor/Assignments.tsx:18-20 | the mentor's assignments are exactly those with its id, in catalogue order; each kept element as often as in the source |
| MentorAssignments.Visible | src/pages/mentor/Assignments.tsx:18-31 | listed iff set by the mentor, matching the search, and of the filter's status unless the filter is 'all'; order is kept; each kept element as often as in the source |
| MentorAssignments.NoFiltersListsAll | src/pages/mentor/Assignments.tsx:23-31 | an empty search with the 'all' filter lists every assignment of the mentor |
| MentorAssignments.EmptyTermShortcutAgrees | src/pages/mentor/Assignments.tsx:24-26 | the empty-term shortcut agrees with the substring test |
| MentorAssignments.StatusFilterNarrows | src/pages/mentor/Assignments.tsx:27-30 | picking a status lists a subsequence of what 'all' lists for the same search |
| MentorAssignments.Bucket | src/pages/mentor/Assignments.tsx:42-47 | a bucket holds exactly the listed assignments with its status; each kept element as often as in the source |
| MentorAssignments.BucketsPartition | src/pages/mentor/Assignments.tsx:42-56 | the four bucket sizes add up to the length of the list |
| MentorAssignments.BucketsDisjoint | src/pages/mentor/Assignments.tsx:42-47 | an assignment lies in exactly one bucket |
| MentorAssignments.CountsOf | src/pages/mentor/Assignments.tsx:50-56 | the 'all' count is the list length, each status count is the size of that status's bucket, and the four add up to the total |
| MentorAssignments.StatusCountIsBucketSize | src/pages/mentor/Assignments.tsx:50-56 | the number on each status card is how many of the listed assignments have that status |
| MentorAssignments.ReviewedAtMostTotal | src/pages/mentor/Assignments.tsx:316-317 | a student's reviewed count never exceeds its assignment count |
| MentorAssignments.Cards | src/pages/mentor/Assignments.tsx:153-155 | each card pairs an assignment with the first student in the catalogue carrying its student id, the one `find` returns; an assignment whose student is unknown is skipped |
| MentorAssignments.StatusLabel | src/pages/mentor/Assignments.tsx:199 | the badge text is the status text with "in-progress" shown as "in progress" |
| MentorAssignments.EmptyStateOf | src/pages/mentor/Assignments.tsx:352-356 | a non-empty search wins, then a status other than 'all' (named with its hyphen spaced), then the default text |
| MentorAssignments.EmptyMessageMatchesBadge | src/pages/mentor/Assignments.tsx:352-356 | a status picked on the page is named in the empty message as its badge names it |
| MentorSearch.Listed | src/pages/student/MentorSearch.tsx:20-34 | a mentor is listed iff the search, expertise and rating criteria all hold; order is kept; each kept element as often as in the source |
| MentorSearch.NoFiltersListsAll | src/pages/student/MentorSearch.tsx:22-31 | no term, no checked expertise and rating 0 list every mentor |
| MentorSearch.RatingMonotone | src/pages/student/MentorSearch.tsx:31 | raising the minimum rating never adds a mentor |
| MentorSearch.EveryOptionMatches | src/pages/student/MentorSearch.tsx:27-28 | each checklist box, checked alone, lists at least one mentor |
| MentorSearch.StarValue | src/pages/student/MentorSearch.tsx:81-86 | the star buttons set a minimum between 1 and 5 |
| MentorSearch.Apply | src/pages/student/MentorSearch.tsx:36-42 | checking a box flips exactly that expertise; a star sets its value; Clear sets 0; "Reset all filters" clears everything; the side-panel reset changes nothing |
| MentorSearch.ControlsKeepSane | src/pages/student/MentorSearch.tsx:81-96 | every sequence of controls keeps the minimum rating in 0..5 and the checked list free of duplicates |
| MentorSearch.ReachableRatingInRange | src/pages/student/MentorSearch.tsx:81-96 | from the initial state the minimum rating stays in 0..5 |
| MentorSearch.ResetListsAll | src/pages/student/MentorSearch.tsx:248-252 | "Reset all filters" lists every mentor |
| MentorSearch.SidePanelResetKeepsFilters | src/pages/student/MentorSearch.tsx:132-134 | the side panel's "Reset Filters" button leaves checked expertise checked, unlike "Reset all filters" |
| MentorSearch.SidePanelResetIntended | src/pages/student/MentorSearch.tsx:248-252 | the side panel's reset wired as its label says clears the term, the checklist and the rating |
| MentorSearch.SidePanelResetIntendedListsAll | src/pages/student/MentorSearch.tsx:248-252 | wired that way, it lists every mentor |
| MentorStudents.OfMentor | src/pages/mentor/Students.tsx:18-20 | the listed students are exactly those whose mentor list holds the mentor, in catalogue order; each kept element as often as in the source |
| MentorStudents.Listed | src/pages/mentor/Students.tsx:23-27 | a student is listed iff it has the mentor and matches the name/skill search; each kept element as often as in the source |
| MentorStudents.FindStudent | src/pages/mentor/Students.tsx:40 | `find` by id: nothing iff no student has the id, otherwise the first student with it |
| MentorStudents.StudentGoals | src/pages/mentor/Students.tsx:38-42 | the catalogue goals whose id the student holds, in catalogue order; nothing for an unknown student |
| MentorStudents.StudentGoalsCoverOwnGoals | src/pages/mentor/Students.tsx:38-42 | a known student whose goals come from the catalogue is shown every one of them |
| MentorStudents.StudentAssignments | src/pages/mentor/Students.tsx:45-49 | an assignment is kept iff both its student id and its mentor id match; each kept element as often as in the source |
| MentorStudents.OverallProgressOfShownGoals | src/pages/mentor/Students.tsx:95-97 | the guarded mean of the shown goals is a percentage, and 0 for an unknown student |
| MentorStudents.AssignmentToneAgreesWithCard | src/pages/mentor/Students.tsx:197-202 | this page colours assignments as the assignment card does, unlike the assignments page |
| AdminPages.MentorsOf | src/pages/admin/Students.tsx:173-186 | the mentor cards pair each of the student's mentor ids with the first mentor in the catalogue carrying that id, the one `find` returns, skipping ids with no mentor |
| AdminPages.AllMentorsKnown | src/pages/admin/Students.tsx:173-186 | when every id is known, there is one card per mentor id |
| AdminPages.ExpertiseAreas | src/pages/admin/Mentors.tsx:44 | the number of distinct expertise strings: at most the number of entries, and positive when any mentor lists one |
| AdminPages.StudentPreview | src/pages/admin/Mentors.tsx:176-189 | the first min(3, n) students are previewed, and "View All Students" appears iff the mentor has more than three |
| MentorDashboard.UpcomingMeetings | src/pages/mentor/Dashboard.tsx:19-21 | the first three of the mentor's scheduled meetings in catalogue order (a prefix of all of them); all of them when fewer than three |
| MentorDashboard.PendingReviews | src/pages/mentor/Dashboard.tsx:24-26 | the first three of the mentor's submitted assignments in catalogue order (a prefix of all of them); all of them when fewer than three |
| MentorDashboard.SummaryCardsCapped | src/pages/mentor/Dashboard.tsx:59-74 | the session and review cards show min(3, matches), not the number of matches |
| MentorDashboard.ProgressRows | src/pages/mentor/Dashboard.tsx:221 | the progress rows are the first three of the mentor's students; all of them when the mentor has fewer than three |
| MentorDashboard.CompletedAtMostTotal | src/pages/mentor/Dashboard.tsx:229 | a row's completed count never exceeds its goal count |
| MentorDashboard.RowProgress | src/pages/mentor/Dashboard.tsx:233 | the row's bar value is NaN iff the student has no goals, and otherwise the guarded mean |
| MentorDashboard.NoGoalsRowIsNaN | src/pages/mentor/Dashboard.tsx:233 | a listed student without goals sends NaN to the bar, where the other pages show 0 |
| MentorDashboard.RowProgressIsPercentage | src/pages/mentor/Dashboard.tsx:233 | a row with goals whose progress values are percentages shows a percentage |
| MentorDashboard.MeetingRows | src/pages/mentor/Dashboard.tsx:128-130 | each meeting row pairs a meeting with the first student in the catalogue carrying its student id, the one `find` returns; meetings with an unknown student are skipped |
| MentorDashboard.ReviewRows | src/pages/mentor/Dashboard.tsx:178 | each review row pairs a submission with the first student in the catalogue carrying its student id, the one `find` returns; submissions with an unknown student are skipped |
| StudentDashboard.UpcomingGoals | src/pages/student/Dashboard.tsx:13 | the first two not-completed goals of the catalogue, a prefix of all of them in order |
| StudentDashboard.FirstOpenGoalShown | src/pages/student/Dashboard.tsx:13 | the first not-completed goal of the catalogue heads the list |
| StudentDashboard.UpcomingMeetings | src/pages/student/Dashboard.tsx:14-16 | the first two of the student's scheduled meetings, a prefix of all of them in catalogue order |
| StudentDashboard.ShownMentors | src/pages/student/Dashboard.tsx:17 | the mentors shown are a prefix of at most two of the student's mentors |
| StudentDashboard.RecentAchievements | src/pages/student/Dashboard.tsx:18 | the achievements shown are the first two of the catalogue |
| StudentDashboard.MeetingCards | src/pages/student/Dashboard.tsx:96-106 | each meeting card pairs a meeting with the first mentor in the catalogue carrying its mentor id, the one `find` returns; meetings with an unknown mentor are skipped |
| AdminDashboard.StudentsPreview | src/pages/admin/Dashboard.tsx:119 | at most five students, a prefix of the catalogue |
| AdminDashboard.AvatarsOf | src/pages/admin/Dashboard.tsx:190-201 | at most five avatars, a prefix of the members; the "+n" badge appears iff there are more than five, showing members − 5, and then exactly five avatars show |
| AdminDashboard.AvatarsAccountForAll | src/pages/admin/Dashboard.tsx:185-201 | avatars and badge together count every member once |
| MyMentors.MentorMeetings | src/pages/student/MyMentors.tsx:13-17 | a meeting is kept iff both its mentor id and its student id match; each kept element as often as in the source |
| MyMentors.MentorAssignments | src/pages/student/MyMentors.tsx:20-24 | an assignment is kept iff both its mentor id and its student id match; each kept element as often as in the source |
| MyMentors.ActiveAssignments | src/pages/student/MyMentors.tsx:66 | the active assignments are the student's assignments, from any mentor, not yet reviewed; each kept element as often as in the source |
| MyMentors.ActivePlusReviewed | src/pages/student/MyMentors.tsx:66 | active and reviewed assignments together are all of the student's assignments |
| MyMentors.MeetingStatusesPartition | src/pages/student/MyMentors.tsx:51 | scheduled, completed and cancelled meetings add up to all of the student's meetings |
| MyMentors.UpcomingSessions | src/pages/student/MyMentors.tsx:51 | the "Upcoming Sessions" figure counts meetings of every status, so it is at least the scheduled count |
| MyMentors.SkillAreas | src/pages/student/MyMentors.tsx:37 | the skill-area figure is the sum of the expertise list lengths, duplicates included, so at least the distinct count |
| Achievements.Locked | src/pages/student/Achievements.tsx:12-14 | the locked achievements are the catalogue entries whose id is not unlocked, in catalogue order; each kept element as often as in the source |
| Achievements.LockedDisjoint | src/pages/student/Achievements.tsx:12-14 | no achievement id is both locked and unlocked |
| Achievements.LockedKeys | src/pages/student/Achievements.tsx:12-14 | the locked ids are the catalogue ids minus the unlocked ids |
| Achievements.LockedPlusUnlocked | src/pages/student/Achievements.tsx:12-18 | with distinct ids and unlocked ids from the catalogue, locked + unlocked = total |
| Achievements.CompletionPercentage | src/pages/student/Achievements.tsx:19 | undefined for an empty catalogue; otherwise the exact unlocked share rounded half up, in 0..100 when unlocked <= total |
| Achievements.CompletionIsPercentage | src/pages/student/Achievements.tsx:17-19 | under the conditions above the percentage is defined and lies in 0..100 |
| CommunityFeed.FindCommunity | src/pages/student/Community.tsx:20 | `find` by id: nothing iff no community has the id, otherwise the first with it |
| CommunityFeed.FilteredPosts | src/pages/student/Community.tsx:18-23 | with no selection every post shows; with one, exactly the posts the community lists, in post order; each kept element as often as in the source |
| CommunityFeed.UnknownCommunityShowsNothing | src/pages/student/Community.tsx:20-21 | a selected id that names no community shows no posts |
| CommunityFeed.SelectedCommunityPosts | src/pages/student/Community.tsx:19-22 | selecting a community shows exactly the posts whose id is in its post list |
| CommunityFeed.ClickCommunity | src/pages/student/Community.tsx:102 | clicking the selected community clears the selection; clicking another selects it |
| CommunityFeed.ClickTwice | src/pages/student/Community.tsx:102 | two clicks on the same community leave it selected if it was selected, and leave nothing selected otherwise |
| CommunityFeed.AllUsers | src/pages/student/Community.tsx:15 | the authors are the students followed by the mentors |
| CommunityFeed.Feed | src/pages/student/Community.tsx:208-211 | each feed entry pairs a post with the first user of its author id |
| CommunityFeed.FeedPosts | src/pages/student/Community.tsx:208-211 | the feed keeps exactly the posts whose author is a known user, in order |
| Assistant.Initial | src/pages/student/AIAssistant.tsx:9-16 | the log opens with one assistant greeting numbered 1; the input is empty and no reply is due |
| Assistant.Send | src/pages/student/AIAssistant.tsx:20-44 | blank input changes nothing; otherwise exactly one user message is appended, numbered one past the log, with the untrimmed text, the input is cleared, and a reply numbered two past the old log length is queued for that text |
| Assistant.Deliver | src/pages/student/AIAssistant.tsx:35-43 | a firing timer appends the oldest queued reply under the id fixed at send time, with the answer to its question, and dequeues it; with no timer running nothing changes |
| Assistant.Step | src/pages/student/AIAssistant.tsx:118-137 | typing sets the input; clicking a suggestion sets the input to it; Send and Enter send; a due timer delivers |
| Assistant.RunOnlyAppends | src/pages/student/AIAssistant.tsx:30-41 | whatever the events and their timing, the log is only ever appended to |
| Assistant.SendKeepsNumbering | src/pages/student/AIAssistant.tsx:24-32 | a send while no reply is due keeps ids counting up from 1 and queues the reply under the next number |
| Assistant.StepKeepsCoherent | src/pages/student/AIAssistant.tsx:20-43 | a paced event (no send while a reply is due) keeps the log numbered and the queued reply on the next number |
| Assistant.RunKeepsNumbering | src/pages/student/AIAssistant.tsx:20-43 | a run that never sends while a reply is due keeps the ids numbered 1, 2, 3, ... in log order |
| Assistant.SessionFromGreeting | src/pages/student/AIAssistant.tsx:9-16 | every session keeps the greeting first, with id 1; a paced session is numbered throughout |
| Assistant.NumberedIdsDistinct | src/pages/student/AIAssistant.tsx:91 | the ids of a numbered log are distinct, which the list's `key` requires |
| Assistant.DuplicateKeyOnQuickSecondSend | src/pages/student/AIAssistant.tsx:25 | two non-blank sends before the first reply: the second user message and the reply to the first question both get id 3, so the log is not numbered |
| Assistant.TwoQuickSends | src/pages/student/AIAssistant.tsx:25 | after two quick sends from the greeting the second user message has id 3 and the first queued reply holds id 3 too |
| Assistant.QuickSendsRun | src/pages/student/AIAssistant.tsx:20-43 | the five events of a quick second send amount to two sends and one delivery |
| Assistant.DeliverNumbersFromPending | src/pages/student/AIAssistant.tsx:37 | the appended reply's id is the one its timer holds, after the unchanged log |
| Assistant.DeliverIntended | src/pages/student/AIAssistant.tsx:35-43 | corrected delivery: the reply takes the next number of the log it joins |
| Assistant.StepIntendedKeepsNumbering | src/pages/student/AIAssistant.tsx:20-43 | with the corrected delivery every event keeps a numbered log numbered |
| Assistant.RunIntendedKeepsNumbering | src/pages/student/AIAssistant.tsx:20-43 | with the corrected delivery any sequence of events, however quick, keeps the ids 1, 2, 3, ... |
| Assistant.IntendedAgreesWhenPaced | src/pages/student/AIAssistant.tsx:37 | on a coherent state and a paced event the corrected step equals the step as written |
| Assistant.PageReplyIsCanned | src/pages/student/AIAssistant.tsx:35-43 | on the page the appended reply carries its timer's id and is the classifier's reply to the queued question, one of the five canned texts |
| Assistant.SuggestionSendsNothing | src/pages/student/AIAssistant.tsx:137 | clicking a suggestion fills the input and leaves the log and the queued replies untouched |
| Assistant.Reply | src/pages/student/AIAssistant.tsx:47-61 | the reply is one of five texts, chosen by keyword in the fixed priority goal/progress, recommend/suggestion, stuck/help, schedule/meeting, then the default |
| Assistant.ReplyIgnoresCase | src/pages/student/AIAssistant.tsx:48 | the classifier ignores case |
| Assistant.FirstSuggestionReply | src/pages/student/AIAssistant.tsx:63-68 | the first suggestion gets the goal reply |
| Assistant.SecondSuggestionReply | src/pages/student/AIAssistant.tsx:63-68 | the second suggestion gets the recommendation reply |
| Assistant.ThirdSuggestionReply | src/pages/student/AIAssistant.tsx:63-68 | the third suggestion gets the help reply |
| Assistant.FourthSuggestionReply | src/pages/student/AIAssistant.tsx:54-67 | the scheduling suggestion says "schedule" yet gets the help reply, because "help" is checked first |
| VideoCall.Press | src/pages/student/VideoCall.tsx:76-114 | each media button flips only its own flag; opening chat closes participants and the reverse |
| VideoCall.PressKeepsOnePanel | src/pages/student/VideoCall.tsx:100-114 | from a state with at most one panel open, any click keeps at most one open |
| VideoCall.NeverBothPanels | src/pages/student/VideoCall.tsx:100-114 | no sequence of clicks opens both panels |
| VideoCall.ReachableOnePanel | src/pages/student/VideoCall.tsx:9-13 | from the all-off start, chat and participants are never both open |
| VideoCall.MediaFlagsIndependent | src/pages/student/VideoCall.tsx:76-92 | after any clicks, each media flag is its start value flipped once per click of its own button |
| VideoCall.ViewOf | src/pages/student/VideoCall.tsx:65-95 | "Unmute" iff muted, "Start Video" iff video off, "Stop Sharing" iff sharing, and the mic-off badge iff muted |
| Navigation.SidebarItems | src/components/layout/Sidebar.tsx:48-52 | 9 items for 'student', 4 for 'mentor', and the administrator's 3 for any other text |
| Navigation.SidebarWellFormed | src/components/layout/Sidebar.tsx:23-46 | every list starts with /dashboard and has no path twice |
| Navigation.Match | src/App.tsx:36-73 | a path shows nothing iff no path route answers to it, otherwise the page of a route that does |
| Navigation.MatchAt | src/App.tsx:36-73 | the first route answering to the path decides |
| Navigation.Canonical | src/App.tsx:36-73 | the router's form of a URL has no upper-case letter and ends in a slash only when it is `/` |
| Navigation.CanonicalKeeps | src/App.tsx:36-73 | a path already in that form is left as it is |
| Navigation.CanonicalIgnoresCase | src/App.tsx:36-73 | lower-casing a URL first changes nothing, since routes match without regard to case |
| Navigation.CanonicalIgnoresTrailingSlash | src/App.tsx:36-73 | a trailing slash changes nothing, since a route also answers with slashes after its path |
| Navigation.ResolveCanonical | src/App.tsx:36-73 | a URL already in canonical form shows the page its path resolves to |
| Navigation.ResolveUrlNormalises | src/App.tsx:36-73 | `/Dashboard`, `/dashboard/` and `/dashboard` show the same page: a URL shows what its lower-cased, slash-trimmed form shows |
| Navigation.IndexShowsDashboard | src/App.tsx:40-67 | for every role `/` shows what `/dashboard` shows, the role's own dashboard |
| Navigation.RouteCounts | src/App.tsx:38-72 | 9, 4 and 3 path routes for student, mentor and admin; none for any other text |
| Navigation.MentorStudentsRoute | src/App.tsx:59 | `/students` is the mentor's students page for a mentor |
| Navigation.AdminStudentsRoute | src/App.tsx:70 | `/students` is the administrator's students page for an administrator |
| Navigation.StudentHasNoStudentsRoute | src/App.tsx:38-51 | a student has no `/students` route |
| Navigation.SidebarAgreesWithRoutes | src/App.tsx:38-72 | every sidebar item of a role leads to a page that role's routes declare |
| Navigation.UnknownRoleSidebarLeadsNowhere | src/components/layout/Sidebar.tsx:48-52 | a role text outside the three gets the administrator's sidebar, and every item of it shows nothing |
| Fixture.LinksSymmetric | src/data/mockData.ts:103-109 | a mentor is among a student's mentors iff the student is among that mentor's students |
| Fixture.MeetingPairsLinked | src/data/mockData.ts:220-254 | every meeting pairs a student with one of that student's mentors |
| Fixture.AssignmentPairsNotAllLinked | src/data/mockData.ts:269-279 | assign2 pairs m1 with s2, whose only mentor is m2; the other assignments pair linked people |
| Fixture.IdsUnique | src/data/mockData.ts:5-368 | ids are unique within every collection |
| Fixture.EachPostInOneCommunity | src/data/mockData.ts:371-373 | each post is listed by exactly one community |
| Fixture.ValuesInRange | src/data/mockData.ts:112-212 | goal progress lies in 0..100, skill levels in 1..5, and every student's goals come from the goal list |
| Fixture.CurrentUserFacts | src/data/mockData.ts:376-379 | the signed-in user is s1 with mentors m1, m2 and achievements ach1, ach2, and is a student |
| FixturePages.CurrentUserNavigation | src/App.tsx:31 | with the mock signed-in user only the student's sidebar and routes are active |
| FixturePages.CurrentUserAchievements | src/pages/student/Achievements.tsx:9-19 | for the signed-in user, ach3 is the only locked achievement and the page reads 67% |
| FixturePages.FirstMentorDashboard | src/pages/mentor/Dashboard.tsx:11-26 | m1's dashboard shows one meeting, no reviews, and rows for s1 (33%) and s3 (53%) |
| FixturePages.StudentDashboardGoals | src/pages/student/Dashboard.tsx:13 | the student dashboard shows g1 and g2, though the signed-in student does not hold g2 |
| FixturePages.CurrentUserMyMentors | src/pages/student/MyMentors.tsx:37-66 | for s1: 6 skill areas, 1 session, 1 active assignment |
| FixturePages.AdminFigures | src/pages/admin/Mentors.tsx:74 | the average rating is 4.8; comm1 shows four avatars and no badge; m1 previews s1 and s3 with no "View All" |

## Left out

- Rendering is not modelled: JSX, CSS class strings, icons, layout, and the size and colour props the rules do not decide.
- The presentational components are not modelled, because each has at most a one-line conditional: src/components/layout/Header.tsx, src/components/layout/Layout.tsx, src/components/dashboard/MentorCard.tsx, src/components/dashboard/AchievementCard.tsx, src/components/dashboard/UpcomingMeetingCard.tsx and src/components/community/PostCard.tsx.
- Dates are not modelled: deadlines, due dates, meeting times, `addDays`/`subDays`, date formatting, and `daysLeft`, which depends on the wall clock.
- The assistant's reply timer is modelled only by the order it imposes: every timer has the same one-second delay, so replies are delivered oldest first by a `ReplyDue` event that may come at any point. Real time is not modelled.
- Assistant.RunKeepsNumbering: the numbering is promised only for paced runs, with no send while a reply is due; a quicker send duplicates an id (see Findings).
- Assistant.SendKeepsNumbering: promised only for a send with no reply due, for the same reason.
- The assistant's log functions take the reply text as a parameter; the page's text is `Assistant.Reply`, joined to the log in `Assistant.PageReplyIsCanned`.
- The random "trending" counts of the community page are left out, because they come from `Math.random`.
- Stats.RoundedPercentage: rounds the exact percentage, not the double `(part / total) * 100`; for 23 of 40 and 46 of 80 the page shows 57 where the model gives 58.
- Achievements.CompletionPercentage: inherits the exact rounding of `Stats.RoundedPercentage`, so 23 unlocked of 40 is 58 here and 57 on the page.
- Stats.AverageRatingTenths: rounds the exact mean in tenths half up; `toFixed(1)` formats the double mean of the double ratings, which can round an apparent half the other way.
- Floating-point formatting (`toFixed`) is not modelled. Ratings are kept in tenths and means rounded as integers. The progress bar's own arithmetic is modelled over reals, with NaN as `None`.
- Unicode lower-casing is not modelled; lower-casing is ASCII only.
- The analytics page is left out. It draws static chart data through a chart library.
- The hard-coded marketing figures on every page are left out.
- The logout redirect through `window.location` is left out.
- Router internals and state scheduling are left out. A child route's path is kept already joined to the layout's `/`, and each state update is one function application.
- Navigation.Resolve: `None` stands both for a URL no route matches, where nothing at all renders, and for `/` under a role text with no block, where the layout renders with an empty outlet; the model does not tell the two apart.
- Navigation.ResolveUrl: the router's normalisation is modelled only as case-folding of ASCII letters and dropping trailing slashes; percent-decoding, dot segments and repeated inner slashes are not modelled.
- The avatar, availability and `progress` fields of the records are not modelled, because no rule reads them.
- The administrator dashboard's "Total Students" and "Total Mentors" cards are not modelled; they are plain catalogue lengths.
- The mentor pages take "the first mentor of the catalogue" as the current mentor. Here the mentor's id is a parameter, and the mock data set's first mentor is used in `FixturePages.FirstMentorDashboard`.
- MyMentors.SkillAreas: takes the student's mentor records as a parameter rather than resolving them from the data module.
- The people links are stored as id lists. The data module's object links in both directions cannot be values in Dafny, and no rule compares the objects themselves.

## Findings

| source | as written | input that shows it | evidently intended | confidence | as-written member | corrected member |
|---|---|---|---|---|---|---|
| src/pages/mentor/Dashboard.tsx:233 | the progress row divides the sum of goal progress by `student.goals.length` with no guard | a student of the mentor with no goals: 0 / 0 is NaN, and NaN goes to the progress bar | 0 for a student without goals, as the students pages compute it (src/pages/mentor/Students.tsx:95-97, src/pages/admin/Students.tsx:118-120) | not executed | MentorDashboard.NoGoalsRowIsNaN | Stats.GuardedMeanProgress |
| src/pages/student/MentorSearch.tsx:132-134 | the side panel's "Reset Filters" button has no click handler | check one expertise box, then press "Reset Filters": the box stays checked and the list stays filtered | the same effect as "Reset all filters" (src/pages/student/MentorSearch.tsx:248-252) | not executed | MentorSearch.SidePanelResetKeepsFilters | MentorSearch.SidePanelResetIntendedListsAll |
| src/pages/student/AIAssistant.tsx:37 | the reply's id is `messages.length + 2`, taken from the log as it was when the message was sent | type "a", send, type "b", send within a second: the second user message and the first reply both have id 3, and the list is keyed by id | the reply takes the next id of the log it joins | not executed | Assistant.DuplicateKeyOnQuickSecondSend | Assistant.RunIntendedKeepsNumbering |

For the first row:

- `MentorDashboard.RowProgress` uses `Stats.UnguardedMeanProgress`.
- `Stats.GuardedMeanAgrees` proves that the two means coincide on every student who has goals.
- `Stats.MeanProgressIsPercentage` proves that the guarded mean is always a percentage.

For the second row:

- `MentorSearch.Apply` models the button as written: it changes nothing.
- `MentorSearch.SidePanelResetIntended` is the corrected definition.

For the third row:

- `Assistant.Deliver` models the timer as written.
- `Assistant.DeliverIntended`, `Assistant.StepIntended` and `Assistant.RunIntended` are the corrected definitions.
- `Assistant.IntendedAgreesWhenPaced` proves that the correction changes nothing while the user waits for each reply.

=== FILE: achievements.dfy ===
/**
 * The achievements page: the catalogue split into the current student's
 * unlocked achievements and the locked rest, and the completion percentage.
 */
module Achievements {
  import opened Types
  import opened Lists
  import Stats

  /** Some unlocked achievement has this id (`unlocked.some(a => a.id === id)`). */
  predicate IsUnlocked(unlocked: seq<Achievement>, id: Id) {
    exists i :: 0 <= i < |unlocked| && unlocked[i].id == id
  }

  /** The catalogue entries whose id is not among the unlocked ids, in catalogue order. */
  function Locked(catalogue: seq<Achievement>, unlocked: seq<Achievement>): (r: seq<Achievement>)
    ensures forall a :: a in r <==> a in catalogue && !IsUnlocked(unlocked, a.id)
    ensures forall a :: Count(r, a) == if IsUnlocked(unlocked, a.id) then 0 else Count(catalogue, a)
    ensures IsSubsequence(r, catalogue)
  {
    FilterIsSubsequence((a: Achievement) => !IsUnlocked(unlocked, a.id), catalogue);
    Filter((a: Achievement) => !IsUnlocked(unlocked, a.id), catalogue)
  }

  /** No achievement id is both locked and unlocked. */
  lemma {:induction false} LockedDisjoint(catalogue: seq<Achievement>, unlocked: seq<Achievement>)
    ensures KeySet(AchievementId, Locked(catalogue, unlocked)) !! KeySet(AchievementId, unlocked)
  {
    var l := Locked(catalogue, unlocked);
    forall id | id in KeySet(AchievementId, l) ensures id !in KeySet(AchievementId, unlocked) {
      var i :| 0 <= i < |l| && l[i].id == id;
      assert l[i] in l;
    }
  }

  /** The locked ids are the catalogue ids that are not unlocked ids. */
  lemma {:induction false} LockedKeys(catalogue: seq<Achievement>, unlocked: seq<Achievement>)
    ensures KeySet(AchievementId, Locked(catalogue, unlocked)) ==
            KeySet(AchievementId, catalogue) - KeySet(AchievementId, unlocked)
  {
    var l := Locked(catalogue, unlocked);
    var K := KeySet(AchievementId, catalogue);
    var U := KeySet(AchievementId, unlocked);
    forall id | id in KeySet(AchievementId, l) ensures id in K - U {
      var i :| 0 <= i < |l| && l[i].id == id;
      assert l[i] in l;
      var j :| 0 <= j < |catalogue| && catalogue[j] == l[i];
      assert AchievementId(catalogue[j]) == id;
      assert !IsUnlocked(unlocked, id);
      assert forall k :: 0 <= k < |unlocked| ==> AchievementId(unlocked[k]) != id;
    }
    forall id | id in K - U ensures id in KeySet(AchievementId, l) {
      var j :| 0 <= j < |catalogue| && AchievementId(catalogue[j]) == id;
      assert forall k :: 0 <= k < |unlocked| ==> AchievementId(unlocked[k]) != id;
      assert !IsUnlocked(unlocked, id);
      assert catalogue[j] in l;
      var i :| 0 <= i < |l| && l[i] == catalogue[j];
      assert AchievementId(l[i]) == id;
    }
  }

  lemma {:induction false} DifferenceCard<K>(a: set<K>, b: set<K>)
    requires b <= a
    ensures |a - b| + |b| == |a|
  {
    assert a == (a - b) + b;
  }

  /**
   * With distinct catalogue ids, distinct unlocked ids and every unlocked id in
   * the catalogue, the locked and unlocked lists together are as long as the
   * catalogue.
   */
  lemma {:induction false} LockedPlusUnlocked(catalogue: seq<Achievement>, unlocked: seq<Achievement>)
    requires UniqueBy(AchievementId, catalogue)
    requires UniqueBy(AchievementId, unlocked)
    requires KeySet(AchievementId, unlocked) <= KeySet(AchievementId, catalogue)
    ensures |Locked(catalogue, unlocked)| + |unlocked| == |catalogue|
  {
    var l := Locked(catalogue, unlocked);
    var p := (a: Achievement) => !IsUnlocked(unlocked, a.id);
    assert l == Filter(p, catalogue);
    FilterUniqueBy(AchievementId, p, catalogue);
    UniqueByCard(AchievementId, l);
    UniqueByCard(AchievementId, unlocked);
    UniqueByCard(AchievementId, catalogue);
    LockedKeys(catalogue, unlocked);
    DifferenceCard(KeySet(AchievementId, catalogue), KeySet(AchievementId, unlocked));
  }

  /**
   * "N% completed": the exact unlocked share of the catalogue rounded half up
   * (the page rounds a double, see `Stats.RoundedPercentage`); the NaN an
   * empty catalogue yields is `None`.
   */
  function CompletionPercentage(catalogue: seq<Achievement>, unlocked: seq<Achievement>): (r: Option<int>)
    ensures r.None? <==> |catalogue| == 0
    ensures r.Some? ==>
      var n := |catalogue|;
      2 * n * r.value <= 200 * |unlocked| + n < 2 * n * r.value + 2 * n
    ensures |unlocked| <= |catalogue| && |catalogue| > 0 ==> 0 <= r.value <= 100
  {
    Stats.RoundedPercentage(|unlocked|, |catalogue|)
  }

  /** Under the conditions of `LockedPlusUnlocked`, the percentage is a percentage. */
  lemma {:induction false} CompletionIsPercentage(catalogue: seq<Achievement>, unlocked: seq<Achievement>)
    requires |catalogue| > 0
    requires UniqueBy(AchievementId, catalogue)
    requires UniqueBy(AchievementId, unlocked)
    requires KeySet(AchievementId, unlocked) <= KeySet(AchievementId, catalogue)
    ensures CompletionPercentage(catalogue, unlocked).Some?
    ensures 0 <= CompletionPercentage(catalogue, unlocked).value <= 100
  {
    LockedPlusUnlocked(catalogue, unlocked);
  }
}

=== FILE: admin_pages.dfy ===
/**
 * The administrator's student and mentor lists: each student's mentors as
 * the expanded card looks them up, each mentor's student preview and the
 * expertise-area count. Their search boxes are in `Search`, their progress
 * and rating figures in `Stats`.
 */
module AdminPages {
  import opened Types
  import opened Lists
  import Search

  // ---- Manage Students ----------------------------------------------------

  function Identity(id: Id): Id { id }

  /**
   * A student's mentors as the expanded card shows them: each mentor id
   * looked up in the mentor catalogue; an id with no catalogue entry shows
   * nothing.
   */
  function MentorsOf(s: Student, mentors: seq<Mentor>): (r: seq<(Id, Mentor)>)
    ensures forall i :: 0 <= i < |r| ==>
      r[i].0 in s.mentors && r[i].1 in mentors && r[i].1.id == r[i].0 && FirstWithKey(mentors, MentorId, r[i].1)
    ensures Firsts(r) == Filter((id: Id) => exists j :: 0 <= j < |mentors| && mentors[j].id == id, s.mentors)
  {
    JoinKeepsMatched(s.mentors, Identity, mentors, MentorId,
                     (id: Id) => exists j :: 0 <= j < |mentors| && mentors[j].id == id);
    var r := Join(s.mentors, Identity, mentors, MentorId);
    forall i | 0 <= i < |r| ensures r[i].1 in mentors {
      var k :| 0 <= k < |mentors| && mentors[k] == r[i].1 && forall j :: 0 <= j < k ==> mentors[j].id != r[i].1.id;
    }
    r
  }

  /** With every mentor id known, the card lists one mentor per id. */
  lemma {:induction false} AllMentorsKnown(s: Student, mentors: seq<Mentor>)
    requires forall i :: 0 <= i < |s.mentors| ==> exists j :: 0 <= j < |mentors| && mentors[j].id == s.mentors[i]
    ensures |MentorsOf(s, mentors)| == |s.mentors|
  {
    FilterKeepsAll((id: Id) => exists j :: 0 <= j < |mentors| && mentors[j].id == id, s.mentors);
  }

  // ---- Manage Mentors ----------------------------------------------------

  /** "Across N expertise areas": the number of distinct expertise strings. */
  function ExpertiseAreas(mentors: seq<Mentor>): (n: nat)
    ensures n == |set e | e in Flatten(Search.Expertises(mentors))|
    ensures n <= SumLengths(Search.Expertises(mentors))
    ensures forall e :: Search.Offers(mentors, e) ==> n > 0
  {
    Search.ExpertiseAreaCount(mentors);
    var all := Search.AllExpertise(mentors);
    assert forall e :: Search.Offers(mentors, e) ==> e in all;
    |all|
  }

  /** The first students of a mentor the expanded card shows, and whether "View All Students" follows. */
  datatype Preview = Preview(shown: seq<Id>, viewAll: bool)

  const PreviewSize: nat := 3

  function StudentPreview(m: Mentor): (p: Preview)
    ensures |p.shown| == if |m.students| < PreviewSize then |m.students| else PreviewSize
    ensures p.shown == m.students[..|p.shown|]
    ensures p.viewAll <==> |m.students| > PreviewSize
    ensures !p.viewAll ==> p.shown == m.students
  {
    Preview(Take(m.students, PreviewSize), |m.students| > PreviewSize)
  }
}

=== FILE: assistant.dfy ===
/**
 * The AI learning assistant page: the message log with its send guard and
 * its id numbering, the reply that a one-second timer appends after each
 * send, the suggestion buttons, and the keyword classifier that chooses the
 * canned reply.
 *
 * Every timer has the same delay, so replies fall due in the order of the
 * sends; the model keeps them in a queue and lets a `ReplyDue` event deliver
 * the oldest. When that event comes relative to the user's own events is
 * left open, so every timing is covered. Timestamps are left out.
 *
 * The log functions take the reply text as a function `answer` of the
 * question. The page passes `Reply` (`getAIResponse`); the numbering facts
 * hold whatever the text is, and `PageReplyIsCanned` ties the two together.
 */
module Assistant {
  import opened Text

  datatype Sender = UserSender | AiSender

  datatype Message = Message(id: int, sender: Sender, content: string)

  /**
   * A reply whose timer is running: the id it was given when the message was
   * sent, and the question it answers.
   */
  datatype Pending = Pending(id: int, question: string)

  /** The page state: the log, the text in the input box, and the running timers in firing order. */
  datatype Chat = Chat(messages: seq<Message>, input: string, pending: seq<Pending>)

  function Greeting(name: string): string {
    "Hi " + name + "! I'm your AI learning assistant. How can I help you today?"
  }

  /** Message ids count up from 1 in log order. */
  predicate Numbered(messages: seq<Message>) {
    forall i :: 0 <= i < |messages| ==> messages[i].id == i + 1
  }

  /** The page opens with one greeting from the assistant, numbered 1, an empty input and no timer. */
  function Initial(name: string): (c: Chat)
    ensures |c.messages| == 1 && c.messages[0].id == 1 && c.messages[0].sender == AiSender
    ensures c.messages[0].content == Greeting(name)
    ensures c.input == "" && c.pending == []
    ensures Numbered(c.messages)
  {
    Chat([Message(1, AiSender, Greeting(name))], "", [])
  }

  /**
   * `handleSendMessage`: input that trims to nothing changes nothing;
   * otherwise the untrimmed input is appended as a user message numbered one
   * past the log's length, the input is cleared, and a timer starts for a
   * reply numbered two past the log's length as it was before the send.
   */
  function Send(c: Chat): (r: Chat)
    ensures Blank(c.input) ==> r == c
    ensures !Blank(c.input) ==>
      r.messages == c.messages + [Message(|c.messages| + 1, UserSender, c.input)] && r.input == ""
    ensures !Blank(c.input) ==> r.pending == c.pending + [Pending(|c.messages| + 2, c.input)]
  {
    if Trim(c.input) == "" then c
    else Chat(c.messages + [Message(|c.messages| + 1, UserSender, c.input)], "", c.pending + [Pending(|c.messages| + 2, c.input)])
  }

  /**
   * The oldest timer fires: its reply is appended under the id fixed at send
   * time, through the functional update that sees the current log. With no
   * timer running nothing happens.
   */
  function Deliver(c: Chat, answer: string -> string): (r: Chat)
    ensures c.pending == [] ==> r == c
    ensures c.pending != [] ==>
      r.messages == c.messages + [Message(c.pending[0].id, AiSender, answer(c.pending[0].question))]
    ensures c.pending != [] ==> r.pending == c.pending[1..] && r.input == c.input
  {
    if c.pending == [] then c
    else Chat(c.messages + [Message(c.pending[0].id, AiSender, answer(c.pending[0].question))], c.input, c.pending[1..])
  }

  // The four prompts are written as concatenations of short pieces, with the
  // keywords the classifier looks for as pieces of their own; the texts are
  // exactly the prompts of the page.
  const AskProgress := "How am I " + "progress" + "ing on my " + "current " + "goals?"
  const AskResources := "Can you " + "recommend" + " resources" + " for React" + " state" + " management?"
  const AskStuck := "I'm " + "stuck" + " on my " + "React " + "component " + "project"
  const AskSchedule := "Help" + " me " + "schedule" + " my next " + "mento" + "r session"

  const SuggestionPrompts: seq<string> := [AskProgress, AskResources, AskStuck, AskSchedule]

  /**
   * What can happen: the user types into the box, clicks a suggestion or
   * presses Send (or Enter), or the oldest reply timer fires.
   */
  datatype Event = TypeText(text: string) | PickSuggestion(index: nat) | SendClick | ReplyDue

  /**
   * One event. A suggestion click copies its prompt into the input; there is
   * no button for an index past the four prompts, so such an event changes
   * nothing. Only sending and a firing timer touch the log.
   */
  function Step(c: Chat, e: Event, answer: string -> string): (r: Chat)
    ensures e.TypeText? ==> r == c.(input := e.text)
    ensures e.PickSuggestion? && e.index < |SuggestionPrompts| ==>
      r == c.(input := SuggestionPrompts[e.index])
    ensures e.SendClick? ==> r == Send(c)
    ensures e.ReplyDue? ==> r == Deliver(c, answer)
  {
    match e
    case TypeText(t) => c.(input := t)
    case PickSuggestion(i) => if i < |SuggestionPrompts| then c.(input := SuggestionPrompts[i]) else c
    case SendClick => Send(c)
    case ReplyDue => Deliver(c, answer)
  }

  function Run(c: Chat, events: seq<Event>, answer: string -> string): Chat
    decreases |events|
  {
    if |events| == 0 then c else Run(Step(c, events[0], answer), events[1..], answer)
  }

  /** Every event only ever appends to the log. */
  lemma {:induction false} RunOnlyAppends(c: Chat, events: seq<Event>, answer: string -> string)
    ensures c.messages <= Run(c, events, answer).messages
    decreases |events|
  {
    if |events| > 0 {
      RunOnlyAppends(Step(c, events[0], answer), events[1..], answer);
    }
  }

  /**
   * A numbered log whose only running timer, if any, will append the next
   * number: the state between a send and its reply.
   */
  predicate Coherent(c: Chat) {
    Numbered(c.messages) && (c.pending == [] || (|c.pending| == 1 && c.pending[0].id == |c.messages| + 1))
  }

  /** The user does not send again while a reply is still due. */
  predicate Paced(c: Chat, e: Event) {
    e.SendClick? && !Blank(c.input) ==> c.pending == []
  }

  /** Every event of the run is paced in the state it meets. */
  predicate PacedRun(c: Chat, events: seq<Event>, answer: string -> string)
    decreases |events|
  {
    |events| == 0 || (Paced(c, events[0]) && PacedRun(Step(c, events[0], answer), events[1..], answer))
  }

  /** A send with no reply due keeps the numbering and leaves the reply with the next number. */
  lemma {:induction false} SendKeepsNumbering(c: Chat)
    requires Coherent(c) && Paced(c, SendClick)
    ensures Coherent(Send(c))
    ensures c.messages <= Send(c).messages
  {
  }

  /** A paced event keeps the log coherent. */
  lemma {:induction false} StepKeepsCoherent(c: Chat, e: Event, answer: string -> string)
    requires Coherent(c) && Paced(c, e)
    ensures Coherent(Step(c, e, answer))
  {
    if e.SendClick? {
      SendKeepsNumbering(c);
    }
  }

  /**
   * From a coherent state, a run that never sends while a reply is due
   * keeps the ids numbered 1, 2, 3, ... in order.
   */
  lemma {:induction false} RunKeepsNumbering(c: Chat, events: seq<Event>, answer: string -> string)
    requires Coherent(c) && PacedRun(c, events, answer)
    ensures Coherent(Run(c, events, answer))
    ensures Numbered(Run(c, events, answer).messages)
    decreases |events|
  {
    if |events| > 0 {
      StepKeepsCoherent(c, events[0], answer);
      RunKeepsNumbering(Step(c, events[0], answer), events[1..], answer);
    }
  }

  /**
   * Every session keeps the greeting first, with id 1; a paced session is
   * numbered throughout.
   */
  lemma {:induction false} SessionFromGreeting(name: string, events: seq<Event>, answer: string -> string)
    ensures |Run(Initial(name), events, answer).messages| >= 1
    ensures Run(Initial(name), events, answer).messages[0] == Message(1, AiSender, Greeting(name))
    ensures PacedRun(Initial(name), events, answer) ==> Numbered(Run(Initial(name), events, answer).messages)
  {
    RunOnlyAppends(Initial(name), events, answer);
    if PacedRun(Initial(name), events, answer) {
      RunKeepsNumbering(Initial(name), events, answer);
    }
  }

  /** The ids of a numbered log are distinct. */
  lemma {:induction false} NumberedIdsDistinct(messages: seq<Message>, i: int, j: int)
    requires Numbered(messages)
    requires 0 <= i < |messages| && 0 <= j < |messages| && i != j
    ensures messages[i].id != messages[j].id
  {
  }

  /**
   * A second question sent before the first reply arrives: the second user
   * message takes id 3, and so does the first reply, which was numbered
   * when the log was one message shorter. The list is keyed by id.
   */
  lemma {:induction false} DuplicateKeyOnQuickSecondSend(name: string, q1: string, q2: string, answer: string -> string)
    requires !Blank(q1) && !Blank(q2)
    ensures var r := Run(Initial(name), [TypeText(q1), SendClick, TypeText(q2), SendClick, ReplyDue], answer);
      |r.messages| == 4 && r.messages[2] == Message(3, UserSender, q2) &&
      r.messages[3] == Message(3, AiSender, answer(q1)) && !Numbered(r.messages)
  {
    var c0 := Initial(name);
    var c4 := Send(Send(c0.(input := q1)).(input := q2));
    TwoQuickSends(c0, q1, q2);
    QuickSendsRun(c0, q1, q2, answer);
    DeliverNumbersFromPending(c4, answer);
  }

  /** The reply a firing timer appends carries the id its timer holds. */
  lemma {:induction false} DeliverNumbersFromPending(c: Chat, answer: string -> string)
    requires c.pending != []
    ensures |Deliver(c, answer).messages| == |c.messages| + 1
    ensures Deliver(c, answer).messages[..|c.messages|] == c.messages
    ensures Deliver(c, answer).messages[|c.messages|].id == c.pending[0].id
  {
  }

  /** The five events of a quick second send, step by step. */
  lemma {:induction false} QuickSendsRun(c: Chat, q1: string, q2: string, answer: string -> string)
    ensures Run(c, [TypeText(q1), SendClick, TypeText(q2), SendClick, ReplyDue], answer) ==
      Deliver(Send(Send(c.(input := q1)).(input := q2)), answer)
  {
    var c4 := Send(Send(c.(input := q1)).(input := q2));
    RunStepped(c4, ReplyDue, [], answer);
    RunStepped(Send(c.(input := q1)).(input := q2), SendClick, [ReplyDue], answer);
    RunStepped(Send(c.(input := q1)), TypeText(q2), [SendClick, ReplyDue], answer);
    RunStepped(c.(input := q1), SendClick, [TypeText(q2), SendClick, ReplyDue], answer);
    RunStepped(c, TypeText(q1), [SendClick, TypeText(q2), SendClick, ReplyDue], answer);
    assert [TypeText(q1)] + [SendClick, TypeText(q2), SendClick, ReplyDue] ==
      [TypeText(q1), SendClick, TypeText(q2), SendClick, ReplyDue];
  }

  /** Two sends from a one-message log with no timer: the second user message and the first reply share id 3. */
  lemma {:induction false} TwoQuickSends(c: Chat, q1: string, q2: string)
    requires |c.messages| == 1 && c.pending == []
    requires !Blank(q1) && !Blank(q2)
    ensures var r := Send(Send(c.(input := q1)).(input := q2));
      |r.messages| == 3 && r.messages[2].id == 3 && |r.pending| == 2 && r.pending[0] == Pending(3, q1)
  {
    var c2 := Send(c.(input := q1));
    assert |c2.messages| == 2 && c2.pending == [Pending(3, q1)];
  }

  /** A run is its first step followed by the rest. */
  lemma {:induction false} RunStepped(c: Chat, e: Event, rest: seq<Event>, answer: string -> string)
    ensures Run(c, [e] + rest, answer) == Run(Step(c, e, answer), rest, answer)
  {
    assert ([e] + rest)[1..] == rest;
  }

  /**
   * The intended delivery: the reply takes the next number of the log it
   * joins, whatever happened since its send.
   */
  function DeliverIntended(c: Chat, answer: string -> string): (r: Chat)
    ensures c.pending == [] ==> r == c
    ensures c.pending != [] ==>
      r.messages == c.messages + [Message(|c.messages| + 1, AiSender, answer(c.pending[0].question))]
    ensures c.pending != [] ==> r.pending == c.pending[1..] && r.input == c.input
  {
    if c.pending == [] then c
    else Chat(c.messages + [Message(|c.messages| + 1, AiSender, answer(c.pending[0].question))], c.input, c.pending[1..])
  }

  function StepIntended(c: Chat, e: Event, answer: string -> string): (r: Chat)
    ensures e.ReplyDue? ==> r == DeliverIntended(c, answer)
    ensures !e.ReplyDue? ==> r == Step(c, e, answer)
  {
    if e.ReplyDue? then DeliverIntended(c, answer) else Step(c, e, answer)
  }

  function RunIntended(c: Chat, events: seq<Event>, answer: string -> string): Chat
    decreases |events|
  {
    if |events| == 0 then c else RunIntended(StepIntended(c, events[0], answer), events[1..], answer)
  }

  /** With the intended delivery every event keeps a numbered log numbered. */
  lemma {:induction false} StepIntendedKeepsNumbering(c: Chat, e: Event, answer: string -> string)
    requires Numbered(c.messages)
    ensures Numbered(StepIntended(c, e, answer).messages)
    ensures c.messages <= StepIntended(c, e, answer).messages
  {
  }

  /** With the intended delivery any sequence of events keeps the ids 1, 2, 3, ..., however quick the sends. */
  lemma {:induction false} RunIntendedKeepsNumbering(c: Chat, events: seq<Event>, answer: string -> string)
    requires Numbered(c.messages)
    ensures Numbered(RunIntended(c, events, answer).messages)
    ensures c.messages <= RunIntended(c, events, answer).messages
    decreases |events|
  {
    if |events| > 0 {
      StepIntendedKeepsNumbering(c, events[0], answer);
      RunIntendedKeepsNumbering(StepIntended(c, events[0], answer), events[1..], answer);
    }
  }

  /** On a coherent state and a paced event the correction changes nothing. */
  lemma {:induction false} IntendedAgreesWhenPaced(c: Chat, e: Event, answer: string -> string)
    requires Coherent(c) && Paced(c, e)
    ensures StepIntended(c, e, answer) == Step(c, e, answer)
  {
  }

  /** Clicking a suggestion sends nothing: the log is untouched. */
  lemma {:induction false} SuggestionSendsNothing(c: Chat, i: nat, answer: string -> string)
    requires i < |SuggestionPrompts|
    ensures Step(c, PickSuggestion(i), answer).messages == c.messages
    ensures Step(c, PickSuggestion(i), answer).input == SuggestionPrompts[i]
    ensures Step(c, PickSuggestion(i), answer).pending == c.pending
  {
  }

  // ---- The reply classifier ----------------------------------------------

  const GoalReply := "Based on your current goals, you're making good progress on React fundamentals. I suggest focusing on state management concepts next. Would you like me to recommend some resources?"
  const RecommendReply := "I recommend checking out the Advanced React Patterns course by your mentor. Also, based on your learning style, you might benefit from the interactive exercises in the React documentation."
  const HelpReply := "I see you're working on a React component project. The error you're encountering is likely related to how you're managing state. Try using the useReducer hook instead of multiple useState calls. Would you like me to show you an example?"
  const ScheduleReply := "I've analyzed your schedule and your mentor's availability. The best times for your next session would be Wednesday at 3pm or Friday at 10am. Would you like me to suggest this to your mentor?"
  const DefaultReply := "I'm here to help with your learning journey. You can ask me about your progress, get recommendations, or get help with specific concepts you're struggling with."

  /** The lower-cased input contains the keyword. */
  predicate Mentions(userInput: string, keyword: string) {
    Includes(Lower(userInput), keyword)
  }

  predicate AsksGoal(t: string) { Mentions(t, "goal") || Mentions(t, "progress") }
  predicate AsksRecommend(t: string) { Mentions(t, "recommend") || Mentions(t, "suggestion") }
  predicate AsksHelp(t: string) { Mentions(t, "stuck") || Mentions(t, "help") }
  predicate AsksSchedule(t: string) { Mentions(t, "schedule") || Mentions(t, "meeting") }

  /**
   * `getAIResponse`: one of five fixed replies, chosen by the first keyword
   * group the input mentions, in the order goal, recommendation, help,
   * schedule.
   */
  function Reply(userInput: string): (r: string)
    ensures r in {GoalReply, RecommendReply, HelpReply, ScheduleReply, DefaultReply}
    ensures AsksGoal(userInput) <==> r == GoalReply
    ensures r == RecommendReply <==> !AsksGoal(userInput) && AsksRecommend(userInput)
    ensures r == HelpReply <==> !AsksGoal(userInput) && !AsksRecommend(userInput) && AsksHelp(userInput)
    ensures r == ScheduleReply <==>
      !AsksGoal(userInput) && !AsksRecommend(userInput) && !AsksHelp(userInput) && AsksSchedule(userInput)
    ensures r == DefaultReply <==>
      !AsksGoal(userInput) && !AsksRecommend(userInput) && !AsksHelp(userInput) && !AsksSchedule(userInput)
  {
    var input := Lower(userInput);
    if Includes(input, "goal") || Includes(input, "progress") then GoalReply
    else if Includes(input, "recommend") || Includes(input, "suggestion") then RecommendReply
    else if Includes(input, "stuck") || Includes(input, "help") then HelpReply
    else if Includes(input, "schedule") || Includes(input, "meeting") then ScheduleReply
    else DefaultReply
  }

  /** The classifier ignores case. */
  lemma {:induction false} ReplyIgnoresCase(userInput: string)
    ensures Reply(Lower(userInput)) == Reply(userInput)
  {
    LowerIdempotent(userInput);
  }

  // ---- The suggestion prompts' replies ------------------------------------

  /** A keyword with a letter the input lacks in either case is not mentioned. */
  lemma {:induction false} NotMentioned(userInput: string, keyword: string, c: char, upper: char)
    requires IsUpper(upper) && LowerChar(upper) == c && !IsUpper(c) && c in keyword
    requires c !in userInput && upper !in userInput
    ensures !Mentions(userInput, keyword)
  {
    LowerMissing(userInput, c, upper);
    MissingCharacter(Lower(userInput), keyword, c);
  }

  /** A text that lower-cases to the keyword mentions it. */
  lemma {:induction false} MentionedWhole(piece: string, keyword: string)
    requires Lower(piece) == keyword
    ensures Mentions(piece, keyword)
  {
    assert OccursAt(keyword, keyword, 0);
  }

  /** Text added after a mention keeps it. */
  lemma {:induction false} MentionedBefore(s: string, t: string, keyword: string)
    requires Mentions(s, keyword)
    ensures Mentions(s + t, keyword)
  {
    LowerAppend(s, t);
    IncludesWithin([], Lower(s), Lower(t), keyword);
    assert [] + Lower(s) + Lower(t) == Lower(s + t);
  }

  /** Text added before a mention keeps it. */
  lemma {:induction false} MentionedAfter(s: string, t: string, keyword: string)
    requires Mentions(t, keyword)
    ensures Mentions(s + t, keyword)
  {
    LowerAppend(s, t);
    IncludesWithin(Lower(s), Lower(t), [], keyword);
    assert Lower(s) + Lower(t) + [] == Lower(s + t);
  }

  /** The first prompt contains "progress". */
  lemma AskProgressHas()
    ensures Mentions(AskProgress, "progress")
  {
    assert Mentions(AskProgress, "progress") by {
      MentionedWhole("progress", "progress");
      MentionedAfter("How am I ", "progress", "progress");
      MentionedBefore("How am I " + "progress", "ing on my ", "progress");
      MentionedBefore("How am I " + "progress" + "ing on my ", "current ", "progress");
      MentionedBefore("How am I " + "progress" + "ing on my " + "current ", "goals?", "progress");
    }
  }

  /** The first prompt asks about its progress. */
  lemma FirstSuggestionReply()
    ensures Reply(AskProgress) == GoalReply
  {
    AskProgressHas();
  }

  /** The second prompt has no "l" and no "p", so it says neither "goal" nor "progress". */
  lemma AskResourcesLacks()
    ensures !Mentions(AskResources, "goal")
    ensures !Mentions(AskResources, "progress")
  {
    AskResourcesLacksGoal();
    NotMentioned(AskResources, "progress", 'p', 'P');
  }

  lemma AskResourcesLacksGoal()
    ensures !Mentions(AskResources, "goal")
  {
    NotMentioned(AskResources, "goal", 'l', 'L');
  }

  /** The second prompt contains "recommend". */
  lemma AskResourcesHas()
    ensures Mentions(AskResources, "recommend")
  {
    assert Mentions(AskResources, "recommend") by {
      MentionedWhole("recommend", "recommend");
      MentionedAfter("Can you ", "recommend", "recommend");
      MentionedBefore("Can you " + "recommend", " resources", "recommend");
      MentionedBefore("Can you " + "recommend" + " resources", " for React", "recommend");
      MentionedBefore("Can you " + "recommend" + " resources" + " for React", " state", "recommend");
      MentionedBefore("Can you " + "recommend" + " resources" + " for React" + " state", " management?", "recommend");
    }
  }

  /** The second prompt asks for a recommendation and mentions no goal or progress. */
  lemma SecondSuggestionReply()
    ensures Reply(AskResources) == RecommendReply
  {
    AskResourcesLacks();
    AskResourcesHas();
  }

  /** The third prompt has no "g" and no "d", so it says none of the earlier keywords. */
  lemma AskStuckLacks()
    ensures !Mentions(AskStuck, "goal")
    ensures !Mentions(AskStuck, "progress")
    ensures !Mentions(AskStuck, "recommend")
    ensures !Mentions(AskStuck, "suggestion")
  {
    NotMentioned(AskStuck, "goal", 'g', 'G');
    NotMentioned(AskStuck, "progress", 'g', 'G');
    NotMentioned(AskStuck, "recommend", 'd', 'D');
    NotMentioned(AskStuck, "suggestion", 'g', 'G');
  }

  /** The third prompt contains "stuck". */
  lemma AskStuckHas()
    ensures Mentions(AskStuck, "stuck")
  {
    assert Mentions(AskStuck, "stuck") by {
      MentionedWhole("stuck", "stuck");
      MentionedAfter("I'm ", "stuck", "stuck");
      MentionedBefore("I'm " + "stuck", " on my ", "stuck");
      MentionedBefore("I'm " + "stuck" + " on my ", "React ", "stuck");
      MentionedBefore("I'm " + "stuck" + " on my " + "React ", "component ", "stuck");
      MentionedBefore("I'm " + "stuck" + " on my " + "React " + "component ", "project", "stuck");
    }
  }

  /** The third prompt says "stuck" and nothing earlier in the order. */
  lemma ThirdSuggestionReply()
    ensures Reply(AskStuck) == HelpReply
  {
    AskStuckLacks();
    AskStuckHas();
  }

  /** The fourth prompt has no "g" and no "k". */
  lemma AskScheduleLacks()
    ensures !Mentions(AskSchedule, "goal")
    ensures !Mentions(AskSchedule, "progress")
    ensures !Mentions(AskSchedule, "suggestion")
    ensures !Mentions(AskSchedule, "stuck")
  {
    AskScheduleLacksG();
    NotMentioned(AskSchedule, "stuck", 'k', 'K');
  }

  lemma AskScheduleLacksG()
    ensures !Mentions(AskSchedule, "goal")
    ensures !Mentions(AskSchedule, "progress")
    ensures !Mentions(AskSchedule, "suggestion")
  {
    var p := AskSchedule;
    assert 'g' !in p && 'G' !in p;
    NotMentioned(p, "goal", 'g', 'G');
    NotMentioned(p, "progress", 'g', 'G');
    NotMentioned(p, "suggestion", 'g', 'G');
  }

  /** The only 'r' of the fourth prompt ends "mentor" and a space follows it, so it does not say "recommend". */
  lemma AskScheduleNoRecommend()
    ensures !Mentions(AskSchedule, "recommend")
  {
    var pre := "Help" + " me " + "schedule" + " my next " + "mento";
    LowerAppend(pre, "r session");
    LowerMissing(pre, 'r', 'R');
    SkipPrefix(Lower(pre), Lower("r session"), "recommend");
    assert Lower("r session")[0..9][1] == ' ';
    assert !OccursAt(Lower("r session"), "recommend", 0);
  }

  /** The fourth prompt contains both "help" and "schedule". */
  lemma AskScheduleHas()
    ensures Mentions(AskSchedule, "help")
    ensures Mentions(AskSchedule, "schedule")
  {
    var p := AskSchedule;
    assert Mentions(p, "help") by {
      assert Lower("Help") == "help";
      MentionedWhole("Help", "help");
      MentionedBefore("Help", " me ", "help");
      MentionedBefore("Help" + " me ", "schedule", "help");
      MentionedBefore("Help" + " me " + "schedule", " my next ", "help");
      MentionedBefore("Help" + " me " + "schedule" + " my next ", "mento", "help");
      MentionedBefore("Help" + " me " + "schedule" + " my next " + "mento", "r session", "help");
    }
    assert Mentions(p, "schedule") by {
      MentionedWhole("schedule", "schedule");
      MentionedAfter("Help" + " me ", "schedule", "schedule");
      MentionedBefore("Help" + " me " + "schedule", " my next ", "schedule");
      MentionedBefore("Help" + " me " + "schedule" + " my next ", "mento", "schedule");
      MentionedBefore("Help" + " me " + "schedule" + " my next " + "mento", "r session", "schedule");
    }
  }

  /**
   * The fourth prompt is about scheduling but also says "help", which is
   * checked first, so it gets the help reply and not the scheduling one.
   */
  lemma FourthSuggestionReply()
    ensures AsksSchedule(AskSchedule)
    ensures Reply(AskSchedule) == HelpReply
  {
    AskScheduleLacks();
    AskScheduleNoRecommend();
    AskScheduleHas();
  }

  /**
   * On the page a firing timer appends, under the id its timer holds, one
   * of the five canned replies: the one the classifier picks for the
   * queued question.
   */
  lemma {:induction false} PageReplyIsCanned(c: Chat)
    requires c.pending != []
    ensures |Step(c, ReplyDue, Reply).messages| == |c.messages| + 1
    ensures Step(c, ReplyDue, Reply).messages[|c.messages|] ==
      Message(c.pending[0].id, AiSender, Reply(c.pending[0].question))
    ensures Step(c, ReplyDue, Reply).messages[|c.messages|].content in
      {GoalReply, RecommendReply, HelpReply, ScheduleReply, DefaultReply}
  {
    DeliverNumbersFromPending(c, Reply);
  }
}

=== FILE: cards.dfy ===
/**
 * The decision tables of the dashboard cards: status badges, the colour
 * thresholds for progress and skill levels, and the assignment card's
 * feedback block and role-dependent button.
 *
 * The badge functions of the source switch on a status string and return
 * nothing for a string outside the enumeration; that default branch is kept
 * as `None`.
 */
module Cards {
  import opened Types
  import ProgressBar

  /** The variants shared by badges and progress bars. */
  datatype Tone = Neutral | Success | Warning | Info | Danger

  datatype Badge = Badge(tone: Tone, text: string)

  // ---- Goal card -------------------------------------------------------

  /** The goal card's badge table: completed, in progress, not started. */
  function GoalBadge(s: GoalStatus): Badge {
    match s
    case Completed => Badge(Success, "Completed")
    case InProgress => Badge(Info, "In Progress")
    case NotStarted => Badge(Neutral, "Not Started")
  }

  /** `getStatusBadge(status)` on the raw status text. */
  function GoalBadgeOfText(s: string): (r: Option<Badge>)
    ensures r.Some? <==> ParseGoalStatus(s).Some?
    ensures r.Some? ==> r.value == GoalBadge(ParseGoalStatus(s).value)
  {
    if s == "completed" then Some(Badge(Success, "Completed"))
    else if s == "in-progress" then Some(Badge(Info, "In Progress"))
    else if s == "not-started" then Some(Badge(Neutral, "Not Started"))
    else None
  }

  /** Distinct goal statuses get distinct badge variants. */
  lemma {:induction false} GoalBadgeInjective(a: GoalStatus, b: GoalStatus)
    ensures GoalBadge(a).tone == GoalBadge(b).tone <==> a == b
  {
  }

  /**
   * The progress colour of the goal card and of every page that colours an
   * overall progress: success above 75, warning at 25 or below, the default
   * colour in between.
   */
  function ProgressTone(progress: int): (t: Tone)
    ensures t == Success <==> progress > 75
    ensures t == Warning <==> progress <= 25
    ensures t == Neutral <==> 25 < progress <= 75
  {
    if progress > 75 then Success else if progress > 25 then Neutral else Warning
  }

  /** Warning below default below success. */
  function ToneRank(t: Tone): nat {
    match t
    case Warning => 0
    case Neutral => 1
    case Success => 2
    case Info => 1
    case Danger => 0
  }

  /** More progress never gives a lower colour. */
  lemma {:induction false} ProgressToneMonotone(p1: int, p2: int)
    requires p1 <= p2
    ensures ToneRank(ProgressTone(p1)) <= ToneRank(ProgressTone(p2))
  {
  }

  // ---- Skill card ------------------------------------------------------

  /** The skill colour: success from level 4, default from level 2, warning below. */
  function SkillTone(level: int): (t: Tone)
    ensures t == Success <==> level >= 4
    ensures t == Neutral <==> 2 <= level < 4
    ensures t == Warning <==> level < 2
  {
    if level >= 4 then Success else if level >= 2 then Neutral else Warning
  }

  /** The skill bar is a progress bar on the scale 0..5. */
  const SkillScale: real := 5.0

  /**
   * A skill level in 0..5 fills 20 percent of the bar per level, and its
   * colour is the progress colour of that percentage.
   */
  lemma {:induction false} SkillBarAgreesWithProgress(level: int)
    requires 0 <= level <= 5
    ensures ProgressBar.Percentage(level as real, SkillScale) == Some((20 * level) as real)
    ensures SkillTone(level) == ProgressTone(20 * level)
  {
    assert (level as real) / 5.0 * 100.0 == (20 * level) as real;
  }

  // ---- Assignment card -------------------------------------------------

  /** The assignment card's badge table. */
  function AssignmentBadge(s: AssignmentStatus): Badge {
    match s
    case Assigned => Badge(Info, "Assigned")
    case Working => Badge(Warning, "In Progress")
    case Submitted => Badge(Success, "Submitted")
    case Reviewed => Badge(Neutral, "Reviewed")
  }

  /** `getStatusBadge(status)` of the assignment card on the raw status text. */
  function AssignmentBadgeOfText(s: string): (r: Option<Badge>)
    ensures r.Some? <==> ParseAssignmentStatus(s).Some?
    ensures r.Some? ==> r.value == AssignmentBadge(ParseAssignmentStatus(s).value)
  {
    if s == "assigned" then Some(Badge(Info, "Assigned"))
    else if s == "in-progress" then Some(Badge(Warning, "In Progress"))
    else if s == "submitted" then Some(Badge(Success, "Submitted"))
    else if s == "reviewed" then Some(Badge(Neutral, "Reviewed"))
    else None
  }

  /** Distinct assignment statuses get distinct badge variants. */
  lemma {:induction false} AssignmentBadgeInjective(a: AssignmentStatus, b: AssignmentStatus)
    ensures AssignmentBadge(a).tone == AssignmentBadge(b).tone <==> a == b
  {
  }

  /** The feedback box: the feedback text and, when there is a grade, the grade. */
  datatype FeedbackBlock = FeedbackBlock(feedback: string, grade: Option<int>)

  function FeedbackBlockOf(a: Assignment): (r: Option<FeedbackBlock>)
    ensures r.Some? <==> a.feedback != ""
    ensures r.Some? ==> r.value.feedback == a.feedback
    ensures r.Some? ==> (r.value.grade.Some? <==> a.grade > 0)
    ensures r.Some? && r.value.grade.Some? ==> r.value.grade.value == a.grade
  {
    if a.feedback == "" then None
    else Some(FeedbackBlock(a.feedback, if a.grade > 0 then Some(a.grade) else None))
  }

  /** The roles the assignment card is drawn for. */
  datatype CardRole = StudentView | MentorView

  datatype ButtonStyle = Primary | Secondary

  datatype Button = Button(style: ButtonStyle, text: string)

  /**
   * The footer button: a student sees one unless the assignment is reviewed,
   * reading "View Submission" for a submitted one and "Submit Assignment"
   * otherwise; a mentor always sees one, reading "Review" for a submitted
   * assignment and "View Details" otherwise.
   */
  function FooterButton(role: CardRole, s: AssignmentStatus): (r: Option<Button>)
    ensures role == StudentView ==> (r.Some? <==> s != Reviewed)
    ensures role == MentorView ==> r.Some? && r.value.style == Primary
    ensures role == StudentView && r.Some? ==>
      (r.value.text == "View Submission" <==> s == Submitted) &&
      (r.value.style == Secondary <==> s == Submitted)
    ensures role == StudentView && r.Some? && s != Submitted ==> r.value == Button(Primary, "Submit Assignment")
    ensures role == MentorView ==> (r.value.text == "Review" <==> s == Submitted)
    ensures role == MentorView && s != Submitted ==> r.value.text == "View Details"
  {
    match role
    case StudentView =>
      if s == Reviewed then None
      else if s == Submitted then Some(Button(Secondary, "View Submission"))
      else Some(Button(Primary, "Submit Assignment"))
    case MentorView =>
      Some(Button(Primary, if s == Submitted then "Review" else "View Details"))
  }

  /** Exactly one status leaves the student without a button, and none leaves the mentor without one. */
  lemma {:induction false} ButtonlessStatuses(s: AssignmentStatus)
    ensures FooterButton(StudentView, s).None? <==> s == Reviewed
    ensures FooterButton(MentorView, s).Some?
  {
  }

  // ---- The mentor assignments page's own badge -------------------------

  /**
   * The assignments page of a mentor colours statuses with a table of its
   * own: submitted warning, reviewed success, in progress info, anything
   * else the default.
   */
  function MentorPageTone(s: AssignmentStatus): Tone {
    if s == Submitted then Warning
    else if s == Reviewed then Success
    else if s == Working then Info
    else Neutral
  }

  /** The page's table and the assignment card's table disagree on every status. */
  lemma {:induction false} MentorPageToneDiffersFromCard(s: AssignmentStatus)
    ensures MentorPageTone(s) != AssignmentBadge(s).tone
  {
  }
}

=== FILE: community.dfy ===
/**
 * The community page's feed: the selected community, the posts shown for the
 * selection, and the author lookup that drops posts without a known author.
 */
module CommunityFeed {
  import opened Types
  import opened Lists

  /** The selection is a community id or nothing; the empty id is falsy and counts as nothing. */
  predicate Selected(selection: Option<Id>) {
    selection.Some? && selection.value != ""
  }

  /** The community's post list holds a post with this post's id. */
  predicate ListsPost(c: Community, post: Post) {
    exists q :: q in c.posts && q.id == post.id
  }

  /**
   * Whether a post belongs to the selected community: the first community
   * with the selected id lists it. With no such community the test is
   * `undefined`, which is falsy.
   */
  predicate InSelection(communities: seq<Community>, id: Id, post: Post) {
    var c := FindCommunity(communities, id);
    c.Some? && ListsPost(c.value, post)
  }

  /** `communities.find(c => c.id === id)`. */
  function FindCommunity(communities: seq<Community>, id: Id): (r: Option<Community>)
    ensures r.None? <==> forall i :: 0 <= i < |communities| ==> communities[i].id != id
    ensures r.Some? ==> exists i :: 0 <= i < |communities| && communities[i] == r.value && r.value.id == id &&
                                    forall j :: 0 <= j < i ==> communities[j].id != id
  {
    Find((c: Community) => c.id == id, communities)
  }

  /**
   * `filteredPosts`: every post when nothing is selected; otherwise the posts,
   * in feed order, that the selected community lists.
   */
  function FilteredPosts(posts: seq<Post>, communities: seq<Community>, selection: Option<Id>): (r: seq<Post>)
    ensures !Selected(selection) ==> r == posts
    ensures IsSubsequence(r, posts)
    ensures Selected(selection) ==>
      forall p :: p in r <==> p in posts && InSelection(communities, selection.value, p)
    ensures Selected(selection) ==>
      forall p :: Count(r, p) == if InSelection(communities, selection.value, p) then Count(posts, p) else 0
  {
    if Selected(selection) then
      var r := Filter((p: Post) => InSelection(communities, selection.value, p), posts);
      FilterIsSubsequence((p: Post) => InSelection(communities, selection.value, p), posts);
      r
    else
      assert IsSubsequence(posts, posts) by { PrefixIsSubsequence(posts, posts); }
      posts
  }

  /** A selected id that names no community shows no posts. */
  lemma {:induction false} UnknownCommunityShowsNothing(posts: seq<Post>, communities: seq<Community>, id: Id)
    requires id != ""
    requires forall i :: 0 <= i < |communities| ==> communities[i].id != id
    ensures FilteredPosts(posts, communities, Some(id)) == []
  {
  }

  /**
   * With communities of distinct ids, selecting community `k` shows exactly
   * the posts it lists.
   */
  lemma {:induction false} SelectedCommunityPosts(posts: seq<Post>, communities: seq<Community>, k: int)
    requires UniqueBy(CommunityId, communities)
    requires 0 <= k < |communities| && communities[k].id != ""
    ensures forall p :: p in FilteredPosts(posts, communities, Some(communities[k].id)) <==>
                          p in posts && ListsPost(communities[k], p)
  {
    var id := communities[k].id;
    var f := FindCommunity(communities, id);
    assert f.Some?;
    var j :| 0 <= j < |communities| && communities[j] == f.value && f.value.id == id;
    assert CommunityId(communities[j]) == CommunityId(communities[k]);
    assert j == k;
  }

  /** Clicking a community: the selected one is cleared, any other one is selected. */
  function ClickCommunity(selection: Option<Id>, id: Id): (r: Option<Id>)
    ensures selection == Some(id) ==> r == None
    ensures selection != Some(id) ==> r == Some(id)
  {
    if selection == Some(id) then None else Some(id)
  }

  /** Two clicks on the same community leave it selected if it was selected, and leave nothing selected otherwise. */
  lemma {:induction false} ClickTwice(selection: Option<Id>, id: Id)
    ensures ClickCommunity(ClickCommunity(selection, id), id) == (if selection == Some(id) then Some(id) else None)
  {
  }

  /** Everyone who can write a post: the students, then the mentors. */
  function AllUsers(students: seq<Student>, mentors: seq<Mentor>): (r: seq<User>)
    ensures |r| == |students| + |mentors|
    ensures forall i :: 0 <= i < |students| ==> r[i] == students[i].AsUser()
    ensures forall i :: 0 <= i < |mentors| ==> r[|students| + i] == mentors[i].AsUser()
  {
    seq(|students|, i requires 0 <= i < |students| => students[i].AsUser()) +
    seq(|mentors|, i requires 0 <= i < |mentors| => mentors[i].AsUser())
  }

  function UserId(u: User): Id { u.id }

  function AuthorId(p: Post): Id { p.authorId }

  /**
   * The feed as rendered: each post with the first user whose id is its
   * author id; a post with no such user is skipped.
   */
  function Feed(posts: seq<Post>, users: seq<User>): (r: seq<(Post, User)>)
    ensures |r| <= |posts|
    ensures forall i :: 0 <= i < |r| ==>
      r[i].0 in posts && r[i].1.id == r[i].0.authorId && FirstWithKey(users, UserId, r[i].1)
  {
    Join(posts, AuthorId, users, UserId)
  }

  /** The posts of the feed are exactly the posts that have an author among the users, in feed order. */
  lemma {:induction false} FeedPosts(posts: seq<Post>, users: seq<User>)
    ensures Firsts(Feed(posts, users)) ==
            Filter((p: Post) => exists i :: 0 <= i < |users| && users[i].id == p.authorId, posts)
  {
    JoinKeepsMatched(posts, AuthorId, users, UserId,
                     (p: Post) => exists i :: 0 <= i < |users| && users[i].id == p.authorId);
  }
}

=== FILE: dashboards.dfy ===
/**
 * The mentor's dashboard: the mentor's students, the first three scheduled
 * meetings, the first three submissions waiting for review, and a progress
 * line for each of the first three students.
 */
module MentorDashboard {
  import opened Types
  import opened Lists
  import Stats
  import MentorStudents

  /** How many meetings, reviews and student rows the dashboard shows at most. */
  const Cap: nat := 3

  predicate UpcomingFor(mentorId: Id, m: Meeting) {
    m.mentorId == mentorId && m.status == Scheduled
  }

  predicate PendingFor(mentorId: Id, a: Assignment) {
    a.mentorId == mentorId && a.status == Submitted
  }

  /** Every scheduled meeting of the mentor, in catalogue order. */
  function AllUpcoming(meetings: seq<Meeting>, mentorId: Id): seq<Meeting> {
    Filter((m: Meeting) => UpcomingFor(mentorId, m), meetings)
  }

  /** Every submitted assignment of the mentor, in catalogue order. */
  function AllPending(assignments: seq<Assignment>, mentorId: Id): seq<Assignment> {
    Filter((a: Assignment) => PendingFor(mentorId, a), assignments)
  }

  /**
   * `upcomingMeetings`: the mentor's scheduled meetings, the first three in
   * catalogue order; all of them when there are fewer than three.
   */
  function UpcomingMeetings(meetings: seq<Meeting>, mentorId: Id): (r: seq<Meeting>)
    ensures |r| <= Cap
    ensures forall i :: 0 <= i < |r| ==> r[i] in meetings && r[i].mentorId == mentorId && r[i].status == Scheduled
    ensures IsSubsequence(r, meetings)
    ensures |r| < Cap ==> forall m :: m in meetings && m.mentorId == mentorId && m.status == Scheduled ==> m in r
    ensures |r| <= |AllUpcoming(meetings, mentorId)| && r == AllUpcoming(meetings, mentorId)[..|r|]
  {
    Capped((m: Meeting) => UpcomingFor(mentorId, m), meetings, Cap)
  }

  /** `pendingAssignments`: the first three submitted assignments of the mentor, in catalogue order. */
  function PendingReviews(assignments: seq<Assignment>, mentorId: Id): (r: seq<Assignment>)
    ensures |r| <= Cap
    ensures forall i :: 0 <= i < |r| ==> r[i] in assignments && r[i].mentorId == mentorId && r[i].status == Submitted
    ensures IsSubsequence(r, assignments)
    ensures |r| < Cap ==> forall a :: a in assignments && a.mentorId == mentorId && a.status == Submitted ==> a in r
    ensures |r| <= |AllPending(assignments, mentorId)| && r == AllPending(assignments, mentorId)[..|r|]
  {
    Capped((a: Assignment) => PendingFor(mentorId, a), assignments, Cap)
  }

  /**
   * The figures on the "Upcoming Sessions" and "Pending Reviews" cards are the
   * lengths of the capped lists: the number of matches, but never more than three.
   */
  lemma {:induction false} SummaryCardsCapped(meetings: seq<Meeting>, assignments: seq<Assignment>, mentorId: Id)
    ensures var n := |Filter((m: Meeting) => UpcomingFor(mentorId, m), meetings)|;
      |UpcomingMeetings(meetings, mentorId)| == if n < Cap then n else Cap
    ensures var n := |Filter((a: Assignment) => PendingFor(mentorId, a), assignments)|;
      |PendingReviews(assignments, mentorId)| == if n < Cap then n else Cap
  {
  }

  /** The "Student Progress" rows: the first three of the mentor's students. */
  function ProgressRows(students: seq<Student>, mentorId: Id): (r: seq<Student>)
    ensures |r| <= Cap
    ensures forall i :: 0 <= i < |r| ==> r[i] in students && mentorId in r[i].mentors
    ensures |r| <= |MentorStudents.OfMentor(students, mentorId)| && r == MentorStudents.OfMentor(students, mentorId)[..|r|]
    ensures |r| < Cap ==> r == MentorStudents.OfMentor(students, mentorId)
  {
    var mine := MentorStudents.OfMentor(students, mentorId);
    assert forall i :: 0 <= i < |Take(mine, Cap)| ==> Take(mine, Cap)[i] in mine;
    Take(mine, Cap)
  }

  function CompletedGoals(s: Student): seq<Goal> {
    Filter((g: Goal) => g.status == Completed, s.goals)
  }

  /** The "completed/total goals completed" line of a row never shows more completed goals than goals. */
  lemma {:induction false} CompletedAtMostTotal(s: Student)
    ensures |CompletedGoals(s)| <= |s.goals|
    ensures forall g :: g in CompletedGoals(s) <==> g in s.goals && g.status == Completed
  {
    FilterIsSubsequence((g: Goal) => g.status == Completed, s.goals);
    SubsequenceLength(CompletedGoals(s), s.goals);
  }

  /**
   * The value handed to a row's progress bar: the unguarded mean of the
   * student's own goals, NaN (`None`) for a student without goals.
   */
  function RowProgress(s: Student): (r: Option<int>)
    ensures r.None? <==> |s.goals| == 0
    ensures r.Some? ==> r.value == Stats.GuardedMeanProgress(s.goals)
  {
    Stats.GuardedMeanAgrees(s.goals);
    Stats.UnguardedMeanProgress(s.goals)
  }

  /** A listed student without goals sends NaN to the bar, where the other pages show 0. */
  lemma {:induction false} NoGoalsRowIsNaN(s: Student)
    requires |s.goals| == 0
    ensures RowProgress(s).None?
    ensures Stats.GuardedMeanProgress(s.goals) == 0
  {
  }

  /** With progress values that are percentages, a row with goals shows a percentage. */
  lemma {:induction false} RowProgressIsPercentage(s: Student)
    requires |s.goals| > 0
    requires forall i :: 0 <= i < |s.goals| ==> 0 <= s.goals[i].progress <= 100
    ensures RowProgress(s).Some? && 0 <= RowProgress(s).value <= 100
  {
    Stats.MeanProgressIsPercentage(s.goals);
  }

  function MeetingStudentId(m: Meeting): Id { m.studentId }

  function AssignmentStudentId(a: Assignment): Id { a.studentId }

  /**
   * The meeting rows: each capped meeting with the first student of its
   * student id; a meeting whose student is unknown renders nothing.
   */
  function MeetingRows(upcoming: seq<Meeting>, students: seq<Student>): (r: seq<(Meeting, Student)>)
    ensures forall i :: 0 <= i < |r| ==>
      r[i].0 in upcoming && r[i].1.id == r[i].0.studentId && FirstWithKey(students, StudentId, r[i].1)
    ensures Firsts(r) == Filter((m: Meeting) => exists j :: 0 <= j < |students| && students[j].id == m.studentId, upcoming)
  {
    JoinKeepsMatched(upcoming, MeetingStudentId, students, StudentId,
                     (m: Meeting) => exists j :: 0 <= j < |students| && students[j].id == m.studentId);
    Join(upcoming, MeetingStudentId, students, StudentId)
  }

  /** The review rows: each capped submission with its student, skipping unknown students. */
  function ReviewRows(pending: seq<Assignment>, students: seq<Student>): (r: seq<(Assignment, Student)>)
    ensures forall i :: 0 <= i < |r| ==>
      r[i].0 in pending && r[i].1.id == r[i].0.studentId && FirstWithKey(students, StudentId, r[i].1)
    ensures Firsts(r) == Filter((a: Assignment) => exists j :: 0 <= j < |students| && students[j].id == a.studentId, pending)
  {
    JoinKeepsMatched(pending, AssignmentStudentId, students, StudentId,
                     (a: Assignment) => exists j :: 0 <= j < |students| && students[j].id == a.studentId);
    Join(pending, AssignmentStudentId, students, StudentId)
  }
}

/**
 * The student's dashboard: the first two open goals and the first two
 * achievements of the catalogues, the current user's first two scheduled
 * meetings (each with its mentor) and first two mentors.
 */
module StudentDashboard {
  import opened Types
  import opened Lists

  /** How many goals, meetings, mentors and achievements the dashboard shows at most. */
  const Cap: nat := 2

  /** Every goal of the catalogue that is not completed, in catalogue order. */
  function OpenGoals(catalogue: seq<Goal>): seq<Goal> {
    Filter((g: Goal) => g.status != Completed, catalogue)
  }

  /**
   * `upcomingGoals`: the first two goals of the catalogue that are not
   * completed. The catalogue is used as it is, not the current user's goals.
   */
  function UpcomingGoals(catalogue: seq<Goal>): (r: seq<Goal>)
    ensures |r| <= Cap
    ensures forall i :: 0 <= i < |r| ==> r[i] in catalogue && r[i].status != Completed
    ensures IsSubsequence(r, catalogue)
    ensures |r| < Cap ==> forall g :: g in catalogue && g.status != Completed ==> g in r
    ensures |r| <= |OpenGoals(catalogue)| && r == OpenGoals(catalogue)[..|r|]
  {
    Capped((g: Goal) => g.status != Completed, catalogue, Cap)
  }

  /** The first non-completed goal of the catalogue always heads the list. */
  lemma {:induction false} FirstOpenGoalShown(catalogue: seq<Goal>, k: int)
    requires 0 <= k < |catalogue| && catalogue[k].status != Completed
    requires forall i :: 0 <= i < k ==> catalogue[i].status == Completed
    ensures |UpcomingGoals(catalogue)| > 0 && UpcomingGoals(catalogue)[0] == catalogue[k]
  {
    var p := (g: Goal) => g.status != Completed;
    FilterSkipsTo(p, catalogue, k);
  }

  predicate UpcomingFor(studentId: Id, m: Meeting) {
    m.studentId == studentId && m.status == Scheduled
  }

  /** Every scheduled meeting of the student, in catalogue order. */
  function AllUpcoming(meetings: seq<Meeting>, studentId: Id): seq<Meeting> {
    Filter((m: Meeting) => UpcomingFor(studentId, m), meetings)
  }

  /** `upcomingMeetings`: the student's first two scheduled meetings, in catalogue order. */
  function UpcomingMeetings(meetings: seq<Meeting>, studentId: Id): (r: seq<Meeting>)
    ensures |r| <= Cap
    ensures forall i :: 0 <= i < |r| ==> r[i] in meetings && r[i].studentId == studentId && r[i].status == Scheduled
    ensures IsSubsequence(r, meetings)
    ensures |r| < Cap ==> forall m :: m in meetings && m.studentId == studentId && m.status == Scheduled ==> m in r
    ensures |r| <= |AllUpcoming(meetings, studentId)| && r == AllUpcoming(meetings, studentId)[..|r|]
  {
    Capped((m: Meeting) => UpcomingFor(studentId, m), meetings, Cap)
  }

  /** `userMentors`: a prefix of at most two of the student's mentor ids. */
  function ShownMentors(s: Student): (r: seq<Id>)
    ensures |r| <= Cap && |r| <= |s.mentors| && r == s.mentors[..|r|]
    ensures |r| < Cap ==> r == s.mentors
  {
    Take(s.mentors, Cap)
  }

  /** `recentAchievements`: the first two entries of the catalogue, whoever has unlocked them. */
  function RecentAchievements(catalogue: seq<Achievement>): (r: seq<Achievement>)
    ensures |r| <= Cap && |r| <= |catalogue| && r == catalogue[..|r|]
    ensures |r| < Cap ==> r == catalogue
  {
    Take(catalogue, Cap)
  }

  function MeetingMentorId(m: Meeting): Id { m.mentorId }

  /** The meeting cards: each shown meeting with its mentor; a meeting whose mentor is unknown renders nothing. */
  function MeetingCards(upcoming: seq<Meeting>, mentors: seq<Mentor>): (r: seq<(Meeting, Mentor)>)
    ensures forall i :: 0 <= i < |r| ==>
      r[i].0 in upcoming && r[i].1.id == r[i].0.mentorId && FirstWithKey(mentors, MentorId, r[i].1)
    ensures Firsts(r) == Filter((m: Meeting) => exists j :: 0 <= j < |mentors| && mentors[j].id == m.mentorId, upcoming)
  {
    JoinKeepsMatched(upcoming, MeetingMentorId, mentors, MentorId,
                     (m: Meeting) => exists j :: 0 <= j < |mentors| && mentors[j].id == m.mentorId);
    Join(upcoming, MeetingMentorId, mentors, MentorId)
  }
}

/**
 * The administrator's dashboard: the first five students, and for each
 * community the first five member avatars with a "+n" badge for the rest.
 */
module AdminDashboard {
  import opened Types
  import opened Lists

  /** How many students and member avatars are shown at most. */
  const Cap: nat := 5

  /** The "Recent Students" list: a prefix of at most five students of the catalogue. */
  function StudentsPreview(students: seq<Student>): (r: seq<Student>)
    ensures |r| <= Cap && |r| <= |students| && r == students[..|r|]
    ensures |r| < Cap ==> r == students
  {
    Take(students, Cap)
  }

  /** A community's avatar row: the first five members and, when there are more, the number left over. */
  datatype Avatars = Avatars(shown: seq<Id>, overflow: Option<nat>)

  function AvatarsOf(c: Community): (r: Avatars)
    ensures |r.shown| <= Cap && |r.shown| <= |c.members| && r.shown == c.members[..|r.shown|]
    ensures r.overflow.Some? <==> |c.members| > Cap
    ensures r.overflow.None? ==> r.shown == c.members
    ensures r.overflow.Some? ==> |r.shown| + r.overflow.value == |c.members| && r.overflow.value > 0
    ensures r.overflow.Some? ==> |r.shown| == Cap
  {
    var n := |c.members|;
    Avatars(Take(c.members, Cap), if n > Cap then Some(n - Cap) else None)
  }

  /** Avatars and badge together account for every member, counted once. */
  lemma {:induction false} AvatarsAccountForAll(c: Community)
    ensures var a := AvatarsOf(c);
      |a.shown| + (if a.overflow.Some? then a.overflow.value else 0) == |c.members|
  {
  }
}

=== FILE: fixture.dfy ===
/**
 * The mock data set as the application sees it once the data module has
 * loaded: every link assignment (mentors and students, goals, achievements,
 * skills, posts into communities) already applied. Dates, avatars, the
 * mentors' availability slots and the students' empty `progress` lists are
 * not part of the model.
 *
 * Ratings are in tenths (4.9 is 49).
 */
module Fixture {
  import opened Types
  import opened Lists
  import CommunityFeed

  // ---- Goals, achievements, skills ----------------------------------------

  const G1 := Goal("g1", "Learn React Fundamentals",
    "Master the basics of React including components, props, and state", InProgress, 65)
  const G2 := Goal("g2", "Complete Machine Learning Project",
    "Build and deploy a machine learning model for image classification", InProgress, 40)
  const G3 := Goal("g3", "Improve Technical Writing",
    "Practice writing technical documentation and blog posts", NotStarted, 0)
  const Goals: seq<Goal> := [G1, G2, G3]

  const Ach1 := Achievement("ach1", "First Milestone", "Completed your first learning goal", "award")
  const Ach2 := Achievement("ach2", "Consistent Learner", "Logged in for 7 consecutive days", "calendar")
  const Ach3 := Achievement("ach3", "Feedback Master", "Received positive feedback on 5 assignments", "thumbs-up")
  const Achievements: seq<Achievement> := [Ach1, Ach2, Ach3]

  const Sk1 := Skill("sk1", "JavaScript", 4, "Programming")
  const Sk2 := Skill("sk2", "React", 3, "Frontend")
  const Sk3 := Skill("sk3", "Python", 2, "Programming")
  const Sk4 := Skill("sk4", "UX Design", 4, "Design")
  const Sk5 := Skill("sk5", "Data Analysis", 3, "Data Science")
  const Skills: seq<Skill> := [Sk1, Sk2, Sk3, Sk4, Sk5]

  // ---- People -------------------------------------------------------------

  const S1 := Student("s1", "Alex Johnson", "alex@example.com", ["m1", "m2"],
    [G1, G3], [Ach1, Ach2], [Sk1, Sk2, Sk3])
  const S2 := Student("s2", "Jamie Smith", "jamie@example.com", ["m2"],
    [G2], [Ach3], [Sk3, Sk5])
  const S3 := Student("s3", "Taylor Wilson", "taylor@example.com", ["m1", "m3"],
    [G1, G2], [Ach1, Ach2, Ach3], [Sk1, Sk4, Sk5])
  const Students: seq<Student> := [S1, S2, S3]

  const M1 := Mentor("m1", "Dr. Sarah Chen", "sarah@example.com", ["s1", "s3"],
    ["Machine Learning", "Data Science", "Python"], 49,
    "PhD in Computer Science with 10+ years of industry experience at top tech companies.")
  const M2 := Mentor("m2", "Prof. Michael Rodriguez", "michael@example.com", ["s1", "s2"],
    ["Web Development", "JavaScript", "React"], 48,
    "Full-stack developer and educator with a passion for teaching the next generation of coders.")
  const M3 := Mentor("m3", "Dr. Olivia Washington", "olivia@example.com", ["s3"],
    ["UX Design", "Product Management", "Design Thinking"], 47,
    "UX researcher and designer with experience at Fortune 500 companies and startups alike.")
  const Mentors: seq<Mentor> := [M1, M2, M3]

  const A1 := Admin("a1", "Admin User", "admin@example.com")
  const Admins: seq<Admin> := [A1]

  // ---- Meetings and assignments -------------------------------------------

  const Meet1 := Meeting("meet1", "m1", "s1", "Weekly Progress Review",
    "Review progress on React learning goals and set next steps", Scheduled, "")
  const Meet2 := Meeting("meet2", "m2", "s2", "Project Feedback Session",
    "Provide feedback on the machine learning project implementation", Scheduled, "")
  const Meet3 := Meeting("meet3", "m3", "s3", "UX Design Portfolio Review",
    "Review portfolio and provide guidance on improvements", Scheduled, "")
  const Meetings: seq<Meeting> := [Meet1, Meet2, Meet3]

  const Assign1 := Assignment("assign1", "Build a React Component Library",
    "Create a reusable component library with at least 5 components", Working, "", 0, "m2", "s1")
  const Assign2 := Assignment("assign2", "Implement a Neural Network from Scratch",
    "Build a simple neural network without using any ML libraries", Assigned, "", 0, "m1", "s2")
  const Assign3 := Assignment("assign3", "Design a Mobile App Prototype",
    "Create a high-fidelity prototype for a mobile app of your choice", Submitted,
    "Great work on the visual hierarchy. Consider improving the navigation flow.", 85, "m3", "s3")
  const Assignments: seq<Assignment> := [Assign1, Assign2, Assign3]

  // ---- Community ------------------------------------------------------------

  const Post1 := Post("post1", "s1", "Just completed my first React project! Check it out: [link]", 12,
    [Comment("comment1", "m2", "Great work! I especially like how you structured your components.", 3)])
  const Post2 := Post("post2", "m1", "Sharing a great resource on machine learning fundamentals: [link]", 24,
    [Comment("comment2", "s2", "Thanks for sharing! This is exactly what I needed for my project.", 2)])
  const Post3 := Post("post3", "s3", "Looking for feedback on my UX design portfolio. Any takers?", 8,
    [Comment("comment3", "m3", "I d be happy to review it. Send me a DM!", 1)])
  const Posts: seq<Post> := [Post1, Post2, Post3]

  const Comm1 := Community("comm1", "Web Development",
    "A community for web developers to share knowledge and resources", ["s1", "s2", "s3", "m2"], [Post1])
  const Comm2 := Community("comm2", "Data Science Hub",
    "Discuss data science topics, share projects, and get feedback", ["s2", "s3", "m1"], [Post2])
  const Comm3 := Community("comm3", "Design Thinkers",
    "For UX/UI designers to share work and discuss design principles", ["s1", "s3", "m3"], [Post3])
  const Communities: seq<Community> := [Comm1, Comm2, Comm3]

  /** The signed-in user: the first student with its mentors set again to the first two mentors. */
  const CurrentUser: Student := S1.(mentors := [M1.id, M2.id])

  // ---- Properties of the data set -------------------------------------------

  /** A student lists the mentor and the mentor lists the student. */
  predicate Linked(studentId: Id, mentorId: Id) {
    exists i, j :: 0 <= i < |Students| && 0 <= j < |Mentors| &&
      Students[i].id == studentId && Mentors[j].id == mentorId && mentorId in Students[i].mentors
  }

  /** The links are symmetric: a mentor is among a student's mentors iff the student is among the mentor's students. */
  lemma LinksSymmetric()
    ensures forall i, j :: 0 <= i < |Students| && 0 <= j < |Mentors| ==>
      (Mentors[j].id in Students[i].mentors <==> Students[i].id in Mentors[j].students)
  {
    assert "m1" != "m2" && "m1" != "m3" && "m2" != "m3";
    assert "s1" != "s2" && "s1" != "s3" && "s2" != "s3";
  }

  /** Every meeting pairs a student with one of that student's mentors. */
  lemma MeetingPairsLinked()
    ensures forall k :: 0 <= k < |Meetings| ==> Linked(Meetings[k].studentId, Meetings[k].mentorId)
  {
    assert Linked("s1", "m1") by { assert Students[0].id == "s1" && Mentors[0].id == "m1"; }
    assert Linked("s2", "m2") by { assert Students[1].id == "s2" && Mentors[1].id == "m2"; }
    assert Linked("s3", "m3") by { assert Students[2].id == "s3" && Mentors[2].id == "m3"; }
  }

  /** Assignments may pair people who are not linked: the second pairs s2 with m1, though s2's only mentor is m2. */
  lemma AssignmentPairsNotAllLinked()
    ensures Linked(Assign1.studentId, Assign1.mentorId) && Linked(Assign3.studentId, Assign3.mentorId)
    ensures !Linked(Assign2.studentId, Assign2.mentorId)
  {
    assert Linked("s1", "m2") by { assert Students[0].id == "s1" && Mentors[1].id == "m2"; }
    assert Linked("s3", "m3") by { assert Students[2].id == "s3" && Mentors[2].id == "m3"; }
    assert "s1" != "s2" && "s3" != "s2" && "m1" != "m2";
  }

  /** Ids are unique within every collection. */
  lemma IdsUnique()
    ensures UniqueBy(StudentId, Students) && UniqueBy(MentorId, Mentors)
    ensures UniqueBy(GoalId, Goals) && UniqueBy(AchievementId, Achievements) && UniqueBy(SkillId, Skills)
    ensures UniqueBy(MeetingId, Meetings) && UniqueBy(AssignmentId, Assignments)
    ensures UniqueBy(CommunityId, Communities) && UniqueBy(PostId, Posts)
  {
    PeopleIdsUnique();
    CatalogueIdsUnique();
    SkillIdsUnique();
    ActivityIdsUnique();
    CommunityIdsUnique();
  }

  lemma PeopleIdsUnique()
    ensures UniqueBy(StudentId, Students) && UniqueBy(MentorId, Mentors)
  {
    assert "s1" != "s2" && "s1" != "s3" && "s2" != "s3";
    assert "m1" != "m2" && "m1" != "m3" && "m2" != "m3";
  }

  lemma CatalogueIdsUnique()
    ensures UniqueBy(GoalId, Goals) && UniqueBy(AchievementId, Achievements)
  {
    assert "g1" != "g2" && "g1" != "g3" && "g2" != "g3";
    assert "ach1" != "ach2" && "ach1" != "ach3" && "ach2" != "ach3";
  }

  lemma SkillIdsUnique()
    ensures UniqueBy(SkillId, Skills)
  {
    assert "sk1" != "sk2" && "sk1" != "sk3" && "sk1" != "sk4" && "sk1" != "sk5";
    assert "sk2" != "sk3" && "sk2" != "sk4" && "sk2" != "sk5";
    assert "sk3" != "sk4" && "sk3" != "sk5" && "sk4" != "sk5";
  }

  lemma ActivityIdsUnique()
    ensures UniqueBy(MeetingId, Meetings) && UniqueBy(AssignmentId, Assignments)
  {
    assert "meet1" != "meet2" && "meet1" != "meet3" && "meet2" != "meet3";
    assert "assign1" != "assign2" && "assign1" != "assign3" && "assign2" != "assign3";
  }

  lemma CommunityIdsUnique()
    ensures UniqueBy(CommunityId, Communities) && UniqueBy(PostId, Posts)
  {
    assert "comm1" != "comm2" && "comm1" != "comm3" && "comm2" != "comm3";
    assert "post1" != "post2" && "post1" != "post3" && "post2" != "post3";
  }

  /** Each post belongs to exactly one community: the k-th post to the k-th community. */
  lemma EachPostInOneCommunity()
    ensures forall k :: 0 <= k < |Posts| ==>
      CommunityFeed.ListsPost(Communities[k], Posts[k]) &&
      forall j :: 0 <= j < |Communities| && j != k ==> !CommunityFeed.ListsPost(Communities[j], Posts[k])
  {
    assert "post1" != "post2" && "post1" != "post3" && "post2" != "post3";
    assert Communities[0].posts[0] == Posts[0];
    assert Communities[1].posts[0] == Posts[1];
    assert Communities[2].posts[0] == Posts[2];
  }

  /** Goal progress values are percentages and skill levels lie on the five-point scale. */
  lemma ValuesInRange()
    ensures forall i :: 0 <= i < |Goals| ==> 0 <= Goals[i].progress <= 100
    ensures forall i :: 0 <= i < |Skills| ==> 1 <= Skills[i].level <= 5
    ensures forall i, k :: 0 <= i < |Students| && 0 <= k < |Students[i].goals| ==> Students[i].goals[k] in Goals
  {
  }

  /** The signed-in user is the first student, with mentors m1 and m2 and achievements ach1 and ach2. */
  lemma CurrentUserFacts()
    ensures CurrentUser == S1 && CurrentUser.id == "s1"
    ensures CurrentUser.mentors == ["m1", "m2"]
    ensures |CurrentUser.achievements| == 2
    ensures CurrentUser.achievements[0].id == "ach1" && CurrentUser.achievements[1].id == "ach2"
    ensures CurrentUser.Role() == StudentRole
  {
  }
}

=== FILE: fixture_pages.dfy ===
/**
 * What the pages compute from the mock data set for the signed-in student,
 * for the first mentor (whom the mentor dashboard shows) and for the
 * administrator.
 */
module FixturePages {
  import opened Types
  import opened Lists
  import opened Fixture
  import Stats
  import Achievements
  import MentorDashboard
  import StudentDashboard
  import MyMentors
  import AdminPages
  import AdminDashboard
  import Navigation
  import Search

  /** The signed-in user is a student, so the sidebar and the route table are the student's. */
  lemma CurrentUserNavigation()
    ensures Navigation.SidebarItems(RoleText(CurrentUser.Role())) == Navigation.StudentItems
    ensures Navigation.Routes(RoleText(CurrentUser.Role())) == Navigation.StudentRoutes
  {
  }

  /** Two of the three achievements are unlocked: the third is locked and the page reads 67%. */
  lemma CurrentUserAchievements()
    ensures Achievements.Locked(Fixture.Achievements, CurrentUser.achievements) == [Ach3]
    ensures Achievements.CompletionPercentage(Fixture.Achievements, CurrentUser.achievements) == Some(67)
  {
    var unlocked := CurrentUser.achievements;
    assert "ach3" != "ach1" && "ach3" != "ach2";
    assert !Achievements.IsUnlocked(unlocked, "ach3");
    assert unlocked[0].id == "ach1" && unlocked[1].id == "ach2";
    Filter3((a: Achievement) => !Achievements.IsUnlocked(unlocked, a.id), Ach1, Ach2, Ach3);
    Stats.RoundDivUnique(200, 3, 67);
  }

  /**
   * The mentor dashboard for m1: one upcoming session, nothing to review,
   * and rows for s1 (33%, from 65 and 0) and s3 (53%, from 65 and 40).
   */
  lemma FirstMentorDashboard()
    ensures MentorDashboard.UpcomingMeetings(Meetings, "m1") == [Meet1]
    ensures MentorDashboard.PendingReviews(Assignments, "m1") == []
    ensures MentorDashboard.ProgressRows(Students, "m1") == [S1, S3]
    ensures MentorDashboard.RowProgress(S1) == Some(33)
    ensures MentorDashboard.RowProgress(S3) == Some(53)
  {
    FirstMentorLists();
    FirstMentorRows();
    FirstRowProgress();
    ThirdRowProgress();
  }

  lemma FirstMentorLists()
    ensures MentorDashboard.UpcomingMeetings(Meetings, "m1") == [Meet1]
    ensures MentorDashboard.PendingReviews(Assignments, "m1") == []
  {
    assert "m2" != "m1" && "m3" != "m1";
    Filter3((m: Meeting) => MentorDashboard.UpcomingFor("m1", m), Meet1, Meet2, Meet3);
    Filter3((a: Assignment) => MentorDashboard.PendingFor("m1", a), Assign1, Assign2, Assign3);
  }

  lemma FirstMentorRows()
    ensures MentorDashboard.ProgressRows(Students, "m1") == [S1, S3]
  {
    assert "m2" != "m1";
    Filter3((s: Student) => "m1" in s.mentors, S1, S2, S3);
  }

  lemma FirstRowProgress()
    ensures MentorDashboard.RowProgress(S1) == Some(33)
  {
    var p1 := Stats.Progresses(S1.goals);
    assert p1 == [65, 0] && p1[1..] == [0] && p1[1..][1..] == [];
    assert Stats.Sum(p1[1..]) == 0;
    assert Stats.Sum(p1) == 65;
    Stats.RoundDivUnique(65, 2, 33);
  }

  lemma ThirdRowProgress()
    ensures MentorDashboard.RowProgress(S3) == Some(53)
  {
    var p3 := Stats.Progresses(S3.goals);
    assert p3 == [65, 40] && p3[1..] == [40] && p3[1..][1..] == [];
    assert Stats.Sum(p3[1..]) == 40;
    assert Stats.Sum(p3) == 105;
    Stats.RoundDivUnique(105, 2, 53);
  }

  /**
   * The student dashboard takes its goals from the catalogue, not from the
   * signed-in student: it shows g2, which s1 does not hold.
   */
  lemma StudentDashboardGoals()
    ensures StudentDashboard.UpcomingGoals(Goals) == [G1, G2]
    ensures G2 !in CurrentUser.goals
  {
    Filter3((g: Goal) => g.status != Completed, G1, G2, G3);
    assert G2.id != G1.id && G2.id != G3.id;
  }

  /** My Mentors for s1: 6 skill areas, 1 session, 1 active assignment. */
  lemma CurrentUserMyMentors()
    ensures MyMentors.SkillAreas([M1, M2]) == 6
    ensures MyMentors.UpcomingSessions(Meetings, "s1") == 1
    ensures |MyMentors.ActiveAssignments(Assignments, "s1")| == 1
  {
    assert "s2" != "s1" && "s3" != "s1";
    var es := Search.Expertises([M1, M2]);
    assert es == [M1.expertise, M2.expertise] && es[1..] == [M2.expertise] && es[1..][1..] == [];
    assert SumLengths(es[1..]) == 3;
    Filter3((m: Meeting) => m.studentId == "s1", Meet1, Meet2, Meet3);
    Filter3((a: Assignment) => a.studentId == "s1" && a.status != Reviewed, Assign1, Assign2, Assign3);
  }

  /** The administrator's figures: an average rating of 4.8 and, in comm1, four avatars and no overflow badge. */
  lemma AdminFigures()
    ensures Stats.AverageRatingTenths(Mentors) == Some(48)
    ensures AdminDashboard.AvatarsOf(Comm1) == AdminDashboard.Avatars(["s1", "s2", "s3", "m2"], None)
    ensures AdminPages.StudentPreview(M1) == AdminPages.Preview(["s1", "s3"], false)
  {
    assert Mentors[1..] == [M2, M3] && Mentors[1..][1..] == [M3] && Mentors[1..][1..][1..] == [];
    assert Stats.SumRatings(Mentors[1..][1..]) == 47;
    assert Stats.SumRatings(Mentors[1..]) == 95;
    assert Stats.SumRatings(Mentors) == 144;
    Stats.RoundDivUnique(144, 3, 48);
  }
}

=== FILE: goals.dfy ===
/**
 * The student's goals page: the status tabs, the count on each tab, the
 * overall progress figure and the colours of a goal's badge and bar.
 */
module GoalsPage {
  import opened Types
  import opened Lists
  import opened Text
  import Cards

  /** `activeTab`: 'all' or one of the three statuses. */
  datatype Tab = AllTab | StatusTab(status: GoalStatus)

  /** The goals a tab lists: all of them on 'all', otherwise those with the tab's status, in order. */
  function OnTab(goals: seq<Goal>, tab: Tab): (r: seq<Goal>)
    ensures tab == AllTab ==> r == goals
    ensures tab.StatusTab? ==> forall g :: g in r <==> g in goals && g.status == tab.status
    ensures tab.StatusTab? ==> forall g :: Count(r, g) == if g.status == tab.status then Count(goals, g) else 0
    ensures IsSubsequence(r, goals)
  {
    if tab == AllTab then
      PrefixIsSubsequence(goals, goals);
      goals
    else
      FilterIsSubsequence((g: Goal) => g.status == tab.status, goals);
      Filter((g: Goal) => g.status == tab.status, goals)
  }

  function WithStatus(goals: seq<Goal>, s: GoalStatus): seq<Goal> {
    Filter((g: Goal) => g.status == s, goals)
  }

  /** `goalCounts`. */
  datatype GoalCounts = GoalCounts(total: nat, completed: nat, inProgress: nat, notStarted: nat)

  lemma {:induction false} StatusesPartition(goals: seq<Goal>)
    ensures |WithStatus(goals, Completed)| + |WithStatus(goals, InProgress)| + |WithStatus(goals, NotStarted)| == |goals|
  {
    if |goals| > 0 {
      StatusesPartition(goals[1..]);
    }
  }

  /** The three status counts add up to the total. */
  function CountsOf(goals: seq<Goal>): (c: GoalCounts)
    ensures c.total == |goals|
    ensures c.completed + c.inProgress + c.notStarted == c.total
  {
    StatusesPartition(goals);
    GoalCounts(|goals|, |WithStatus(goals, Completed)|, |WithStatus(goals, InProgress)|,
               |WithStatus(goals, NotStarted)|)
  }

  /** The number printed on a tab's label. */
  function TabCount(c: GoalCounts, tab: Tab): nat {
    match tab
    case AllTab => c.total
    case StatusTab(Completed) => c.completed
    case StatusTab(InProgress) => c.inProgress
    case StatusTab(NotStarted) => c.notStarted
  }

  /** Each tab's label shows how many goals that tab lists. */
  lemma {:induction false} TabCountIsListLength(goals: seq<Goal>, tab: Tab)
    ensures TabCount(CountsOf(goals), tab) == |OnTab(goals, tab)|
  {
  }

  /** The page's own badge colours for a goal: completed success, in progress info, otherwise the default. */
  function PageBadgeTone(s: GoalStatus): Cards.Tone {
    if s == Completed then Cards.Success
    else if s == InProgress then Cards.Info
    else Cards.Neutral
  }

  /** The page colours its badges as the goal card does. */
  lemma {:induction false} PageBadgeAgreesWithCard(s: GoalStatus)
    ensures PageBadgeTone(s) == Cards.GoalBadge(s).tone
  {
  }

  /** The badge text: the status text with its hyphen turned into a space. */
  function StatusLabel(s: GoalStatus): (r: string)
    ensures s == InProgress ==> r == "in progress"
    ensures s == NotStarted ==> r == "not started"
    ensures s == Completed ==> r == "completed"
  {
    LabelOfStatus(s);
    ReplaceFirst(GoalStatusText(s), '-', ' ')
  }

  lemma {:induction false} LabelOfStatus(s: GoalStatus)
    ensures s == InProgress ==> ReplaceFirst(GoalStatusText(s), '-', ' ') == "in progress"
    ensures s == NotStarted ==> ReplaceFirst(GoalStatusText(s), '-', ' ') == "not started"
    ensures s == Completed ==> ReplaceFirst(GoalStatusText(s), '-', ' ') == "completed"
  {
    match s
    case InProgress => InProgressLabel();
    case NotStarted => NotStartedLabel();
    case Completed => CompletedLabel();
  }

  lemma InProgressLabel()
    ensures ReplaceFirst("in-progress", '-', ' ') == "in progress"
  {
    var s := "in-progress";
    assert '-' !in s[..2];
    ReplaceFirstAt(s, '-', ' ', 2);
  }

  lemma NotStartedLabel()
    ensures ReplaceFirst("not-started", '-', ' ') == "not started"
  {
    var s := "not-started";
    assert '-' !in s[..3];
    ReplaceFirstAt(s, '-', ' ', 3);
  }

  lemma CompletedLabel()
    ensures ReplaceFirst("completed", '-', ' ') == "completed"
  {
    assert '-' !in "completed";
  }

  /** What an empty tab says: nothing at all on 'all', otherwise nothing with the tab's status. */
  datatype EmptyTab = NoGoals | NoneWithStatus(shown: string)

  function EmptyTabOf(tab: Tab): (r: EmptyTab)
    ensures r == NoGoals <==> tab == AllTab
    ensures tab.StatusTab? ==> r == NoneWithStatus(StatusLabel(tab.status))
  {
    match tab
    case AllTab => NoGoals
    case StatusTab(s) => NoneWithStatus(ReplaceFirst(GoalStatusText(s), '-', ' '))
  }
}

=== FILE: lists.dfy ===
/**
 * The list operations the pages build their views from: `filter`, `find`,
 * `slice(0, n)`, the expand/collapse membership toggle, `new Set(...)`
 * de-duplication and `flatMap`, each with the property a caller relies on.
 */
module Lists {
  import opened Types

  /** `xs.filter(p)`: the elements of `xs` satisfying `p`, in their order. */
  function Filter<T(==,!new)>(p: T -> bool, xs: seq<T>): (r: seq<T>)
    ensures |r| <= |xs|
    ensures forall i :: 0 <= i < |r| ==> p(r[i])
    ensures forall x :: x in r <==> x in xs && p(x)
    ensures forall x :: Count(r, x) == if p(x) then Count(xs, x) else 0
  {
    if |xs| == 0 then []
    else if p(xs[0]) then
      var r := [xs[0]] + Filter(p, xs[1..]);
      assert r[1..] == Filter(p, xs[1..]);
      r
    else Filter(p, xs[1..])
  }

  /** How many times `x` occurs in `xs`. */
  function Count<T(==)>(xs: seq<T>, x: T): nat {
    if |xs| == 0 then 0 else (if xs[0] == x then 1 else 0) + Count(xs[1..], x)
  }

  /** The count is the element's multiplicity in the list's multiset. */
  lemma {:induction false} CountIsMultiplicity<T>(xs: seq<T>, x: T)
    ensures Count(xs, x) == multiset(xs)[x]
  {
    if |xs| > 0 {
      CountIsMultiplicity(xs[1..], x);
      assert xs == [xs[0]] + xs[1..];
    }
  }

  /** `a` is `b` with some elements deleted, the rest in their original order. */
  predicate IsSubsequence<T(==,!new)>(a: seq<T>, b: seq<T>)
    decreases |b|
  {
    if |a| == 0 then true
    else if |b| == 0 then false
    else if a[0] == b[0] then IsSubsequence(a[1..], b[1..])
    else IsSubsequence(a, b[1..])
  }

  /** A filtered list is an order-preserving subsequence of its source. */
  lemma {:induction false} FilterIsSubsequence<T(!new)>(p: T -> bool, xs: seq<T>)
    ensures IsSubsequence(Filter(p, xs), xs)
  {
    if |xs| > 0 {
      FilterIsSubsequence(p, xs[1..]);
      var r := Filter(p, xs[1..]);
      if !p(xs[0]) && |r| > 0 {
        assert r[0] != xs[0];
      }
    }
  }

  /** A weaker predicate keeps a superset, in the same order: filters are monotone. */
  lemma {:induction false} FilterMonotone<T(!new)>(p: T -> bool, q: T -> bool, xs: seq<T>)
    requires forall x :: p(x) ==> q(x)
    ensures IsSubsequence(Filter(p, xs), Filter(q, xs))
  {
    if |xs| > 0 {
      FilterMonotone(p, q, xs[1..]);
      var a := Filter(p, xs[1..]);
      if !p(xs[0]) && q(xs[0]) && |a| > 0 {
        assert a[0] != xs[0];
      }
    }
  }

  /** The first element a filter keeps is the first element satisfying the predicate. */
  lemma {:induction false} FilterSkipsTo<T(!new)>(p: T -> bool, xs: seq<T>, k: int)
    requires 0 <= k < |xs| && p(xs[k])
    requires forall i :: 0 <= i < k ==> !p(xs[i])
    ensures |Filter(p, xs)| > 0 && Filter(p, xs)[0] == xs[k]
    decreases k
  {
    if k > 0 {
      FilterSkipsTo(p, xs[1..], k - 1);
    }
  }

  /** A filter over three elements, spelled out; used to evaluate the pages on the mock data. */
  lemma {:induction false} Filter3<T(!new)>(p: T -> bool, a: T, b: T, c: T)
    ensures Filter(p, [a, b, c]) ==
      (if p(a) then [a] else []) + (if p(b) then [b] else []) + (if p(c) then [c] else [])
  {
    Filter2(p, b, c);
    FilterCons(p, a, [b, c]);
    assert [a] + [b, c] == [a, b, c];
  }

  lemma {:induction false} Filter2<T(!new)>(p: T -> bool, b: T, c: T)
    ensures Filter(p, [b, c]) == (if p(b) then [b] else []) + (if p(c) then [c] else [])
  {
    FilterCons(p, c, []);
    assert [c] + [] == [c];
    FilterCons(p, b, [c]);
    assert [b] + [c] == [b, c];
  }

  /** Filtering a list with one more element in front decides that element and filters the rest. */
  lemma {:induction false} FilterCons<T(!new)>(p: T -> bool, x: T, xs: seq<T>)
    ensures Filter(p, [x] + xs) == (if p(x) then [x] else []) + Filter(p, xs)
  {
    assert ([x] + xs)[1..] == xs;
  }

  /** A predicate every element satisfies keeps the whole list. */
  lemma {:induction false} FilterKeepsAll<T(!new)>(p: T -> bool, xs: seq<T>)
    requires forall i :: 0 <= i < |xs| ==> p(xs[i])
    ensures Filter(p, xs) == xs
  {
    if |xs| > 0 {
      FilterKeepsAll(p, xs[1..]);
      assert [xs[0]] + xs[1..] == xs;
    }
  }

  /** Two predicates that agree on the list's elements filter it identically. */
  lemma {:induction false} FilterCongruent<T(!new)>(p: T -> bool, q: T -> bool, xs: seq<T>)
    requires forall i :: 0 <= i < |xs| ==> p(xs[i]) == q(xs[i])
    ensures Filter(p, xs) == Filter(q, xs)
  {
    if |xs| > 0 {
      FilterCongruent(p, q, xs[1..]);
    }
  }

  lemma {:induction false} FilterAppend<T(!new)>(p: T -> bool, xs: seq<T>, ys: seq<T>)
    ensures Filter(p, xs + ys) == Filter(p, xs) + Filter(p, ys)
  {
    if |xs| == 0 {
      assert xs + ys == ys;
    } else {
      assert (xs + ys)[1..] == xs[1..] + ys;
      FilterAppend(p, xs[1..], ys);
    }
  }

  /** Filtering by `p` and then by `q` is filtering by both at once. */
  lemma {:induction false} FilterFilter<T(!new)>(p: T -> bool, q: T -> bool, xs: seq<T>)
    ensures Filter(q, Filter(p, xs)) == Filter(x => p(x) && q(x), xs)
  {
    if |xs| > 0 {
      FilterFilter(p, q, xs[1..]);
    }
  }

  /** No element occurs twice. */
  predicate NoDups<T(==,!new)>(xs: seq<T>) {
    forall i, j :: 0 <= i < j < |xs| ==> xs[i] != xs[j]
  }

  /** No two elements share a key (for records: the ids are unique). */
  predicate UniqueBy<T, K(==)>(key: T -> K, xs: seq<T>) {
    forall i, j :: 0 <= i < j < |xs| ==> key(xs[i]) != key(xs[j])
  }

  function KeySet<T, K>(key: T -> K, xs: seq<T>): set<K> {
    set i | 0 <= i < |xs| :: key(xs[i])
  }

  lemma {:induction false} FilterNoDups<T(!new)>(p: T -> bool, xs: seq<T>)
    ensures NoDups(xs) ==> NoDups(Filter(p, xs))
  {
    if |xs| > 0 && NoDups(xs) {
      FilterNoDups(p, xs[1..]);
      var r := Filter(p, xs[1..]);
      if p(xs[0]) {
        assert xs[0] !in xs[1..];
        var out := [xs[0]] + r;
        forall i, j | 0 <= i < j < |out| ensures out[i] != out[j] {
          if i == 0 {
            assert out[j] == r[j - 1];
            assert out[j] in xs[1..];
          }
        }
      }
    }
  }

  lemma {:induction false} FilterUniqueBy<T(!new), K>(key: T -> K, p: T -> bool, xs: seq<T>)
    requires UniqueBy(key, xs)
    ensures UniqueBy(key, Filter(p, xs))
  {
    if |xs| > 0 {
      FilterUniqueBy(key, p, xs[1..]);
      var r := Filter(p, xs[1..]);
      if p(xs[0]) {
        var out := [xs[0]] + r;
        forall i, j | 0 <= i < j < |out| ensures key(out[i]) != key(out[j]) {
          if i == 0 {
            assert out[j] == r[j - 1];
            assert out[j] in xs[1..];
            var k :| 0 <= k < |xs[1..]| && xs[1..][k] == out[j];
            assert xs[k + 1] == out[j];
          }
        }
      }
    }
  }

  /** With unique keys, a list is exactly as long as its set of keys is large. */
  lemma {:induction false} UniqueByCard<T(!new), K>(key: T -> K, xs: seq<T>)
    requires UniqueBy(key, xs)
    ensures |KeySet(key, xs)| == |xs|
  {
    if |xs| > 0 {
      var rest := xs[1..];
      UniqueByCard(key, rest);
      assert KeySet(key, xs) == {key(xs[0])} + KeySet(key, rest) by {
        forall k | k in KeySet(key, xs) ensures k in {key(xs[0])} + KeySet(key, rest) {
          var i :| 0 <= i < |xs| && key(xs[i]) == k;
          if i > 0 {
            assert key(rest[i - 1]) == k;
          }
        }
        forall k | k in KeySet(key, rest) ensures k in KeySet(key, xs) {
          var i :| 0 <= i < |rest| && key(rest[i]) == k;
          assert key(xs[i + 1]) == k;
        }
      }
      forall i | 0 <= i < |rest| ensures key(rest[i]) != key(xs[0]) {
        assert rest[i] == xs[i + 1];
      }
    }
  }

  /** `xs.find(p)`: the first element satisfying `p`, or `None` (JavaScript's `undefined`). */
  function Find<T>(p: T -> bool, xs: seq<T>): (r: Option<T>)
    ensures r.None? <==> forall i :: 0 <= i < |xs| ==> !p(xs[i])
    ensures r.Some? ==> exists i :: 0 <= i < |xs| && xs[i] == r.value && p(xs[i]) &&
                                    forall j :: 0 <= j < i ==> !p(xs[j])
  {
    if |xs| == 0 then None
    else if p(xs[0]) then Some(xs[0])
    else
      var r := Find(p, xs[1..]);
      assert r.Some? ==> exists i :: 0 <= i < |xs[1..]| && xs[1..][i] == r.value && p(xs[1..][i]) &&
                                       forall j :: 0 <= j < i ==> !p(xs[1..][j]);
      assert r.Some? ==> exists i :: 1 <= i < |xs| && xs[i] == r.value && p(xs[i]) &&
                                       forall j :: 1 <= j < i ==> !p(xs[j]);
      r
  }

  /** With unique keys, looking an element up by its own key finds that element. */
  lemma {:induction false} FindByUniqueKey<T(!new), K>(key: T -> K, xs: seq<T>, i: int)
    requires UniqueBy(key, xs)
    requires 0 <= i < |xs|
    ensures Find((x: T) => key(x) == key(xs[i]), xs) == Some(xs[i])
  {
    var r := Find((x: T) => key(x) == key(xs[i]), xs);
    var k :| 0 <= k < |xs| && xs[k] == r.value && key(xs[k]) == key(xs[i]) &&
             forall j :: 0 <= j < k ==> key(xs[j]) != key(xs[i]);
  }

  /** `xs.slice(0, n)`: the first `n` elements, or all of them when there are fewer. */
  function Take<T>(xs: seq<T>, n: nat): (r: seq<T>)
    ensures |r| <= n && |r| <= |xs|
    ensures |r| == n || |r| == |xs|
    ensures forall i :: 0 <= i < |r| ==> r[i] == xs[i]
  {
    if n < |xs| then xs[..n] else xs
  }

  /** A capped filter still holds only matching elements, in source order. */
  lemma {:induction false} TakeFiltered<T(!new)>(p: T -> bool, xs: seq<T>, n: nat)
    ensures forall i :: 0 <= i < |Take(Filter(p, xs), n)| ==> p(Take(Filter(p, xs), n)[i])
    ensures IsSubsequence(Take(Filter(p, xs), n), xs)
  {
    var f := Filter(p, xs);
    FilterIsSubsequence(p, xs);
    PrefixIsSubsequence(f, Take(f, n));
    SubsequenceTransitive(Take(f, n), f, xs);
  }

  /**
   * `xs.filter(p).slice(0, n)`: the first `n` elements satisfying `p`, in
   * order; fewer when fewer match.
   */
  function Capped<T(==,!new)>(p: T -> bool, xs: seq<T>, n: nat): (r: seq<T>)
    ensures |r| == if |Filter(p, xs)| < n then |Filter(p, xs)| else n
    ensures r == Filter(p, xs)[..|r|]
    ensures |r| < n ==> r == Filter(p, xs)
    ensures forall i :: 0 <= i < |r| ==> p(r[i]) && r[i] in xs
    ensures IsSubsequence(r, xs)
  {
    TakeFiltered(p, xs, n);
    assert forall i :: 0 <= i < |Take(Filter(p, xs), n)| ==> Take(Filter(p, xs), n)[i] in Filter(p, xs);
    Take(Filter(p, xs), n)
  }

  lemma {:induction false} PrefixIsSubsequence<T(!new)>(xs: seq<T>, pre: seq<T>)
    requires |pre| <= |xs| && pre == xs[..|pre|]
    ensures IsSubsequence(pre, xs)
  {
    if |pre| > 0 {
      PrefixIsSubsequence(xs[1..], pre[1..]);
    }
  }

  lemma {:induction false} SubsequenceDropHead<T(!new)>(a: seq<T>, b: seq<T>)
    requires |a| > 0 && IsSubsequence(a, b)
    ensures IsSubsequence(a[1..], b)
    decreases |b|, 1
  {
    if |a| > 1 {
      if a[0] == b[0] {
        SubsequenceSkip(a[1..], b);
      } else {
        SubsequenceDropHead(a, b[1..]);
        SubsequenceSkip(a[1..], b);
      }
    }
  }

  /** A subsequence of the tail is a subsequence of the whole list. */
  lemma {:induction false} SubsequenceSkip<T(!new)>(a: seq<T>, b: seq<T>)
    requires |b| > 0 && IsSubsequence(a, b[1..])
    ensures IsSubsequence(a, b)
    decreases |b|, 0
  {
    if |a| > 0 && a[0] == b[0] {
      SubsequenceDropHead(a, b[1..]);
    }
  }

  lemma {:induction false} SubsequenceTransitive<T(!new)>(a: seq<T>, b: seq<T>, c: seq<T>)
    requires IsSubsequence(a, b) && IsSubsequence(b, c)
    ensures IsSubsequence(a, c)
    decreases |c|
  {
    if |a| > 0 {
      assert |b| > 0;
      assert |c| > 0;
      if b[0] == c[0] {
        if a[0] == b[0] {
          SubsequenceTransitive(a[1..], b[1..], c[1..]);
        } else {
          SubsequenceTransitive(a, b[1..], c[1..]);
        }
      } else {
        SubsequenceTransitive(a, b, c[1..]);
        SubsequenceSkip(a, c);
      }
    }
  }

  /** `xs.filter(y => y !== x)`. */
  function Without<T(==,!new)>(xs: seq<T>, x: T): (r: seq<T>)
    ensures x !in r
    ensures forall y :: y != x ==> (y in r <==> y in xs)
  {
    Filter(y => y != x, xs)
  }

  lemma {:induction false} WithoutAbsent<T(!new)>(xs: seq<T>, x: T)
    requires x !in xs
    ensures Without(xs, x) == xs
  {
    FilterKeepsAll(y => y != x, xs);
  }

  /**
   * The expand/collapse toggle shared by the list pages: remove the id when it
   * is present, otherwise append it.
   */
  function Toggle<T(==,!new)>(xs: seq<T>, x: T): (r: seq<T>)
    ensures x in r <==> x !in xs
    ensures forall y :: y != x ==> (y in r <==> y in xs)
    ensures Without(r, x) == Without(xs, x)
    ensures NoDups(xs) ==> NoDups(r)
  {
    if x in xs then
      FilterKeepsAll(y => y != x, Filter(y => y != x, xs));
      FilterNoDups(y => y != x, xs);
      Without(xs, x)
    else
      FilterAppend(y => y != x, xs, [x]);
      FilterKeepsAll(y => y != x, xs);
      assert Filter(y => y != x, [x]) == [];
      xs + [x]
  }

  /** Toggling an absent id twice restores the list exactly; a present one comes back at the end. */
  lemma {:induction false} ToggleTwice<T(!new)>(xs: seq<T>, x: T)
    ensures forall y :: y in Toggle(Toggle(xs, x), x) <==> y in xs
    ensures x !in xs ==> Toggle(Toggle(xs, x), x) == xs
    ensures x in xs ==> Toggle(Toggle(xs, x), x) == Without(xs, x) + [x]
  {
    if x !in xs {
      FilterAppend(y => y != x, xs, [x]);
      FilterKeepsAll(y => y != x, xs);
      assert Filter(y => y != x, [x]) == [];
    }
  }

  /** Every element of a subsequence occurs in the longer list. */
  lemma {:induction false} SubsequenceHas<T(!new)>(a: seq<T>, b: seq<T>, j: int)
    requires IsSubsequence(a, b) && 0 <= j < |a|
    ensures exists v :: 0 <= v < |b| && b[v] == a[j]
    decreases |b|
  {
    if a[0] == b[0] {
      if j > 0 {
        SubsequenceHas(a[1..], b[1..], j - 1);
        var v :| 0 <= v < |b[1..]| && b[1..][v] == a[1..][j - 1];
        assert b[v + 1] == a[j];
      }
    } else {
      SubsequenceHas(a, b[1..], j);
      var v :| 0 <= v < |b[1..]| && b[1..][v] == a[j];
      assert b[v + 1] == a[j];
    }
  }

  /** A subsequence keeps the order of its elements: two of them occur in the same order in the longer list. */
  lemma {:induction false} SubsequenceOrder<T(!new)>(a: seq<T>, b: seq<T>, i: int, j: int)
    requires IsSubsequence(a, b) && 0 <= i < j < |a|
    ensures exists u, v :: 0 <= u < v < |b| && b[u] == a[i] && b[v] == a[j]
    decreases |b|
  {
    if a[0] == b[0] {
      if i == 0 {
        SubsequenceHas(a[1..], b[1..], j - 1);
        var v :| 0 <= v < |b[1..]| && b[1..][v] == a[1..][j - 1];
        assert b[0] == a[i] && b[v + 1] == a[j];
      } else {
        SubsequenceOrder(a[1..], b[1..], i - 1, j - 1);
        var u, v :| 0 <= u < v < |b[1..]| && b[1..][u] == a[1..][i - 1] && b[1..][v] == a[1..][j - 1];
        assert b[u + 1] == a[i] && b[v + 1] == a[j];
      }
    } else {
      SubsequenceOrder(a, b[1..], i, j);
      var u, v :| 0 <= u < v < |b[1..]| && b[1..][u] == a[i] && b[1..][v] == a[j];
      assert b[u + 1] == a[i] && b[v + 1] == a[j];
    }
  }

  /**
   * `r` lists its elements in the order they first occur in `xs`: of two
   * elements of `r`, the earlier one occurs in `xs` before the later one
   * first does.
   */
  predicate FirstOccurrenceOrder<T(==)>(xs: seq<T>, r: seq<T>) {
    forall i, j :: 0 <= i < j < |r| ==>
      exists k :: 0 <= k < |xs| && xs[k] == r[i] && r[j] !in xs[..k + 1]
  }

  /** `Array.from(new Set(xs))`: each distinct element once, in order of first occurrence. */
  function Dedupe<T(==,!new)>(xs: seq<T>): (r: seq<T>)
    ensures NoDups(r)
    ensures forall x :: x in r <==> x in xs
    ensures IsSubsequence(r, xs)
    ensures FirstOccurrenceOrder(xs, r)
  {
    if |xs| == 0 then []
    else
      var rest := Dedupe(xs[1..]);
      var r := [xs[0]] + Without(rest, xs[0]);
      FilterNoDups(y => y != xs[0], rest);
      FilterIsSubsequence(y => y != xs[0], rest);
      SubsequenceTransitive(Without(rest, xs[0]), rest, xs[1..]);
      assert r[1..] == Without(rest, xs[0]);
      DedupeConsOrder(xs, rest);
      r
  }

  /** The order step of `Dedupe`: the head goes first, and the tail's de-duplicated order carries over. */
  lemma {:induction false} DedupeConsOrder<T(!new)>(xs: seq<T>, rest: seq<T>)
    requires |xs| > 0 && FirstOccurrenceOrder(xs[1..], rest)
    ensures FirstOccurrenceOrder(xs, [xs[0]] + Without(rest, xs[0]))
  {
    var w := Without(rest, xs[0]);
    FilterIsSubsequence(y => y != xs[0], rest);
    forall i, j | 0 <= i < j < |[xs[0]] + w|
      ensures exists k :: 0 <= k < |xs| && xs[k] == ([xs[0]] + w)[i] && ([xs[0]] + w)[j] !in xs[..k + 1]
    {
      ConsPairOrdered(xs, rest, w, i, j);
    }
  }

  lemma {:induction false} ConsPairOrdered<T(!new)>(xs: seq<T>, rest: seq<T>, w: seq<T>, i: int, j: int)
    requires |xs| > 0 && FirstOccurrenceOrder(xs[1..], rest)
    requires IsSubsequence(w, rest) && xs[0] !in w
    requires 0 <= i < j < |[xs[0]] + w|
    ensures exists k :: 0 <= k < |xs| && xs[k] == ([xs[0]] + w)[i] && ([xs[0]] + w)[j] !in xs[..k + 1]
  {
    var r := [xs[0]] + w;
    assert r[j] == w[j - 1] && w[j - 1] != xs[0];
    if i == 0 {
      HeadOccursFirst(xs, w[j - 1]);
    } else {
      assert r[i] == w[i - 1];
      SubsequenceOrder(w, rest, i - 1, j - 1);
      var u, v :| 0 <= u < v < |rest| && rest[u] == w[i - 1] && rest[v] == w[j - 1];
      TailOrderCarries(xs, rest, u, v);
    }
  }

  lemma {:induction false} HeadOccursFirst<T(!new)>(xs: seq<T>, y: T)
    requires |xs| > 0 && y != xs[0]
    ensures exists k :: 0 <= k < |xs| && xs[k] == xs[0] && y !in xs[..k + 1]
  {
    assert xs[..1] == [xs[0]];
    assert y !in xs[..0 + 1];
  }

  lemma {:induction false} TailOrderCarries<T(!new)>(xs: seq<T>, rest: seq<T>, u: int, v: int)
    requires |xs| > 0 && FirstOccurrenceOrder(xs[1..], rest)
    requires 0 <= u < v < |rest| && rest[v] != xs[0]
    ensures exists k :: 0 <= k < |xs| && xs[k] == rest[u] && rest[v] !in xs[..k + 1]
  {
    var t := xs[1..];
    assert exists k :: 0 <= k < |t| && t[k] == rest[u] && rest[v] !in t[..k + 1];
    var k :| 0 <= k < |t| && t[k] == rest[u] && rest[v] !in t[..k + 1];
    assert xs[..k + 2] == [xs[0]] + t[..k + 1];
    assert xs[k + 1] == rest[u] && rest[v] !in xs[..(k + 1) + 1];
  }

  lemma {:induction false} DedupeCard<T(!new)>(xs: seq<T>)
    ensures |Dedupe(xs)| == |set x | x in xs|
  {
    var d := Dedupe(xs);
    UniqueByCard((x: T) => x, d);
    assert KeySet((x: T) => x, d) == set x | x in xs by {
      forall x | x in KeySet((x: T) => x, d) ensures x in xs {
        var i :| 0 <= i < |d| && d[i] == x;
      }
      forall x | x in xs ensures x in KeySet((x: T) => x, d) {
        assert x in d;
        var i :| 0 <= i < |d| && d[i] == x;
      }
    }
  }

  /** `xss.flat()`, as `flatMap` with the identity. */
  function Flatten<T(!new)>(xss: seq<seq<T>>): (r: seq<T>)
    ensures forall x :: x in r <==> exists i :: 0 <= i < |xss| && x in xss[i]
  {
    if |xss| == 0 then []
    else
      var rest := Flatten(xss[1..]);
      assert forall x :: x in rest <==> exists i :: 1 <= i < |xss| && x in xss[i] by {
        forall x | x in rest ensures exists i :: 1 <= i < |xss| && x in xss[i] {
          var i :| 0 <= i < |xss[1..]| && x in xss[1..][i];
          assert x in xss[i + 1];
        }
      }
      xss[0] + rest
  }

  function SumLengths<T>(xss: seq<seq<T>>): nat {
    if |xss| == 0 then 0 else |xss[0]| + SumLengths(xss[1..])
  }

  lemma {:induction false} FlattenLength<T(!new)>(xss: seq<seq<T>>)
    ensures |Flatten(xss)| == SumLengths(xss)
  {
    if |xss| > 0 {
      FlattenLength(xss[1..]);
    }
  }

  /** A subsequence is never longer than the list it is taken from. */
  lemma {:induction false} SubsequenceLength<T(!new)>(a: seq<T>, b: seq<T>)
    requires IsSubsequence(a, b)
    ensures |a| <= |b|
    decreases |b|
  {
    if |a| > 0 {
      if a[0] == b[0] {
        SubsequenceLength(a[1..], b[1..]);
      } else {
        SubsequenceLength(a, b[1..]);
      }
    }
  }

  /** Some element of `ys` has key `k`. */
  predicate HasKey<B, K(==)>(ys: seq<B>, key: B -> K, k: K) {
    exists i :: 0 <= i < |ys| && key(ys[i]) == k
  }

  /** `y` is the first element of `ys` with its key, the one `find` returns. */
  predicate FirstWithKey<B(==), K(==)>(ys: seq<B>, key: B -> K, y: B) {
    exists i :: 0 <= i < |ys| && ys[i] == y && forall j :: 0 <= j < i ==> key(ys[j]) != key(y)
  }

  /** `ys.find(y => key(y) === k)`. */
  function Lookup<B(==), K(==)>(ys: seq<B>, key: B -> K, k: K): (r: Option<B>)
    ensures r.None? <==> !HasKey(ys, key, k)
    ensures r.Some? ==> key(r.value) == k && FirstWithKey(ys, key, r.value)
  {
    var r := Find((y: B) => key(y) == k, ys);
    assert r.Some? ==> key(r.value) == k && FirstWithKey(ys, key, r.value) by {
      if r.Some? {
        var i :| 0 <= i < |ys| && ys[i] == r.value && key(ys[i]) == k &&
                 forall j :: 0 <= j < i ==> key(ys[j]) != k;
      }
    }
    r
  }

  /**
   * The lookup the pages render lists with: each `x` paired with
   * `ys.find(y => key(y) === ref(x))`, and an `x` whose lookup finds nothing
   * skipped (its card renders `null`).
   */
  function Join<A(==,!new), B(==), K(==)>(xs: seq<A>, ref: A -> K, ys: seq<B>, key: B -> K): (r: seq<(A, B)>)
    ensures |r| <= |xs|
    ensures forall i :: 0 <= i < |r| ==>
      r[i].0 in xs && key(r[i].1) == ref(r[i].0) && FirstWithKey(ys, key, r[i].1)
  {
    if |xs| == 0 then []
    else
      var rest := Join(xs[1..], ref, ys, key);
      var found := Lookup(ys, key, ref(xs[0]));
      if found.Some? then [(xs[0], found.value)] + rest else rest
  }

  function Firsts<A, B>(ps: seq<(A, B)>): (r: seq<A>)
    ensures |r| == |ps|
    ensures forall i :: 0 <= i < |ps| ==> r[i] == ps[i].0
  {
    seq(|ps|, i requires 0 <= i < |ps| => ps[i].0)
  }

  lemma {:induction false} FirstsCons<A, B>(p: (A, B), ps: seq<(A, B)>)
    ensures Firsts([p] + ps) == [p.0] + Firsts(ps)
  {
    var l, r := Firsts([p] + ps), [p.0] + Firsts(ps);
    forall i | 0 <= i < |l| ensures l[i] == r[i] {
      if i > 0 { assert ([p] + ps)[i] == ps[i - 1]; }
    }
  }

  /** The elements that survive the lookup are exactly those with a match, in their order. */
  lemma {:induction false} JoinKeepsMatched<A(!new), B(!new), K>(xs: seq<A>, ref: A -> K, ys: seq<B>, key: B -> K, has: A -> bool)
    requires forall x :: has(x) == HasKey(ys, key, ref(x))
    ensures Firsts(Join(xs, ref, ys, key)) == Filter(has, xs)
  {
    if |xs| > 0 {
      JoinKeepsMatched(xs[1..], ref, ys, key, has);
      var rest := Join(xs[1..], ref, ys, key);
      var found := Lookup(ys, key, ref(xs[0]));
      if found.Some? {
        assert has(xs[0]);
        assert Filter(has, xs) == [xs[0]] + Filter(has, xs[1..]);
        assert Join(xs, ref, ys, key) == [(xs[0], found.value)] + rest;
        FirstsCons((xs[0], found.value), rest);
      } else {
        assert !has(xs[0]);
        assert Filter(has, xs) == Filter(has, xs[1..]);
        assert Join(xs, ref, ys, key) == rest;
      }
    }
  }
}

=== FILE: mentor_assignments.dfy ===
/**
 * The mentor's assignments page: the assignments of the current mentor,
 * narrowed by a search term and a status filter, grouped into status
 * buckets, each shown with its student, and the message for an empty list.
 *
 * The status filter is the free string the page keeps in its state; the page
 * only ever sets it to 'all' or a status text.
 */
module MentorAssignments {
  import opened Types
  import opened Lists
  import opened Text

  /** The assignments set by the mentor with this id. */
  function OfMentor(all: seq<Assignment>, mentorId: Id): (r: seq<Assignment>)
    ensures forall a :: a in r <==> a in all && a.mentorId == mentorId
    ensures forall a :: Count(r, a) == if a.mentorId == mentorId then Count(all, a) else 0
    ensures IsSubsequence(r, all)
  {
    FilterIsSubsequence((a: Assignment) => a.mentorId == mentorId, all);
    Filter((a: Assignment) => a.mentorId == mentorId, all)
  }

  /** An empty term matches everything; otherwise the title or the description contains it, ignoring case. */
  predicate MatchesSearch(term: string, a: Assignment) {
    term == "" || MatchesTerm(term, a.title) || MatchesTerm(term, a.description)
  }

  /** 'all' matches every status; any other filter matches the status with that text. */
  predicate MatchesStatus(statusFilter: string, a: Assignment) {
    statusFilter == "all" || AssignmentStatusText(a.status) == statusFilter
  }

  predicate Shown(term: string, statusFilter: string, a: Assignment) {
    MatchesSearch(term, a) && MatchesStatus(statusFilter, a)
  }

  /** `filteredAssignments`: the mentor's assignments that match both the search and the status filter. */
  function Visible(all: seq<Assignment>, mentorId: Id, term: string, statusFilter: string): (r: seq<Assignment>)
    ensures forall a :: a in r <==>
      a in all && a.mentorId == mentorId && MatchesSearch(term, a) && MatchesStatus(statusFilter, a)
    ensures forall i :: 0 <= i < |r| ==> r[i].mentorId == mentorId
    ensures statusFilter != "all" ==> forall i :: 0 <= i < |r| ==> AssignmentStatusText(r[i].status) == statusFilter
    ensures forall a ::
      Count(r, a) == if a.mentorId == mentorId && Shown(term, statusFilter, a) then Count(all, a) else 0
    ensures IsSubsequence(r, all)
  {
    var mine := OfMentor(all, mentorId);
    var r := Filter((a: Assignment) => Shown(term, statusFilter, a), mine);
    FilterIsSubsequence((a: Assignment) => Shown(term, statusFilter, a), mine);
    SubsequenceTransitive(r, mine, all);
    assert forall i :: 0 <= i < |r| ==> r[i] in mine;
    r
  }

  /** With an empty search and the 'all' filter, every assignment of the mentor is listed. */
  lemma {:induction false} NoFiltersListsAll(all: seq<Assignment>, mentorId: Id)
    ensures Visible(all, mentorId, "", "all") == OfMentor(all, mentorId)
  {
    FilterKeepsAll((a: Assignment) => Shown("", "all", a), OfMentor(all, mentorId));
  }

  /** The search's empty-term shortcut agrees with the substring test, which every text passes for the empty term. */
  lemma {:induction false} EmptyTermShortcutAgrees(a: Assignment)
    ensures MatchesSearch("", a) == MatchesTerm("", a.title)
  {
    IncludesEmpty(Lower(a.title));
  }

  /** Choosing a status never lists more than 'all' does with the same search, and lists them in the same order. */
  lemma {:induction false} StatusFilterNarrows(all: seq<Assignment>, mentorId: Id, term: string, statusFilter: string)
    ensures IsSubsequence(Visible(all, mentorId, term, statusFilter), Visible(all, mentorId, term, "all"))
  {
    FilterMonotone((a: Assignment) => Shown(term, statusFilter, a),
                   (a: Assignment) => Shown(term, "all", a), OfMentor(all, mentorId));
  }

  // ---- Status buckets --------------------------------------------------

  /** `assignmentsByStatus[s]`. */
  function Bucket(xs: seq<Assignment>, s: AssignmentStatus): (r: seq<Assignment>)
    ensures forall a :: a in r <==> a in xs && a.status == s
    ensures forall a :: Count(r, a) == if a.status == s then Count(xs, a) else 0
  {
    Filter((a: Assignment) => a.status == s, xs)
  }

  /** The four buckets split the list: their sizes add up to its length. */
  lemma {:induction false} BucketsPartition(xs: seq<Assignment>)
    ensures |Bucket(xs, Assigned)| + |Bucket(xs, Working)| + |Bucket(xs, Submitted)| + |Bucket(xs, Reviewed)| == |xs|
  {
    if |xs| > 0 {
      BucketsPartition(xs[1..]);
    }
  }

  /** An assignment lands in exactly one bucket. */
  lemma {:induction false} BucketsDisjoint(xs: seq<Assignment>, a: Assignment, s: AssignmentStatus, t: AssignmentStatus)
    requires a in Bucket(xs, s) && a in Bucket(xs, t)
    ensures s == t
  {
  }

  /** `assignmentCounts`: the list length and the size of each bucket. */
  datatype Counts = Counts(total: nat, assignedCount: nat, inProgressCount: nat, submittedCount: nat, reviewedCount: nat)

  function CountsOf(xs: seq<Assignment>): (c: Counts)
    ensures c.total == c.assignedCount + c.inProgressCount + c.submittedCount + c.reviewedCount
    ensures c.total == |xs|
    ensures c.assignedCount == |Bucket(xs, Assigned)| && c.inProgressCount == |Bucket(xs, Working)|
    ensures c.submittedCount == |Bucket(xs, Submitted)| && c.reviewedCount == |Bucket(xs, Reviewed)|
    ensures c.submittedCount <= c.total && c.reviewedCount <= c.total
  {
    BucketsPartition(xs);
    Counts(|xs|, |Bucket(xs, Assigned)|, |Bucket(xs, Working)|,
           |Bucket(xs, Submitted)|, |Bucket(xs, Reviewed)|)
  }

  /** The count printed for a status. */
  function StatusCount(c: Counts, s: AssignmentStatus): nat {
    match s
    case Assigned => c.assignedCount
    case Working => c.inProgressCount
    case Submitted => c.submittedCount
    case Reviewed => c.reviewedCount
  }

  /** Each status card shows how many assignments have that status, each counted as often as it occurs. */
  lemma {:induction false} StatusCountIsBucketSize(xs: seq<Assignment>, s: AssignmentStatus)
    ensures StatusCount(CountsOf(xs), s) == |Bucket(xs, s)|
    ensures forall a :: Count(Bucket(xs, s), a) == if a.status == s then Count(xs, a) else 0
  {
  }

  // ---- Per-student progress line ----------------------------------------

  /** Every assignment of a student, whoever the mentor. */
  function OfStudent(all: seq<Assignment>, studentId: Id): seq<Assignment> {
    Filter((a: Assignment) => a.studentId == studentId, all)
  }

  /** The reviewed assignments of a student, whoever the mentor. */
  function ReviewedOfStudent(all: seq<Assignment>, studentId: Id): seq<Assignment> {
    Filter((a: Assignment) => a.studentId == studentId && a.status == Reviewed, all)
  }

  /** The "reviewed/total" line never shows more reviewed assignments than assignments. */
  lemma {:induction false} ReviewedAtMostTotal(all: seq<Assignment>, studentId: Id)
    ensures |ReviewedOfStudent(all, studentId)| <= |OfStudent(all, studentId)|
    ensures IsSubsequence(ReviewedOfStudent(all, studentId), OfStudent(all, studentId))
  {
    FilterMonotone((a: Assignment) => a.studentId == studentId && a.status == Reviewed,
                   (a: Assignment) => a.studentId == studentId, all);
    SubsequenceLength(ReviewedOfStudent(all, studentId), OfStudent(all, studentId));
  }

  // ---- Rendering each assignment with its student -------------------------

  function AssignmentStudentId(a: Assignment): Id { a.studentId }

  /**
   * The cards: each listed assignment with the first student of its student
   * id; an assignment whose student is unknown renders nothing.
   */
  function Cards(visible: seq<Assignment>, students: seq<Student>): (r: seq<(Assignment, Student)>)
    ensures forall i :: 0 <= i < |r| ==>
      r[i].0 in visible && r[i].1.id == r[i].0.studentId && FirstWithKey(students, StudentId, r[i].1)
    ensures Firsts(r) == Filter((a: Assignment) => exists j :: 0 <= j < |students| && students[j].id == a.studentId, visible)
  {
    JoinKeepsMatched(visible, AssignmentStudentId, students, StudentId,
                     (a: Assignment) => exists j :: 0 <= j < |students| && students[j].id == a.studentId);
    Join(visible, AssignmentStudentId, students, StudentId)
  }

  // ---- Labels -------------------------------------------------------------

  /** The badge text: the status text with its first hyphen turned into a space. */
  function StatusLabel(s: AssignmentStatus): (r: string)
    ensures s == Working ==> r == "in progress"
    ensures s != Working ==> r == AssignmentStatusText(s)
  {
    LabelOfStatus(s);
    ReplaceFirst(AssignmentStatusText(s), '-', ' ')
  }

  lemma {:induction false} LabelOfStatus(s: AssignmentStatus)
    ensures s == Working ==> ReplaceFirst(AssignmentStatusText(s), '-', ' ') == "in progress"
    ensures s != Working ==> ReplaceFirst(AssignmentStatusText(s), '-', ' ') == AssignmentStatusText(s)
  {
    match s
    case Working => WorkingLabel();
    case Assigned => assert '-' !in "assigned";
    case Submitted => assert '-' !in "submitted";
    case Reviewed => assert '-' !in "reviewed";
  }

  lemma WorkingLabel()
    ensures ReplaceFirst("in-progress", '-', ' ') == "in progress"
  {
    var s := "in-progress";
    assert '-' !in s[..2];
    ReplaceFirstAt(s, '-', ' ', 2);
  }

  /** What the page says when no assignment is listed. */
  datatype EmptyState =
    | AdjustSearch                    // "Try adjusting your search criteria."
    | NoneWithStatus(status: string)  // "There are no assignments with status ..."
    | NoneCreated                     // "You haven't created any assignments yet."

  /** A non-empty search term wins, then a status other than 'all', then the default. */
  function EmptyStateOf(term: string, statusFilter: string): (r: EmptyState)
    ensures r == AdjustSearch <==> term != ""
    ensures r.NoneWithStatus? <==> term == "" && statusFilter != "all"
    ensures r == NoneCreated <==> term == "" && statusFilter == "all"
    ensures r.NoneWithStatus? ==> r.status == ReplaceFirst(statusFilter, '-', ' ')
  {
    if term != "" then AdjustSearch
    else if statusFilter != "all" then NoneWithStatus(ReplaceFirst(statusFilter, '-', ' '))
    else NoneCreated
  }

  /** A status picked from the page names itself in the empty message the way its badge does. */
  lemma {:induction false} EmptyMessageMatchesBadge(s: AssignmentStatus)
    ensures EmptyStateOf("", AssignmentStatusText(s)) == NoneWithStatus(StatusLabel(s))
  {
  }
}

=== FILE: mentor_search.dfy ===
/**
 * The student's mentor search: the expertise checklist built from every
 * mentor, the filter state (search term, checked expertise, minimum star
 * rating), the controls that change it, and the mentors it lets through.
 *
 * Ratings are integer tenths, so the test `rating >= stars` reads
 * `ratingTenths >= 10 * stars`.
 */
module MentorSearch {
  import opened Types
  import opened Lists
  import opened Search

  /** The filter state. `minStars` 0 means no rating filter. */
  datatype Filters = Filters(term: string, expertise: seq<string>, minStars: int)

  const NoFilters := Filters("", [], 0)

  /** No checked expertise imposes nothing; otherwise the mentor has one of the checked ones. */
  predicate MatchesExpertise(checked: seq<string>, m: Mentor) {
    |checked| == 0 || exists i :: 0 <= i < |checked| && checked[i] in m.expertise
  }

  predicate MatchesRating(minStars: int, m: Mentor) {
    minStars == 0 || m.ratingTenths >= 10 * minStars
  }

  predicate Passes(f: Filters, m: Mentor) {
    MentorMatches(f.term, m) && MatchesExpertise(f.expertise, m) && MatchesRating(f.minStars, m)
  }

  /** `filteredMentors`: a mentor is listed iff all three criteria hold, in catalogue order. */
  function Listed(mentors: seq<Mentor>, f: Filters): (r: seq<Mentor>)
    ensures forall m :: m in r <==>
      m in mentors && MentorMatches(f.term, m) && MatchesExpertise(f.expertise, m) && MatchesRating(f.minStars, m)
    ensures forall m :: Count(r, m) == if Passes(f, m) then Count(mentors, m) else 0
    ensures IsSubsequence(r, mentors)
  {
    FilterIsSubsequence((m: Mentor) => Passes(f, m), mentors);
    Filter((m: Mentor) => Passes(f, m), mentors)
  }

  /** With no filters every mentor is listed. */
  lemma {:induction false} NoFiltersListsAll(mentors: seq<Mentor>)
    ensures Listed(mentors, NoFilters) == mentors
  {
    FilterKeepsAll((m: Mentor) => Passes(NoFilters, m), mentors);
  }

  /** Raising the minimum rating never adds a mentor, and keeps the order. */
  lemma {:induction false} RatingMonotone(mentors: seq<Mentor>, f: Filters, stars: int)
    requires 0 <= f.minStars <= stars
    ensures IsSubsequence(Listed(mentors, f.(minStars := stars)), Listed(mentors, f))
  {
    var g := f.(minStars := stars);
    FilterMonotone((m: Mentor) => Passes(g, m), (m: Mentor) => Passes(f, m), mentors);
  }

  /** Every box of the checklist, checked alone, lists at least one mentor. */
  lemma {:induction false} EveryOptionMatches(mentors: seq<Mentor>, e: string)
    requires e in AllExpertise(mentors)
    ensures |Listed(mentors, Filters("", [e], 0))| > 0
  {
    var i :| 0 <= i < |mentors| && e in mentors[i].expertise;
    assert [e][0] in mentors[i].expertise;
    assert mentors[i] in Listed(mentors, Filters("", [e], 0));
  }

  // ---- The controls ------------------------------------------------------

  /** The five star buttons. */
  datatype Star = One | Two | Three | Four | Five

  function StarValue(s: Star): (n: int)
    ensures 1 <= n <= 5
  {
    match s
    case One => 1
    case Two => 2
    case Three => 3
    case Four => 4
    case Five => 5
  }

  datatype Control =
    | TypeSearch(text: string)
    | CheckExpertise(expertise: string)
    | PickStar(star: Star)
    | ClearRating
    | SidePanelReset
    | ResetAll

  /**
   * One use of a control. The side panel's "Reset Filters" button has no
   * click handler and changes nothing.
   *
   * Every control is accepted in every state, though the page renders
   * "Clear" only while a minimum rating is set and "Reset all filters" only
   * when no mentor is listed. Allowing more uses than the page offers makes
   * the invariants proved over control sequences (`ControlsKeepSane`) cover
   * the page's own sequences a fortiori.
   */
  function Apply(f: Filters, c: Control): (r: Filters)
    ensures c.TypeSearch? ==> r == f.(term := c.text)
    ensures c.CheckExpertise? ==> r.term == f.term && r.minStars == f.minStars
    ensures c.CheckExpertise? ==> (c.expertise in r.expertise <==> c.expertise !in f.expertise)
    ensures c.CheckExpertise? ==> forall e :: e != c.expertise ==> (e in r.expertise <==> e in f.expertise)
    ensures c.PickStar? ==> r == f.(minStars := StarValue(c.star))
    ensures c.ClearRating? ==> r == f.(minStars := 0)
    ensures c.SidePanelReset? ==> r == f
    ensures c.ResetAll? ==> r == NoFilters
  {
    match c
    case TypeSearch(text) => f.(term := text)
    case CheckExpertise(e) => f.(expertise := Toggle(f.expertise, e))
    case PickStar(s) => f.(minStars := StarValue(s))
    case ClearRating => f.(minStars := 0)
    case SidePanelReset => f
    case ResetAll => NoFilters
  }

  function ApplyAll(f: Filters, cs: seq<Control>): Filters
    decreases |cs|
  {
    if |cs| == 0 then f else ApplyAll(Apply(f, cs[0]), cs[1..])
  }

  /** The minimum rating always lies in 0..5 and the checked list never holds a box twice. */
  predicate Sane(f: Filters) {
    0 <= f.minStars <= 5 && NoDups(f.expertise)
  }

  lemma {:induction false} ControlsKeepSane(f: Filters, cs: seq<Control>)
    requires Sane(f)
    ensures Sane(ApplyAll(f, cs))
    decreases |cs|
  {
    if |cs| > 0 {
      assert Sane(Apply(f, cs[0]));
      ControlsKeepSane(Apply(f, cs[0]), cs[1..]);
    }
  }

  /** From the page's initial state, whatever is clicked, the rating stays in 0..5. */
  lemma {:induction false} ReachableRatingInRange(cs: seq<Control>)
    ensures 0 <= ApplyAll(NoFilters, cs).minStars <= 5
  {
    ControlsKeepSane(NoFilters, cs);
  }

  /** "Reset all filters" brings back every mentor. */
  lemma {:induction false} ResetListsAll(mentors: seq<Mentor>, f: Filters)
    ensures Listed(mentors, Apply(f, ResetAll)) == mentors
  {
    NoFiltersListsAll(mentors);
  }

  /**
   * The side panel's "Reset Filters" as it is wired: with a checked box, the
   * state, and so the list, stays as it was instead of returning to every
   * mentor.
   */
  lemma {:induction false} SidePanelResetKeepsFilters(mentors: seq<Mentor>, f: Filters)
    requires |f.expertise| > 0
    ensures Apply(f, SidePanelReset) == f
    ensures Apply(f, SidePanelReset) != Apply(f, ResetAll)
  {
  }

  /** The side panel's button wired as its label says: the same effect as "Reset all filters". */
  function SidePanelResetIntended(f: Filters): (r: Filters)
    ensures r.term == "" && |r.expertise| == 0 && r.minStars == 0
  {
    Apply(f, ResetAll)
  }

  lemma {:induction false} SidePanelResetIntendedListsAll(mentors: seq<Mentor>, f: Filters)
    ensures Listed(mentors, SidePanelResetIntended(f)) == mentors
  {
    NoFiltersListsAll(mentors);
  }
}

=== FILE: mentor_students.dfy ===
/**
 * The mentor's students page: the current mentor's students narrowed by the
 * search box, and for each student the catalogue goals it holds, the
 * assignments between the two, and the overall progress.
 */
module MentorStudents {
  import opened Types
  import opened Lists
  import Search
  import Stats
  import Cards

  /** The students who list the mentor among their mentors, in catalogue order. */
  function OfMentor(students: seq<Student>, mentorId: Id): (r: seq<Student>)
    ensures forall s :: s in r <==> s in students && mentorId in s.mentors
    ensures forall s :: Count(r, s) == if mentorId in s.mentors then Count(students, s) else 0
    ensures IsSubsequence(r, students)
  {
    FilterIsSubsequence((s: Student) => mentorId in s.mentors, students);
    Filter((s: Student) => mentorId in s.mentors, students)
  }

  /** `filteredStudents`: the mentor's students that match the search. */
  function Listed(students: seq<Student>, mentorId: Id, term: string): (r: seq<Student>)
    ensures forall s :: s in r <==> s in students && mentorId in s.mentors && Search.StudentMatches(term, s)
    ensures forall s ::
      Count(r, s) == if mentorId in s.mentors && Search.StudentMatches(term, s) then Count(students, s) else 0
    ensures IsSubsequence(r, students)
  {
    var mine := OfMentor(students, mentorId);
    SubsequenceTransitive(Search.SearchStudents(mine, term), mine, students);
    Search.SearchStudents(mine, term)
  }

  /** The goal with this id is among the student's goals. */
  predicate HoldsGoal(s: Student, g: Goal) {
    exists i :: 0 <= i < |s.goals| && s.goals[i].id == g.id
  }

  /** The first student with the id. */
  function FindStudent(students: seq<Student>, id: Id): (r: Option<Student>)
    ensures r.None? <==> forall i :: 0 <= i < |students| ==> students[i].id != id
    ensures r.Some? ==> r.value in students && r.value.id == id
    ensures r.Some? ==> FirstWithKey(students, StudentId, r.value)
  {
    Lookup(students, StudentId, id)
  }

  /**
   * `getStudentGoals`: the catalogue goals whose id the student holds, in
   * catalogue order; for an unknown student the lookup is `undefined` and
   * nothing is kept.
   */
  function StudentGoals(catalogue: seq<Goal>, students: seq<Student>, id: Id): (r: seq<Goal>)
    ensures FindStudent(students, id).None? ==> r == []
    ensures FindStudent(students, id).Some? ==>
      forall g :: g in r <==> g in catalogue && HoldsGoal(FindStudent(students, id).value, g)
    ensures IsSubsequence(r, catalogue)
  {
    var found := FindStudent(students, id);
    var r := Filter((g: Goal) => found.Some? && HoldsGoal(found.value, g), catalogue);
    FilterIsSubsequence((g: Goal) => found.Some? && HoldsGoal(found.value, g), catalogue);
    r
  }

  /** A known student whose goals all come from the catalogue is shown every one of them. */
  lemma {:induction false} StudentGoalsCoverOwnGoals(catalogue: seq<Goal>, students: seq<Student>, k: int)
    requires UniqueBy(StudentId, students)
    requires 0 <= k < |students|
    requires forall i :: 0 <= i < |students[k].goals| ==> students[k].goals[i] in catalogue
    ensures forall i :: 0 <= i < |students[k].goals| ==>
      students[k].goals[i] in StudentGoals(catalogue, students, students[k].id)
  {
    FindByUniqueKey(StudentId, students, k);
    assert FindStudent(students, students[k].id) == Some(students[k]) by {
      var r := FindStudent(students, students[k].id);
      assert r.Some?;
      var j :| 0 <= j < |students| && students[j] == r.value;
      assert StudentId(students[j]) == StudentId(students[k]);
    }
  }

  /** `getStudentAssignments`: the assignments between this student and this mentor, in catalogue order. */
  function StudentAssignments(all: seq<Assignment>, studentId: Id, mentorId: Id): (r: seq<Assignment>)
    ensures forall a :: a in r <==> a in all && a.studentId == studentId && a.mentorId == mentorId
    ensures forall a :: Count(r, a) == if a.studentId == studentId && a.mentorId == mentorId then Count(all, a) else 0
    ensures IsSubsequence(r, all)
  {
    FilterIsSubsequence((a: Assignment) => a.studentId == studentId && a.mentorId == mentorId, all);
    Filter((a: Assignment) => a.studentId == studentId && a.mentorId == mentorId, all)
  }

  /** The student's overall progress: the guarded mean over the goals shown, a percentage when they are. */
  lemma {:induction false} OverallProgressOfShownGoals(catalogue: seq<Goal>, students: seq<Student>, id: Id)
    requires forall i :: 0 <= i < |catalogue| ==> 0 <= catalogue[i].progress <= 100
    ensures 0 <= Stats.GuardedMeanProgress(StudentGoals(catalogue, students, id)) <= 100
    ensures FindStudent(students, id).None? ==> Stats.GuardedMeanProgress(StudentGoals(catalogue, students, id)) == 0
  {
    var goals := StudentGoals(catalogue, students, id);
    forall i | 0 <= i < |goals| ensures 0 <= goals[i].progress <= 100 {
      assert goals[i] in catalogue;
    }
    Stats.MeanProgressIsPercentage(goals);
  }

  /** The page's badge for an assignment: assigned info, in progress warning, submitted success, otherwise the default. */
  function AssignmentTone(s: AssignmentStatus): Cards.Tone {
    if s == Assigned then Cards.Info
    else if s == Working then Cards.Warning
    else if s == Submitted then Cards.Success
    else Cards.Neutral
  }

  /** This page colours assignments as the assignment card does, unlike the assignments page. */
  lemma {:induction false} AssignmentToneAgreesWithCard(s: AssignmentStatus)
    ensures AssignmentTone(s) == Cards.AssignmentBadge(s).tone
    ensures AssignmentTone(s) != Cards.MentorPageTone(s)
  {
  }
}

=== FILE: my_mentors.dfy ===
/**
 * The student's "My Mentors" page: the summary figures (mentors, skill areas,
 * sessions, active assignments) and, per mentor, the meetings and
 * assignments between that mentor and the current student.
 *
 * The page reads the current user's mentor records; here they are passed in
 * as `mentors`, already resolved from the student's mentor ids.
 */
module MyMentors {
  import opened Types
  import opened Lists
  import Search

  /** `getMentorMeetings`: the meetings between this mentor and this student, in catalogue order. */
  function MentorMeetings(meetings: seq<Meeting>, mentorId: Id, studentId: Id): (r: seq<Meeting>)
    ensures forall m :: m in r <==> m in meetings && m.mentorId == mentorId && m.studentId == studentId
    ensures forall m :: Count(r, m) == if m.mentorId == mentorId && m.studentId == studentId then Count(meetings, m) else 0
    ensures IsSubsequence(r, meetings)
  {
    FilterIsSubsequence((m: Meeting) => m.mentorId == mentorId && m.studentId == studentId, meetings);
    Filter((m: Meeting) => m.mentorId == mentorId && m.studentId == studentId, meetings)
  }

  /** `getMentorAssignments`: the assignments between this mentor and this student, in catalogue order. */
  function MentorAssignments(assignments: seq<Assignment>, mentorId: Id, studentId: Id): (r: seq<Assignment>)
    ensures forall a :: a in r <==> a in assignments && a.mentorId == mentorId && a.studentId == studentId
    ensures forall a :: Count(r, a) == if a.mentorId == mentorId && a.studentId == studentId then Count(assignments, a) else 0
    ensures IsSubsequence(r, assignments)
  {
    FilterIsSubsequence((a: Assignment) => a.mentorId == mentorId && a.studentId == studentId, assignments);
    Filter((a: Assignment) => a.mentorId == mentorId && a.studentId == studentId, assignments)
  }

  // ---- Active assignments -------------------------------------------------

  function StudentAssignments(assignments: seq<Assignment>, studentId: Id): seq<Assignment> {
    Filter((a: Assignment) => a.studentId == studentId, assignments)
  }

  function ReviewedAssignments(assignments: seq<Assignment>, studentId: Id): seq<Assignment> {
    Filter((a: Assignment) => a.studentId == studentId && a.status == Reviewed, assignments)
  }

  /** The "Active Assignments" figure: the student's assignments, from any mentor, not yet reviewed. */
  function ActiveAssignments(assignments: seq<Assignment>, studentId: Id): (r: seq<Assignment>)
    ensures forall a :: a in r <==> a in assignments && a.studentId == studentId && a.status != Reviewed
    ensures forall a :: Count(r, a) == if a.studentId == studentId && a.status != Reviewed then Count(assignments, a) else 0
    ensures IsSubsequence(r, assignments)
  {
    FilterIsSubsequence((a: Assignment) => a.studentId == studentId && a.status != Reviewed, assignments);
    Filter((a: Assignment) => a.studentId == studentId && a.status != Reviewed, assignments)
  }

  /** Active and reviewed assignments split the student's assignments between them. */
  lemma {:induction false} ActivePlusReviewed(assignments: seq<Assignment>, studentId: Id)
    ensures |ActiveAssignments(assignments, studentId)| + |ReviewedAssignments(assignments, studentId)|
         == |StudentAssignments(assignments, studentId)|
  {
    if |assignments| > 0 {
      ActivePlusReviewed(assignments[1..], studentId);
    }
  }

  // ---- Sessions -----------------------------------------------------------

  function StudentMeetings(meetings: seq<Meeting>, studentId: Id): seq<Meeting> {
    Filter((m: Meeting) => m.studentId == studentId, meetings)
  }

  function StudentMeetingsWith(meetings: seq<Meeting>, studentId: Id, s: MeetingStatus): seq<Meeting> {
    Filter((m: Meeting) => m.studentId == studentId && m.status == s, meetings)
  }

  /** The student's meetings split by status: scheduled, completed and cancelled ones add up to all of them. */
  lemma {:induction false} MeetingStatusesPartition(meetings: seq<Meeting>, studentId: Id)
    ensures |StudentMeetingsWith(meetings, studentId, Scheduled)|
          + |StudentMeetingsWith(meetings, studentId, MeetingCompleted)|
          + |StudentMeetingsWith(meetings, studentId, Cancelled)|
         == |StudentMeetings(meetings, studentId)|
  {
    if |meetings| > 0 {
      MeetingStatusesPartition(meetings[1..], studentId);
    }
  }

  /**
   * The "Upcoming Sessions" figure counts every meeting of the student,
   * whatever its status: the scheduled ones plus the completed and cancelled
   * ones.
   */
  function UpcomingSessions(meetings: seq<Meeting>, studentId: Id): (n: nat)
    ensures n == |StudentMeetingsWith(meetings, studentId, Scheduled)|
               + |StudentMeetingsWith(meetings, studentId, MeetingCompleted)|
               + |StudentMeetingsWith(meetings, studentId, Cancelled)|
    ensures n >= |StudentMeetingsWith(meetings, studentId, Scheduled)|
  {
    MeetingStatusesPartition(meetings, studentId);
    |StudentMeetings(meetings, studentId)|
  }

  // ---- Skill areas ----------------------------------------------------------

  /**
   * "Across N skill areas": the length of every mentor's expertise list put
   * together, so an expertise two mentors share is counted twice.
   */
  function SkillAreas(mentors: seq<Mentor>): (n: nat)
    ensures n == SumLengths(Search.Expertises(mentors))
    ensures n >= |Search.AllExpertise(mentors)|
  {
    FlattenLength(Search.Expertises(mentors));
    Search.ExpertiseAreaCount(mentors);
    |Flatten(Search.Expertises(mentors))|
  }
}

=== FILE: navigation.dfy ===
/**
 * Role-based navigation: the sidebar's item list for a role, and the routes
 * the application declares for that role under the layout route `/`.
 *
 * Both files decide on the role's text: the sidebar tests for 'student',
 * then 'mentor', and gives every other text the administrator's list; the
 * route table declares each role's block only when the text equals that
 * role's.
 */
module Navigation {
  import opened Types
  import opened Lists
  import Text

  /** The pages a route can render. */
  datatype Page =
    | StudentHome | Analytics | AIAssistant | VideoCall | MentorSearch
    | MyMentors | Goals | Achievements | CommunityPage
    | MentorHome | MentorStudents | Assignments
    | AdminHome | AdminMentors | AdminStudents

  datatype NavItem = NavItem(to: string, text: string)

  const StudentItems: seq<NavItem> := [
    NavItem("/dashboard", "Dashboard"),
    NavItem("/analytics", "Analytics"),
    NavItem("/ai-assistant", "AI Assistant"),
    NavItem("/video-call", "Video Call"),
    NavItem("/mentor-search", "Mentor Search"),
    NavItem("/my-mentors", "My Mentors"),
    NavItem("/goals", "Goals & Progress"),
    NavItem("/achievements", "Achievements"),
    NavItem("/community", "Community")
  ]

  const MentorItems: seq<NavItem> := [
    NavItem("/dashboard", "Dashboard"),
    NavItem("/video-call", "Video Call"),
    NavItem("/students", "My Students"),
    NavItem("/assignments", "Assignments")
  ]

  const AdminItems: seq<NavItem> := [
    NavItem("/dashboard", "Dashboard"),
    NavItem("/mentors", "Mentors"),
    NavItem("/students", "Students")
  ]

  /** The sidebar's list for a role text: 'student', then 'mentor', and the administrator's for anything else. */
  function SidebarItems(role: string): (r: seq<NavItem>)
    ensures role == "student" ==> |r| == 9
    ensures role == "mentor" ==> |r| == 4
    ensures role != "student" && role != "mentor" ==> r == AdminItems && |r| == 3
  {
    if role == "student" then StudentItems
    else if role == "mentor" then MentorItems
    else AdminItems
  }

  function ItemPaths(items: seq<NavItem>): (r: seq<string>)
    ensures |r| == |items|
    ensures forall i :: 0 <= i < |items| ==> r[i] == items[i].to
  {
    seq(|items|, i requires 0 <= i < |items| => items[i].to)
  }

  /** Whatever the role, the list opens with the dashboard and no path appears twice (paths are the list keys). */
  lemma {:induction false} SidebarWellFormed(role: string)
    ensures |SidebarItems(role)| > 0 && SidebarItems(role)[0].to == "/dashboard"
    ensures NoDups(ItemPaths(SidebarItems(role)))
  {
    var ps := ItemPaths(SidebarItems(role));
    if role == "student" {
      assert ps == ["/dashboard", "/analytics", "/ai-assistant", "/video-call", "/mentor-search",
                    "/my-mentors", "/goals", "/achievements", "/community"];
    } else if role == "mentor" {
      assert ps == ["/dashboard", "/video-call", "/students", "/assignments"];
    } else {
      assert ps == ["/dashboard", "/mentors", "/students"];
    }
  }

  // ---- Routes ---------------------------------------------------------------

  /**
   * A child of the layout route: the index redirect, or a path and its page.
   * A child's path is kept joined to the layout's `/` (`dashboard` is kept
   * as `/dashboard`), the URL it answers to.
   */
  datatype Route = IndexTo(target: string) | PathTo(url: string, page: Page)

  const StudentRoutes: seq<Route> := [
    IndexTo("/dashboard"),
    PathTo("/dashboard", StudentHome),
    PathTo("/analytics", Analytics),
    PathTo("/ai-assistant", AIAssistant),
    PathTo("/video-call", VideoCall),
    PathTo("/mentor-search", MentorSearch),
    PathTo("/my-mentors", MyMentors),
    PathTo("/goals", Goals),
    PathTo("/achievements", Achievements),
    PathTo("/community", CommunityPage)
  ]

  const MentorRoutes: seq<Route> := [
    IndexTo("/dashboard"),
    PathTo("/dashboard", MentorHome),
    PathTo("/video-call", VideoCall),
    PathTo("/students", MentorStudents),
    PathTo("/assignments", Assignments)
  ]

  const AdminRoutes: seq<Route> := [
    IndexTo("/dashboard"),
    PathTo("/dashboard", AdminHome),
    PathTo("/mentors", AdminMentors),
    PathTo("/students", AdminStudents)
  ]

  /** The three role blocks, each declared only when the role text is that role's. */
  function Routes(role: string): seq<Route> {
    (if role == "student" then StudentRoutes else []) +
    (if role == "mentor" then MentorRoutes else []) +
    (if role == "admin" then AdminRoutes else [])
  }

  function PathCount(rs: seq<Route>): nat {
    |Filter((r: Route) => r.PathTo?, rs)|
  }

  /** The page of the first path route answering to `url`. */
  function Match(rs: seq<Route>, url: string): (r: Option<Page>)
    ensures r.None? <==> forall i :: 0 <= i < |rs| ==> !(rs[i].PathTo? && rs[i].url == url)
    ensures r.Some? ==> exists i :: 0 <= i < |rs| && rs[i].PathTo? && rs[i].url == url && rs[i].page == r.value
  {
    if |rs| == 0 then None
    else if rs[0].PathTo? && rs[0].url == url then Some(rs[0].page)
    else
      var r := Match(rs[1..], url);
      assert r.Some? ==> exists i :: 1 <= i < |rs| && rs[i].PathTo? && rs[i].url == url && rs[i].page == r.value by {
        if r.Some? {
          var i :| 0 <= i < |rs[1..]| && rs[1..][i].PathTo? && rs[1..][i].url == url && rs[1..][i].page == r.value;
          assert rs[i + 1] == rs[1..][i];
        }
      }
      r
  }

  /** The first matching route decides. */
  lemma {:induction false} MatchAt(rs: seq<Route>, url: string, k: int)
    requires 0 <= k < |rs| && rs[k].PathTo? && rs[k].url == url
    requires forall i :: 0 <= i < k ==> !(rs[i].PathTo? && rs[i].url == url)
    ensures Match(rs, url) == Some(rs[k].page)
    decreases k
  {
    if k > 0 {
      MatchAt(rs[1..], url, k - 1);
    }
  }

  predicate HasIndex(rs: seq<Route>) {
    exists i :: 0 <= i < |rs| && rs[i].IndexTo?
  }

  /**
   * A path as the router compares it with the route paths: the router
   * matches without regard to case and accepts any number of trailing
   * slashes, so the path is lower-cased and its trailing slashes dropped;
   * nothing left is the root `/`.
   */
  function Canonical(url: string): (r: string)
    ensures IsCanonical(r)
  {
    var s := DropTrailingSlashes(Text.Lower(url));
    if s == [] then "/" else s
  }

  /** No upper-case letter, and a trailing slash only on the root itself. */
  predicate IsCanonical(p: string) {
    (forall i :: 0 <= i < |p| ==> !Text.IsUpper(p[i])) &&
    (p == "/" || (p != [] && p[|p| - 1] != '/'))
  }

  function DropTrailingSlashes(s: string): (r: string)
    ensures |r| <= |s| && r == s[..|r|]
    ensures forall i :: |r| <= i < |s| ==> s[i] == '/'
    ensures r == [] || r[|r| - 1] != '/'
    decreases |s|
  {
    if |s| > 0 && s[|s| - 1] == '/' then DropTrailingSlashes(s[..|s| - 1]) else s
  }

  /** A path already in canonical form is left as it is. */
  lemma {:induction false} CanonicalKeeps(p: string)
    requires IsCanonical(p)
    ensures Canonical(p) == p
  {
    assert Text.Lower(p) == p;
    if p == "/" {
      assert DropTrailingSlashes("/") == DropTrailingSlashes("");
    }
  }

  /** Case does not matter to the router: a lower-cased path is the same path. */
  lemma {:induction false} CanonicalIgnoresCase(url: string)
    ensures Canonical(Text.Lower(url)) == Canonical(url)
  {
    Text.LowerIdempotent(url);
  }

  /** Neither does a trailing slash. */
  lemma {:induction false} CanonicalIgnoresTrailingSlash(url: string)
    ensures Canonical(url + "/") == Canonical(url)
  {
    Text.LowerAppend(url, "/");
    var l := Text.Lower(url);
    assert Text.Lower("/") == "/";
    assert (l + "/")[..|l + "/"| - 1] == l;
  }

  /**
   * The page a canonical path shows: `/` follows the index redirect to
   * `/dashboard`; any other path renders the page of its path route. `None`
   * is no page. For a path no route matches, the router matches nothing at
   * all and neither the layout nor a page renders; for `/` under a role text
   * with no block, the layout route alone matches and renders an empty
   * outlet.
   */
  function Resolve(role: string, path: string): Option<Page> {
    var rs := Routes(role);
    if path == "/" then (if HasIndex(rs) then Match(rs, "/dashboard") else None)
    else Match(rs, path)
  }

  /** The page a URL as typed shows: its canonical path resolved. */
  function ResolveUrl(role: string, url: string): Option<Page> {
    Resolve(role, Canonical(url))
  }

  /** A URL already in canonical form shows what `Resolve` gives for it. */
  lemma {:induction false} ResolveCanonical(role: string, path: string)
    requires IsCanonical(path)
    ensures ResolveUrl(role, path) == Resolve(role, path)
  {
    CanonicalKeeps(path);
  }

  /** Case and trailing slashes change nothing: a URL shows what its canonical path shows. */
  lemma {:induction false} ResolveUrlNormalises(role: string, url: string)
    ensures ResolveUrl(role, Text.Lower(url)) == ResolveUrl(role, url)
    ensures ResolveUrl(role, url + "/") == ResolveUrl(role, url)
    ensures ResolveUrl(role, Canonical(url)) == ResolveUrl(role, url)
  {
    CanonicalIgnoresCase(url);
    CanonicalIgnoresTrailingSlash(url);
    CanonicalKeeps(Canonical(url));
  }

  /** Every role block redirects its index to its own dashboard. */
  lemma {:induction false} IndexShowsDashboard(r: Role)
    ensures Resolve(RoleText(r), "/") == Resolve(RoleText(r), "/dashboard")
    ensures Resolve(RoleText(r), "/dashboard") ==
      Some(match r case StudentRole => StudentHome case MentorRole => MentorHome case AdminRole => AdminHome)
  {
    var rs := Routes(RoleText(r));
    match r
    case StudentRole =>
      assert rs == StudentRoutes;
      MatchAt(rs, "/dashboard", 1);
    case MentorRole =>
      assert rs == MentorRoutes;
      MatchAt(rs, "/dashboard", 1);
    case AdminRole =>
      assert rs == AdminRoutes;
      MatchAt(rs, "/dashboard", 1);
    assert rs[0].IndexTo?;
  }

  /** The route table has 9 paths for a student, 4 for a mentor, 3 for an administrator, and none for any other text. */
  lemma {:induction false} RouteCounts(role: string)
    ensures role == "student" ==> PathCount(Routes(role)) == 9
    ensures role == "mentor" ==> PathCount(Routes(role)) == 4
    ensures role == "admin" ==> PathCount(Routes(role)) == 3
    ensures ParseRole(role).None? ==> Routes(role) == []
  {
    if role == "student" {
      StudentRouteCount();
    } else if role == "mentor" {
      MentorRouteCount();
    } else if role == "admin" {
      AdminRouteCount();
    }
  }

  lemma StudentRouteCount()
    ensures PathCount(Routes("student")) == 9
  {
    assert Routes("student") == StudentRoutes;
  }

  lemma MentorRouteCount()
    ensures PathCount(Routes("mentor")) == 4
  {
    assert Routes("mentor") == MentorRoutes;
  }

  lemma AdminRouteCount()
    ensures PathCount(Routes("admin")) == 3
  {
    assert Routes("admin") == AdminRoutes;
  }

  /** `/students` is the mentor's student list for a mentor. */
  lemma MentorStudentsRoute()
    ensures Resolve("mentor", "/students") == Some(MentorStudents)
  {
    assert |"/students"| != |"/"|;
    assert Routes("mentor") == MentorRoutes;
    assert MentorRoutes[1].url != "/students" && MentorRoutes[2].url != "/students";
    MatchAt(MentorRoutes, "/students", 3);
  }

  /** `/students` is the administrator's student list for an administrator. */
  lemma AdminStudentsRoute()
    ensures Resolve("admin", "/students") == Some(AdminStudents)
  {
    assert |"/students"| != |"/"|;
    assert Routes("admin") == AdminRoutes;
    assert AdminRoutes[1].url != "/students" && AdminRoutes[2].url != "/students";
    MatchAt(AdminRoutes, "/students", 3);
  }

  /** A student has no `/students` route. */
  lemma StudentHasNoStudentsRoute()
    ensures Resolve("student", "/students").None?
  {
    assert |"/students"| != |"/"|;
    assert Routes("student") == StudentRoutes;
    forall i | 0 <= i < |StudentRoutes| && StudentRoutes[i].PathTo?
      ensures StudentRoutes[i].url != "/students"
    {
      assert |StudentRoutes[i].url| != |"/students"|;
    }
  }

  /** Each sidebar item of a role leads to a page that role's routes declare. */
  lemma {:induction false} SidebarAgreesWithRoutes(r: Role)
    ensures forall i :: 0 <= i < |SidebarItems(RoleText(r))| ==>
      Resolve(RoleText(r), SidebarItems(RoleText(r))[i].to).Some?
  {
    var role := RoleText(r);
    var items := SidebarItems(role);
    forall i | 0 <= i < |items| ensures Resolve(role, items[i].to).Some? {
      var rs := Routes(role);
      assert items[i].to != "/";
      assert rs[i + 1].PathTo? && rs[i + 1].url == items[i].to;
    }
  }

  /** A role text outside the three still gets the administrator's sidebar, yet no route: every item shows nothing. */
  lemma {:induction false} UnknownRoleSidebarLeadsNowhere(role: string)
    requires ParseRole(role).None?
    ensures SidebarItems(role) == AdminItems
    ensures forall i :: 0 <= i < |SidebarItems(role)| ==> Resolve(role, SidebarItems(role)[i].to).None?
  {
    RouteCounts(role);
  }
}

=== FILE: progressbar.dfy ===
/**
 * The progress bar: the width percentage it draws and the label row above
 * the bar.
 *
 * Values are exact reals. The source's IEEE division by a zero maximum is
 * modelled as it behaves there: a positive value over 0 is +Infinity, which
 * clamps to 100; a negative one is -Infinity, which clamps to 0; and 0/0 is
 * NaN, which `Math.max`/`Math.min` propagate, modelled as `None`.
 */
module ProgressBar {
  import opened Types

  /** `max` is optional and defaults to 100. */
  function EffectiveMax(max: Option<real>): (m: real)
    ensures max.None? ==> m == 100.0
    ensures max.Some? ==> m == max.value
  {
    if max.Some? then max.value else 100.0
  }

  function Clamp(x: real): (r: real)
    ensures 0.0 <= r <= 100.0
    ensures 0.0 <= x <= 100.0 ==> r == x
    ensures x < 0.0 ==> r == 0.0
    ensures x > 100.0 ==> r == 100.0
  {
    if x < 0.0 then 0.0 else if x > 100.0 then 100.0 else x
  }

  /** `Math.min(Math.max(0, (value / max) * 100), 100)`. */
  function Percentage(value: real, max: real): (r: Option<real>)
    ensures r.None? <==> max == 0.0 && value == 0.0
    ensures r.Some? ==> 0.0 <= r.value <= 100.0
    ensures max == 0.0 && value > 0.0 ==> r == Some(100.0)
    ensures max == 0.0 && value < 0.0 ==> r == Some(0.0)
  {
    if max == 0.0 then
      if value > 0.0 then Some(100.0)
      else if value < 0.0 then Some(0.0)
      else None
    else Some(Clamp(value / max * 100.0))
  }

  lemma {:induction false} DivMonotone(x: real, y: real, d: real)
    requires d > 0.0 && x <= y
    ensures x / d <= y / d
  {
  }

  /** For a positive maximum, a value at most 0 fills nothing and a value at least the maximum fills the bar. */
  lemma {:induction false} PercentageEnds(value: real, max: real)
    requires max > 0.0
    ensures value <= 0.0 ==> Percentage(value, max) == Some(0.0)
    ensures value >= max ==> Percentage(value, max) == Some(100.0)
  {
    if value <= 0.0 {
      DivMonotone(value, 0.0, max);
    }
    if value >= max {
      DivMonotone(max, value, max);
    }
  }

  /** For a fixed positive maximum the percentage never decreases as the value grows. */
  lemma {:induction false} PercentageMonotone(v1: real, v2: real, max: real)
    requires max > 0.0 && v1 <= v2
    ensures Percentage(v1, max).Some? && Percentage(v2, max).Some?
    ensures Percentage(v1, max).value <= Percentage(v2, max).value
  {
    DivMonotone(v1, v2, max);
  }

  /** With the default maximum of 100 a value already in 0..100 is drawn as itself. */
  lemma {:induction false} DefaultMaxIsIdentity(value: real)
    requires 0.0 <= value <= 100.0
    ensures Percentage(value, EffectiveMax(None)) == Some(value)
  {
  }

  /**
   * The optional label is shown only when it is truthy: present and not the
   * empty string.
   */
  predicate Truthy(caption: Option<string>) {
    caption.Some? && caption.value != ""
  }

  /** The row above the bar: the label text and the `value/max` text, each optional. */
  datatype LabelRow = LabelRow(caption: Option<string>, fraction: Option<(real, real)>)

  /**
   * The label row is rendered when there is a truthy label or `showValue`
   * is set; inside it the label appears iff it is truthy and `value/max`
   * iff `showValue`.
   */
  function LabelRowOf(caption: Option<string>, showValue: bool, value: real, max: real): (r: Option<LabelRow>)
    ensures r.Some? <==> Truthy(caption) || showValue
    ensures r.Some? ==> (r.value.caption.Some? <==> Truthy(caption))
    ensures r.Some? && r.value.caption.Some? ==> caption == r.value.caption
    ensures r.Some? ==> (r.value.fraction.Some? <==> showValue)
    ensures r.Some? && showValue ==> r.value.fraction == Some((value, max))
  {
    if Truthy(caption) || showValue then
      Some(LabelRow(if Truthy(caption) then caption else None,
                    if showValue then Some((value, max)) else None))
    else None
  }

  /** A rendered label row always has something in it. */
  lemma {:induction false} LabelRowNeverEmpty(caption: Option<string>, showValue: bool, value: real, max: real)
    requires LabelRowOf(caption, showValue, value, max).Some?
    ensures LabelRowOf(caption, showValue, value, max).value.caption.Some? ||
            LabelRowOf(caption, showValue, value, max).value.fraction.Some?
  {
  }
}

=== FILE: search.dfy ===
/**
 * The search boxes of the people lists: a student matches by name or by a
 * skill name, a mentor by name or by an expertise, case-insensitively; the
 * empty term matches everyone. Also the set of expertise areas the mentor
 * pages list and count.
 */
module Search {
  import opened Types
  import opened Lists
  import opened Text

  predicate StudentMatches(term: string, s: Student) {
    term == "" || MatchesTerm(term, s.name) ||
    exists i :: 0 <= i < |s.skills| && MatchesTerm(term, s.skills[i].name)
  }

  predicate MentorMatches(term: string, m: Mentor) {
    term == "" || MatchesTerm(term, m.name) || AnyMatches(term, m.expertise)
  }

  /** The students the search box lets through, in list order. */
  function SearchStudents(students: seq<Student>, term: string): (r: seq<Student>)
    ensures forall s :: s in r <==> s in students && StudentMatches(term, s)
    ensures forall s :: Count(r, s) == if StudentMatches(term, s) then Count(students, s) else 0
    ensures IsSubsequence(r, students)
  {
    FilterIsSubsequence((s: Student) => StudentMatches(term, s), students);
    Filter((s: Student) => StudentMatches(term, s), students)
  }

  /** The mentors the search box lets through, in list order. */
  function SearchMentors(mentors: seq<Mentor>, term: string): (r: seq<Mentor>)
    ensures forall m :: m in r <==> m in mentors && MentorMatches(term, m)
    ensures forall m :: Count(r, m) == if MentorMatches(term, m) then Count(mentors, m) else 0
    ensures IsSubsequence(r, mentors)
  {
    FilterIsSubsequence((m: Mentor) => MentorMatches(term, m), mentors);
    Filter((m: Mentor) => MentorMatches(term, m), mentors)
  }

  lemma {:induction false} EmptyTermKeepsStudents(students: seq<Student>)
    ensures SearchStudents(students, "") == students
  {
    FilterKeepsAll((s: Student) => StudentMatches("", s), students);
  }

  lemma {:induction false} EmptyTermKeepsMentors(mentors: seq<Mentor>)
    ensures SearchMentors(mentors, "") == mentors
  {
    FilterKeepsAll((m: Mentor) => MentorMatches("", m), mentors);
  }

  /** Typing the term in lower case lists the same students. */
  lemma {:induction false} StudentSearchIgnoresCase(students: seq<Student>, term: string)
    ensures SearchStudents(students, Lower(term)) == SearchStudents(students, term)
  {
    forall s | s in students ensures StudentMatches(Lower(term), s) == StudentMatches(term, s) {
      MatchesTermCaseInsensitive(term, s.name);
      forall i | 0 <= i < |s.skills| ensures MatchesTerm(Lower(term), s.skills[i].name) == MatchesTerm(term, s.skills[i].name) {
        MatchesTermCaseInsensitive(term, s.skills[i].name);
      }
    }
    FilterCongruent((s: Student) => StudentMatches(Lower(term), s), (s: Student) => StudentMatches(term, s), students);
  }

  /** Typing the term in lower case lists the same mentors. */
  lemma {:induction false} MentorSearchIgnoresCase(mentors: seq<Mentor>, term: string)
    ensures SearchMentors(mentors, Lower(term)) == SearchMentors(mentors, term)
  {
    forall m | m in mentors ensures MentorMatches(Lower(term), m) == MentorMatches(term, m) {
      MatchesTermCaseInsensitive(term, m.name);
      forall i | 0 <= i < |m.expertise| ensures MatchesTerm(Lower(term), m.expertise[i]) == MatchesTerm(term, m.expertise[i]) {
        MatchesTermCaseInsensitive(term, m.expertise[i]);
      }
    }
    FilterCongruent((m: Mentor) => MentorMatches(Lower(term), m), (m: Mentor) => MentorMatches(term, m), mentors);
  }

  function Expertises(mentors: seq<Mentor>): (r: seq<seq<string>>)
    ensures |r| == |mentors|
    ensures forall i :: 0 <= i < |mentors| ==> r[i] == mentors[i].expertise
  {
    seq(|mentors|, i requires 0 <= i < |mentors| => mentors[i].expertise)
  }

  /** Some mentor lists this expertise. */
  predicate Offers(mentors: seq<Mentor>, e: string) {
    exists i :: 0 <= i < |mentors| && e in mentors[i].expertise
  }

  /**
   * `Array.from(new Set(mentors.flatMap(m => m.expertise)))`: every expertise
   * of every mentor, each once, in order of first appearance.
   */
  function AllExpertise(mentors: seq<Mentor>): (r: seq<string>)
    ensures NoDups(r)
    ensures forall e :: e in r <==> Offers(mentors, e)
    ensures FirstOccurrenceOrder(Flatten(Expertises(mentors)), r)
  {
    var flat := Flatten(Expertises(mentors));
    assert forall e :: e in flat <==> Offers(mentors, e) by {
      forall e | e in flat ensures Offers(mentors, e) {
        var i :| 0 <= i < |Expertises(mentors)| && e in Expertises(mentors)[i];
        assert e in mentors[i].expertise;
      }
      forall e | Offers(mentors, e) ensures e in flat {
        var i :| 0 <= i < |mentors| && e in mentors[i].expertise;
        assert e in Expertises(mentors)[i];
      }
    }
    Dedupe(flat)
  }

  /** The "expertise areas" figure counts distinct expertise strings, however many mentors share one. */
  lemma {:induction false} ExpertiseAreaCount(mentors: seq<Mentor>)
    ensures |AllExpertise(mentors)| == |set e | e in Flatten(Expertises(mentors))|
    ensures |AllExpertise(mentors)| <= SumLengths(Expertises(mentors))
  {
    var flat := Flatten(Expertises(mentors));
    DedupeCard(flat);
    FlattenLength(Expertises(mentors));
    SubsequenceLength(Dedupe(flat), flat);
  }
}

=== FILE: stats.dfy ===
/**
 * The aggregate arithmetic the pages display: `Math.round` of a quotient,
 * the rounded mean of goal progress (with and without the empty-list guard),
 * completion percentages, the mentors' average rating and the satisfaction
 * figure derived from a rating.
 *
 * Quotients are exact rationals here (kept in integers by cross
 * multiplication); the source computes them in binary floating point.
 */
module Stats {
  import opened Types

  function Sum(xs: seq<int>): int {
    if |xs| == 0 then 0 else xs[0] + Sum(xs[1..])
  }

  lemma {:induction false} SumBounds(xs: seq<int>, lo: int, hi: int)
    requires forall i :: 0 <= i < |xs| ==> lo <= xs[i] <= hi
    ensures |xs| * lo <= Sum(xs) <= |xs| * hi
  {
    if |xs| > 0 {
      SumBounds(xs[1..], lo, hi);
    }
  }

  lemma {:induction false} SumAppend(xs: seq<int>, ys: seq<int>)
    ensures Sum(xs + ys) == Sum(xs) + Sum(ys)
  {
    if |xs| == 0 {
      assert xs + ys == ys;
    } else {
      assert (xs + ys)[1..] == xs[1..] + ys;
      SumAppend(xs[1..], ys);
    }
  }

  /**
   * `Math.round(a / n)`: the integer r with r - 1/2 <= a/n < r + 1/2, that is
   * the nearest integer with halves rounded towards positive infinity, as
   * JavaScript rounds. Multiplying through by 2n keeps it in integers.
   */
  function RoundDiv(a: int, n: int): (r: int)
    requires n > 0
    ensures 2 * n * r <= 2 * a + n < 2 * n * r + 2 * n
  {
    (2 * a + n) / (2 * n)
  }

  /** The characterisation pins the rounded value down uniquely. */
  lemma {:induction false} RoundDivUnique(a: int, n: int, r: int)
    requires n > 0
    requires 2 * n * r <= 2 * a + n < 2 * n * r + 2 * n
    ensures r == RoundDiv(a, n)
  {
    var q := RoundDiv(a, n);
    if r < q {
      MulMonotone(2 * n, r + 1, q);
    } else if r > q {
      MulMonotone(2 * n, q + 1, r);
    }
  }

  /** Rounding a quotient of values between two integers stays between them. */
  lemma {:induction false} RoundDivWithin(a: int, n: int, lo: int, hi: int)
    requires n > 0
    requires n * lo <= a <= n * hi
    ensures lo <= RoundDiv(a, n) <= hi
  {
    var r := RoundDiv(a, n);
    if r < lo {
      assert 2 * n * r + 2 * n <= 2 * n * lo by {
        assert r + 1 <= lo;
        MulMonotone(2 * n, r + 1, lo);
      }
    }
    if r > hi {
      assert 2 * n * hi + 2 * n <= 2 * n * r by {
        assert hi + 1 <= r;
        MulMonotone(2 * n, hi + 1, r);
      }
    }
  }

  lemma {:induction false} MulMonotone(k: int, x: int, y: int)
    requires k >= 0 && x <= y
    ensures k * x <= k * y
  {
  }

  function Progresses(goals: seq<Goal>): (ps: seq<int>)
    ensures |ps| == |goals|
    ensures forall i :: 0 <= i < |goals| ==> ps[i] == goals[i].progress
  {
    seq(|goals|, i requires 0 <= i < |goals| => goals[i].progress)
  }

  /**
   * Overall progress as the pages that guard it compute it: 0 for no goals,
   * otherwise the mean progress rounded half up.
   */
  function GuardedMeanProgress(goals: seq<Goal>): (r: int)
    ensures |goals| == 0 ==> r == 0
    ensures |goals| > 0 ==>
      2 * |goals| * r <= 2 * Sum(Progresses(goals)) + |goals| < 2 * |goals| * r + 2 * |goals|
  {
    if |goals| > 0 then RoundDiv(Sum(Progresses(goals)), |goals|) else 0
  }

  /**
   * Overall progress as the mentor dashboard computes it, with no guard: the
   * rounded mean, or the NaN that `0 / 0` gives for a student without goals
   * (`None`).
   */
  function UnguardedMeanProgress(goals: seq<Goal>): (r: Option<int>)
    ensures r.None? <==> |goals| == 0
    ensures r.Some? ==>
      2 * |goals| * r.value <= 2 * Sum(Progresses(goals)) + |goals| < 2 * |goals| * r.value + 2 * |goals|
  {
    if |goals| == 0 then None else Some(RoundDiv(Sum(Progresses(goals)), |goals|))
  }

  /** The two means agree wherever the unguarded one is a number; without goals only the guarded one is (0). */
  lemma {:induction false} GuardedMeanAgrees(goals: seq<Goal>)
    ensures |goals| > 0 ==> UnguardedMeanProgress(goals) == Some(GuardedMeanProgress(goals))
    ensures |goals| == 0 ==> UnguardedMeanProgress(goals).None? && GuardedMeanProgress(goals) == 0
  {
    if |goals| > 0 {
      RoundDivUnique(Sum(Progresses(goals)), |goals|, GuardedMeanProgress(goals));
    }
  }

  /** The rounded mean lies between the smallest and the largest progress. */
  lemma {:induction false} MeanProgressWithin(goals: seq<Goal>, lo: int, hi: int)
    requires |goals| > 0
    requires forall i :: 0 <= i < |goals| ==> lo <= goals[i].progress <= hi
    ensures lo <= GuardedMeanProgress(goals) <= hi
  {
    var ps := Progresses(goals);
    SumBounds(ps, lo, hi);
    RoundDivWithin(Sum(ps), |goals|, lo, hi);
  }

  /** Progress values that are percentages give a percentage. */
  lemma {:induction false} MeanProgressIsPercentage(goals: seq<Goal>)
    requires forall i :: 0 <= i < |goals| ==> 0 <= goals[i].progress <= 100
    ensures 0 <= GuardedMeanProgress(goals) <= 100
  {
    if |goals| > 0 {
      MeanProgressWithin(goals, 0, 100);
    }
  }

  /**
   * `Math.round((part / total) * 100)`; `None` stands for the NaN or Infinity
   * that an empty total produces. The model rounds the exact percentage
   * 100 * part / total; the page rounds the binary double `(part / total) * 100`,
   * whose error can move an exact half below it (23 of 40 is 57.49999999999999
   * as a double, so the page shows 57 where this gives 58).
   */
  function RoundedPercentage(part: int, total: int): (r: Option<int>)
    ensures r.None? <==> total == 0
    ensures total > 0 && 0 <= part <= total ==> r.Some? && 0 <= r.value <= 100
    ensures total > 0 ==>
      r.Some? && 2 * total * r.value <= 200 * part + total < 2 * total * r.value + 2 * total
  {
    if total == 0 then None
    else if total > 0 then
      var v := RoundDiv(100 * part, total);
      assert 0 <= part <= total ==> 0 <= v <= 100 by {
        if 0 <= part <= total {
          RoundDivWithin(100 * part, total, 0, 100);
        }
      }
      Some(v)
    else
      Some(RoundDiv(-100 * part, -total))
  }

  function SumRatings(mentors: seq<Mentor>): int {
    if |mentors| == 0 then 0 else mentors[0].ratingTenths + SumRatings(mentors[1..])
  }

  lemma {:induction false} SumRatingsBounds(mentors: seq<Mentor>, lo: int, hi: int)
    requires forall i :: 0 <= i < |mentors| ==> lo <= mentors[i].ratingTenths <= hi
    ensures |mentors| * lo <= SumRatings(mentors) <= |mentors| * hi
  {
    if |mentors| > 0 {
      SumRatingsBounds(mentors[1..], lo, hi);
    }
  }

  /**
   * The "Average Rating" card: the mean rating shown to one decimal place,
   * that is the mean in tenths rounded half up; `None` for the NaN an empty
   * list produces.
   */
  function AverageRatingTenths(mentors: seq<Mentor>): (r: Option<int>)
    ensures r.None? <==> |mentors| == 0
    ensures r.Some? ==>
      var n := |mentors|;
      2 * n * r.value <= 2 * SumRatings(mentors) + n < 2 * n * r.value + 2 * n
  {
    if |mentors| == 0 then None else Some(RoundDiv(SumRatings(mentors), |mentors|))
  }

  /** The average lies between the lowest and the highest rating. */
  lemma {:induction false} AverageRatingWithin(mentors: seq<Mentor>, lo: int, hi: int)
    requires |mentors| > 0
    requires forall i :: 0 <= i < |mentors| ==> lo <= mentors[i].ratingTenths <= hi
    ensures lo <= AverageRatingTenths(mentors).value <= hi
  {
    SumRatingsBounds(mentors, lo, hi);
    RoundDivWithin(SumRatings(mentors), |mentors|, lo, hi);
  }

  /**
   * "Student Satisfaction": `rating * 20` percent. With the rating in tenths
   * this is twice the tenths.
   */
  function Satisfaction(ratingTenths: int): (pct: int)
    ensures (pct as real) == (ratingTenths as real) / 10.0 * 20.0
    ensures 0 <= ratingTenths <= 50 ==> 0 <= pct <= 100
    ensures pct == 100 <==> ratingTenths == 50
  {
    2 * ratingTenths
  }
}

=== FILE: text.dfy ===
/**
 * The string operations the pages use: `toLowerCase` (ASCII letters only),
 * `includes`, `trim` and `replace` with a one-character pattern, plus the
 * case-insensitive search test built from them.
 */
module Text {

  function LowerChar(c: char): char {
    if 'A' <= c <= 'Z' then (c as int + 32) as char else c
  }

  predicate IsUpper(c: char) {
    'A' <= c <= 'Z'
  }

  /** `s.toLowerCase()` restricted to ASCII: every upper-case letter is mapped to its lower-case form. */
  function Lower(s: string): (r: string)
    ensures |r| == |s|
    ensures forall i :: 0 <= i < |r| ==> !IsUpper(r[i])
    ensures forall i :: 0 <= i < |s| && !IsUpper(s[i]) ==> r[i] == s[i]
  {
    seq(|s|, i requires 0 <= i < |s| => LowerChar(s[i]))
  }

  lemma {:induction false} LowerIdempotent(s: string)
    ensures Lower(Lower(s)) == Lower(s)
  {
  }

  lemma {:induction false} LowerAppend(s: string, t: string)
    ensures Lower(s + t) == Lower(s) + Lower(t)
  {
  }

  /** `needle` occurs in `hay` starting at index `i`. */
  predicate OccursAt(hay: string, needle: string, i: int) {
    0 <= i && i + |needle| <= |hay| && hay[i..i + |needle|] == needle
  }

  /** `hay.includes(needle)`: some position of `hay` starts a copy of `needle`. */
  function Includes(hay: string, needle: string): (b: bool)
    ensures b <==> exists i :: OccursAt(hay, needle, i)
    decreases |hay|
  {
    if |hay| < |needle| then
      assert forall i :: !OccursAt(hay, needle, i);
      false
    else if hay[..|needle|] == needle then
      assert OccursAt(hay, needle, 0);
      true
    else
      var rest := Includes(hay[1..], needle);
      assert !OccursAt(hay, needle, 0);
      assert forall i :: OccursAt(hay[1..], needle, i) <==> OccursAt(hay, needle, i + 1) by {
        forall i ensures OccursAt(hay[1..], needle, i) <==> OccursAt(hay, needle, i + 1) {
          if 0 <= i && i + |needle| <= |hay[1..]| {
            assert hay[1..][i..i + |needle|] == hay[i + 1..i + 1 + |needle|];
          }
        }
      }
      assert rest ==> exists i :: OccursAt(hay, needle, i) by {
        if rest {
          var i :| OccursAt(hay[1..], needle, i);
          assert OccursAt(hay, needle, i + 1);
        }
      }
      assert (exists i :: OccursAt(hay, needle, i)) ==> rest by {
        if exists i :: OccursAt(hay, needle, i) {
          var i :| OccursAt(hay, needle, i);
          assert i != 0;
          assert OccursAt(hay[1..], needle, i - 1);
        }
      }
      rest
  }

  /** Every string includes the empty string. */
  lemma {:induction false} IncludesEmpty(hay: string)
    ensures Includes(hay, "")
  {
    assert OccursAt(hay, "", 0);
  }

  /** Text inside a string is inside any string containing it. */
  lemma {:induction false} IncludesWithin(pre: string, hay: string, post: string, needle: string)
    requires Includes(hay, needle)
    ensures Includes(pre + hay + post, needle)
  {
    var i :| OccursAt(hay, needle, i);
    assert (pre + hay + post)[|pre| + i..|pre| + i + |needle|] == hay[i..i + |needle|];
    assert OccursAt(pre + hay + post, needle, |pre| + i);
  }

  /**
   * The search test the list pages share: `text.toLowerCase().includes(term.toLowerCase())`.
   */
  predicate MatchesTerm(term: string, text: string) {
    Includes(Lower(text), Lower(term))
  }

  /** The search is case-insensitive: lower-casing either side changes nothing. */
  lemma {:induction false} MatchesTermCaseInsensitive(term: string, text: string)
    ensures MatchesTerm(Lower(term), text) == MatchesTerm(term, text)
    ensures MatchesTerm(term, Lower(text)) == MatchesTerm(term, text)
  {
    LowerIdempotent(term);
    LowerIdempotent(text);
  }

  /** `some` over a list of texts, as in `skills.some(s => s.toLowerCase().includes(term))`. */
  predicate AnyMatches(term: string, texts: seq<string>) {
    exists i :: 0 <= i < |texts| && MatchesTerm(term, texts[i])
  }

  /**
   * The white space `String.prototype.trim` removes: the ECMAScript WhiteSpace
   * and LineTerminator code points.
   */
  predicate IsSpace(c: char) {
    var n := c as int;
    n == 0x09 || n == 0x0A || n == 0x0B || n == 0x0C || n == 0x0D || n == 0x20 ||
    n == 0xA0 || n == 0x1680 || (0x2000 <= n <= 0x200A) || n == 0x2028 || n == 0x2029 ||
    n == 0x202F || n == 0x205F || n == 0x3000 || n == 0xFEFF
  }

  predicate Blank(s: string) {
    forall i :: 0 <= i < |s| ==> IsSpace(s[i])
  }

  function TrimStart(s: string): (r: string)
    ensures |r| <= |s| && r == s[|s| - |r|..]
    ensures Blank(s[..|s| - |r|])
    ensures r != [] ==> !IsSpace(r[0])
  {
    if |s| > 0 && IsSpace(s[0]) then
      var r := TrimStart(s[1..]);
      assert s[1..][..|s[1..]| - |r|] == s[1..|s| - |r|];
      r
    else s
  }

  function TrimEnd(s: string): (r: string)
    ensures |r| <= |s| && r == s[..|r|]
    ensures Blank(s[|r|..])
    ensures r != [] ==> !IsSpace(r[|r| - 1])
  {
    if |s| > 0 && IsSpace(s[|s| - 1]) then
      var r := TrimEnd(s[..|s| - 1]);
      forall i | 0 <= i < |s[|r|..]| ensures IsSpace(s[|r|..][i]) {
        if |r| + i < |s| - 1 {
          assert s[|r|..][i] == s[..|s| - 1][|r|..][i];
        }
      }
      r
    else s
  }

  /** Trimming both ends leaves nothing exactly when everything was white space. */
  lemma {:induction false} TrimmedEmptyIffBlank(s: string)
    ensures TrimEnd(TrimStart(s)) == [] <==> Blank(s)
  {
    if TrimEnd(TrimStart(s)) == [] {
      EmptyTrimWasBlank(s);
    }
  }

  /** When trimming leaves nothing, everything was white space. */
  lemma {:induction false} EmptyTrimWasBlank(s: string)
    requires TrimEnd(TrimStart(s)) == []
    ensures Blank(s)
  {
    var a := TrimStart(s);
    assert a[0..] == a;
    assert s[..|s|] == s;
  }

  /** What is left after trimming both ends is a stretch of the original. */
  lemma {:induction false} TrimmedWithin(s: string)
    ensures Includes(s, TrimEnd(TrimStart(s)))
  {
    var a := TrimStart(s);
    var r := TrimEnd(a);
    var k := |s| - |a|;
    assert s[k..k + |r|] == r;
    assert OccursAt(s, r, k);
  }

  /**
   * `s.trim()`: the stretch of `s` left after removing white space at both
   * ends; it is empty exactly when `s` is all white space.
   */
  function Trim(s: string): (r: string)
    ensures Includes(s, r)
    ensures r == [] <==> Blank(s)
    ensures r != [] ==> !IsSpace(r[0]) && !IsSpace(r[|r| - 1])
  {
    TrimmedWithin(s);
    TrimmedEmptyIffBlank(s);
    TrimEnd(TrimStart(s))
  }

  /** Lower-casing commutes with taking a slice. */
  lemma {:induction false} LowerSlice(s: string, i: int, j: int)
    requires 0 <= i <= j <= |s|
    ensures Lower(s)[i..j] == Lower(s[i..j])
  {
  }

  /** A lower-case letter absent from a text in both cases is absent from its lower-cased form. */
  lemma {:induction false} LowerMissing(s: string, c: char, upper: char)
    requires IsUpper(upper) && LowerChar(upper) == c && !IsUpper(c)
    requires c !in s && upper !in s
    ensures c !in Lower(s)
  {
    forall i | 0 <= i < |s| ensures Lower(s)[i] != c {
      assert s[i] in s;
    }
  }

  /** A needle with a character the text lacks does not occur in it. */
  lemma {:induction false} MissingCharacter(hay: string, needle: string, c: char)
    requires c in needle && c !in hay
    ensures !Includes(hay, needle)
  {
    var j :| 0 <= j < |needle| && needle[j] == c;
    forall i | 0 <= i && i + |needle| <= |hay| ensures !OccursAt(hay, needle, i) {
      assert hay[i..i + |needle|][j] == hay[i + j];
      assert hay[i + j] in hay;
    }
  }

  /** A needle cannot start inside a prefix that lacks its first character. */
  lemma {:induction false} SkipPrefix(pre: string, rest: string, needle: string)
    requires |needle| > 0 && needle[0] !in pre
    ensures Includes(pre + rest, needle) == Includes(rest, needle)
  {
    var hay := pre + rest;
    forall i | 0 <= i < |pre| && i + |needle| <= |hay| ensures !OccursAt(hay, needle, i) {
      assert hay[i..i + |needle|][0] == pre[i];
      assert pre[i] in pre;
    }
    forall i | |pre| <= i ensures OccursAt(hay, needle, i) <==> OccursAt(rest, needle, i - |pre|) {
      if i + |needle| <= |hay| {
        assert rest[i - |pre|..i - |pre| + |needle|] == hay[i..i + |needle|];
      }
    }
    if Includes(hay, needle) {
      var i :| OccursAt(hay, needle, i);
      assert OccursAt(rest, needle, i - |pre|);
    }
    if Includes(rest, needle) {
      var k :| OccursAt(rest, needle, k);
      assert OccursAt(hay, needle, k + |pre|);
    }
  }

  /** `s.indexOf(c)` for a character that occurs in `s`. */
  function IndexOf(s: string, c: char): (k: nat)
    requires c in s
    ensures k < |s| && s[k] == c && c !in s[..k]
  {
    if s[0] == c then 0
    else
      var k := IndexOf(s[1..], c);
      assert s[..k + 1] == [s[0]] + s[1..][..k];
      k + 1
  }

  /**
   * `s.replace(from, to)` with a one-character pattern: only the first
   * occurrence is replaced.
   */
  function ReplaceFirst(s: string, from: char, to: char): (r: string)
    ensures |r| == |s|
    ensures from !in s ==> r == s
    ensures from in s ==> exists k :: 0 <= k < |s| && s[k] == from && from !in s[..k] &&
                                      r == s[..k] + [to] + s[k + 1..]
  {
    if from in s then
      var k := IndexOf(s, from);
      s[..k] + [to] + s[k + 1..]
    else s
  }

  /** The occurrence `replace` rewrites is the first one. */
  lemma {:induction false} ReplaceFirstAt(s: string, from: char, to: char, k: int)
    requires 0 <= k < |s| && s[k] == from && from !in s[..k]
    ensures ReplaceFirst(s, from, to) == s[..k] + [to] + s[k + 1..]
  {
    assert IndexOf(s, from) == k;
  }
}

=== FILE: types.dfy ===
/**
 * Records and closed enumerations of the mentoring dashboard.
 *
 * The source's string-literal union types ('student' | 'mentor' | 'admin',
 * the goal, meeting and assignment statuses) become datatypes here, each with
 * its text form and a parser, so that "takes exactly these values" is a
 * round-trip statement about the two.
 *
 * Cross references between people are by id: a student lists the ids of its
 * mentors and a mentor the ids of its students, and meetings and assignments
 * name both parties by id. Goals, achievements, skills and posts are embedded
 * by value: the fixture shares them between records and never mutates them.
 */
module Types {

  type Id = string

  datatype Option<+T> = None | Some(value: T)

  datatype Role = StudentRole | MentorRole | AdminRole

  function RoleText(r: Role): string {
    match r
    case StudentRole => "student"
    case MentorRole => "mentor"
    case AdminRole => "admin"
  }

  function ParseRole(s: string): (r: Option<Role>)
    ensures r.Some? ==> RoleText(r.value) == s
    ensures forall x: Role :: RoleText(x) == s ==> r == Some(x)
  {
    if s == "student" then Some(StudentRole)
    else if s == "mentor" then Some(MentorRole)
    else if s == "admin" then Some(AdminRole)
    else None
  }

  /** A role is exactly one of the three texts, and each text names one role. */
  lemma {:induction false} RoleRoundTrip(r: Role)
    ensures ParseRole(RoleText(r)) == Some(r)
  {
  }

  datatype GoalStatus = NotStarted | InProgress | Completed

  function GoalStatusText(s: GoalStatus): string {
    match s
    case NotStarted => "not-started"
    case InProgress => "in-progress"
    case Completed => "completed"
  }

  function ParseGoalStatus(s: string): (r: Option<GoalStatus>)
    ensures r.Some? ==> GoalStatusText(r.value) == s
    ensures forall x: GoalStatus :: GoalStatusText(x) == s ==> r == Some(x)
  {
    if s == "not-started" then Some(NotStarted)
    else if s == "in-progress" then Some(InProgress)
    else if s == "completed" then Some(Completed)
    else None
  }

  lemma {:induction false} GoalStatusRoundTrip(s: GoalStatus)
    ensures ParseGoalStatus(GoalStatusText(s)) == Some(s)
  {
  }

  datatype MeetingStatus = Scheduled | MeetingCompleted | Cancelled

  function MeetingStatusText(s: MeetingStatus): string {
    match s
    case Scheduled => "scheduled"
    case MeetingCompleted => "completed"
    case Cancelled => "cancelled"
  }

  function ParseMeetingStatus(s: string): (r: Option<MeetingStatus>)
    ensures r.Some? ==> MeetingStatusText(r.value) == s
    ensures forall x: MeetingStatus :: MeetingStatusText(x) == s ==> r == Some(x)
  {
    if s == "scheduled" then Some(Scheduled)
    else if s == "completed" then Some(MeetingCompleted)
    else if s == "cancelled" then Some(Cancelled)
    else None
  }

  lemma {:induction false} MeetingStatusRoundTrip(s: MeetingStatus)
    ensures ParseMeetingStatus(MeetingStatusText(s)) == Some(s)
  {
  }

  datatype AssignmentStatus = Assigned | Working | Submitted | Reviewed

  function AssignmentStatusText(s: AssignmentStatus): string {
    match s
    case Assigned => "assigned"
    case Working => "in-progress"
    case Submitted => "submitted"
    case Reviewed => "reviewed"
  }

  function ParseAssignmentStatus(s: string): (r: Option<AssignmentStatus>)
    ensures r.Some? ==> AssignmentStatusText(r.value) == s
    ensures forall x: AssignmentStatus :: AssignmentStatusText(x) == s ==> r == Some(x)
  {
    if s == "assigned" then Some(Assigned)
    else if s == "in-progress" then Some(Working)
    else if s == "submitted" then Some(Submitted)
    else if s == "reviewed" then Some(Reviewed)
    else None
  }

  lemma {:induction false} AssignmentStatusRoundTrip(s: AssignmentStatus)
    ensures ParseAssignmentStatus(AssignmentStatusText(s)) == Some(s)
  {
  }

  datatype Goal = Goal(id: Id, title: string, description: string, status: GoalStatus, progress: int)

  datatype Achievement = Achievement(id: Id, title: string, description: string, icon: string)

  datatype Skill = Skill(id: Id, name: string, level: int, category: string)

  /** A student; its role is 'student' by construction. */
  datatype Student = Student(
    id: Id,
    name: string,
    email: string,
    mentors: seq<Id>,
    goals: seq<Goal>,
    achievements: seq<Achievement>,
    skills: seq<Skill>)
  {
    function Role(): Role { StudentRole }
    function AsUser(): User { User(id, name, email, StudentRole) }
  }

  /** A mentor; its role is 'mentor' by construction. The rating is kept in tenths. */
  datatype Mentor = Mentor(
    id: Id,
    name: string,
    email: string,
    students: seq<Id>,
    expertise: seq<string>,
    ratingTenths: int,
    bio: string)
  {
    function Role(): Role { MentorRole }
    function AsUser(): User { User(id, name, email, MentorRole) }
  }

  datatype Admin = Admin(id: Id, name: string, email: string) {
    function Role(): Role { AdminRole }
    function AsUser(): User { User(id, name, email, AdminRole) }
  }

  /** The fields every account has, whatever its role. */
  datatype User = User(id: Id, name: string, email: string, role: Role)

  datatype Meeting = Meeting(
    id: Id,
    mentorId: Id,
    studentId: Id,
    title: string,
    description: string,
    status: MeetingStatus,
    notes: string)

  datatype Assignment = Assignment(
    id: Id,
    title: string,
    description: string,
    status: AssignmentStatus,
    feedback: string,
    grade: int,
    mentorId: Id,
    studentId: Id)

  datatype Comment = Comment(id: Id, authorId: Id, content: string, likes: int)

  datatype Post = Post(id: Id, authorId: Id, content: string, likes: int, comments: seq<Comment>)

  datatype Community = Community(id: Id, name: string, description: string, members: seq<Id>, posts: seq<Post>)

  function StudentId(s: Student): Id { s.id }
  function MentorId(m: Mentor): Id { m.id }
  function GoalId(g: Goal): Id { g.id }
  function AchievementId(a: Achievement): Id { a.id }
  function SkillId(s: Skill): Id { s.id }
  function MeetingId(m: Meeting): Id { m.id }
  function AssignmentId(a: Assignment): Id { a.id }
  function CommunityId(c: Community): Id { c.id }
  function PostId(p: Post): Id { p.id }
}

=== FILE: videocall.dfy ===
/**
 * The video session page's control bar: five on/off flags and the buttons
 * that flip them. Chat and participants are side panels of which at most one
 * is open.
 */
module VideoCall {

  datatype Controls = Controls(
    muted: bool,
    videoOff: bool,
    sharing: bool,
    chatOpen: bool,
    participantsOpen: bool)

  /** Every flag starts off. */
  const Initial := Controls(false, false, false, false, false)

  datatype Click = MuteClick | VideoClick | ShareClick | ChatClick | ParticipantsClick

  /** At most one side panel is open. */
  predicate OnePanel(c: Controls) {
    !(c.chatOpen && c.participantsOpen)
  }

  /**
   * One click. Mute, video and share flip their own flag. Chat flips the chat
   * panel and closes the participants panel; participants flips its panel and
   * closes the chat.
   */
  function Press(c: Controls, k: Click): (r: Controls)
    ensures k == MuteClick ==> r == c.(muted := !c.muted)
    ensures k == VideoClick ==> r == c.(videoOff := !c.videoOff)
    ensures k == ShareClick ==> r == c.(sharing := !c.sharing)
    ensures k == ChatClick ==> r.chatOpen == !c.chatOpen && !r.participantsOpen
    ensures k == ParticipantsClick ==> r.participantsOpen == !c.participantsOpen && !r.chatOpen
    ensures k == ChatClick || k == ParticipantsClick ==>
      r.muted == c.muted && r.videoOff == c.videoOff && r.sharing == c.sharing
  {
    match k
    case MuteClick => c.(muted := !c.muted)
    case VideoClick => c.(videoOff := !c.videoOff)
    case ShareClick => c.(sharing := !c.sharing)
    case ChatClick =>
      var c1 := c.(chatOpen := !c.chatOpen);
      if c.participantsOpen then c1.(participantsOpen := false) else c1
    case ParticipantsClick =>
      var c1 := c.(participantsOpen := !c.participantsOpen);
      if c.chatOpen then c1.(chatOpen := false) else c1
  }

  function PressAll(c: Controls, clicks: seq<Click>): Controls
    decreases |clicks|
  {
    if |clicks| == 0 then c else PressAll(Press(c, clicks[0]), clicks[1..])
  }

  /** From any state with at most one panel open, a click leaves at most one open. */
  lemma {:induction false} PressKeepsOnePanel(c: Controls, k: Click)
    requires OnePanel(c)
    ensures OnePanel(Press(c, k))
  {
  }

  /** From any state with at most one panel open, the initial state among them, no sequence of clicks opens both panels. */
  lemma {:induction false} NeverBothPanels(c: Controls, clicks: seq<Click>)
    requires OnePanel(c)
    ensures OnePanel(PressAll(c, clicks))
    decreases |clicks|
  {
    if |clicks| > 0 {
      PressKeepsOnePanel(c, clicks[0]);
      NeverBothPanels(Press(c, clicks[0]), clicks[1..]);
    }
  }

  lemma {:induction false} ReachableOnePanel(clicks: seq<Click>)
    ensures OnePanel(PressAll(Initial, clicks))
  {
    NeverBothPanels(Initial, clicks);
  }

  /** The number of times a click kind occurs in a sequence. */
  function Count(clicks: seq<Click>, k: Click): nat {
    if |clicks| == 0 then 0 else (if clicks[0] == k then 1 else 0) + Count(clicks[1..], k)
  }

  /**
   * Mute, video and share are independent: after any clicks, each flag is its
   * start value flipped once per click of its own button, whatever else was
   * clicked.
   */
  lemma {:induction false} MediaFlagsIndependent(c: Controls, clicks: seq<Click>)
    ensures PressAll(c, clicks).muted == (c.muted != (Count(clicks, MuteClick) % 2 == 1))
    ensures PressAll(c, clicks).videoOff == (c.videoOff != (Count(clicks, VideoClick) % 2 == 1))
    ensures PressAll(c, clicks).sharing == (c.sharing != (Count(clicks, ShareClick) % 2 == 1))
    decreases |clicks|
  {
    if |clicks| > 0 {
      MediaFlagsIndependent(Press(c, clicks[0]), clicks[1..]);
    }
  }

  /** What the control bar and the self view show. */
  datatype View = View(muteLabel: string, videoLabel: string, shareLabel: string, micOffBadge: bool)

  function ViewOf(c: Controls): (v: View)
    ensures v.muteLabel == "Unmute" <==> c.muted
    ensures v.muteLabel in {"Unmute", "Mute"}
    ensures v.videoLabel == "Start Video" <==> c.videoOff
    ensures v.videoLabel in {"Start Video", "Stop Video"}
    ensures v.shareLabel == "Stop Sharing" <==> c.sharing
    ensures v.shareLabel in {"Stop Sharing", "Share Screen"}
    ensures v.micOffBadge <==> c.muted
  {
    View(if c.muted then "Unmute" else "Mute",
         if c.videoOff then "Start Video" else "Stop Video",
         if c.sharing then "Stop Sharing" else "Share Screen",
         c.muted)
  }
}
